=== FILE: README.md ===
# Stepwise linear-model selection, in Dafny

This project models the stepwise regression engine of OpenTURNS. The engine is
`LinearModelStepwiseAlgorithm::run()`, together with its two candidate scorers
(`UpdateForwardFunctor`, `UpdateBackwardFunctor`) and their `join`. The project
also models the configuration and validation surface of
`LinearModelStepwiseFactory`, and then proves properties of the model.

The algorithm works on `Xmax`, the basis functions evaluated on the input
sample, with one column per basis function. It searches over subsets of those
columns. Each iteration does four things:

1. It evaluates the current design with its Gram inverse `A = (Xᵀ X)⁻¹`, giving
   `Lstar = penalty·p + n·log(rss/n)`.
2. It scores every column that could be added, using a rank-one update. The best
   of these gives `LF`.
3. It scores every non-minimal column that could be removed, using a downdate.
   The best of these gives `LB`.
4. It stops, adds or removes a column. It adds when `LF < LB` and removes
   otherwise, ties included.

The index set `currentIndices_`, the reverse map `columnMaxToCurrent` (the
sentinel `P` marks absent columns) and the design `currentX_` change together.
Their agreement is the invariant `Bookkeeping.Consistent`.

Modules, in dependency order:

| module | file | contents |
|---|---|---|
| `Outcomes` | outcomes.dfy | `Option`, `Result`, the exceptions |
| `LinAlg` | linalg.dfy | column-major vectors and matrices over exact reals, dot-product and matrix-product algebra |
| `Criteria` | criteria.dfy | criteria with the source's `<`; `MaxNumericalScalar` is `Inf` and NaN is `NaN`; the penalized criterion; the move decision |
| `Scan` | scan.dfy | the scorers' argmin loop as a fold, and `join` |
| `Bookkeeping` | bookkeeping.dfy | index set, reverse map and design; candidate sets; add and remove; starting designs; `buildCurrentMatrixFromIndices` as written |
| `Likelihood` | likelihood.dfy | `computeLogLikelihood`: `B`, the residual and its squared norm; least-squares facts |
| `Scorers` | scorers.dfy | the forward update and the backward downdate for one candidate |
| `MetaModelTerms` | terms.dfy | which basis function each coefficient of the result multiplies |
| `Stepwise` | stepwise.dfy | the algorithm object, its scans, criteria and decision, and the index set a sequence of moves produces |
| `Progress` | progress.dfy | an accepted move lowers the criterion; the search never revisits an index set |
| `Driver` | driver.dfy | `run()` and `getResult()` |
| `Factory` | factory.dfy | `LinearModelStepwiseFactory` |

Some of the source's dependencies are passed in as parameters:

- The linear-algebra library's Gram solver is the function parameter
  `gram: seq<Vec> -> Option<seq<Vec>>`. `None` stands for a solver failure.
  `Stepwise.GramSolver` states what the solver promises: whatever it returns is
  an exact inverse of the Gram matrix.
- `std::log` is the parameter `ln: real -> real`. The local-optimum results
  assume only that `ln` is increasing (`Criteria.LnMonotone`).
- The basis evaluation is replaced by `xmax`, a given sequence of columns.

## Model

Paths are relative to the repository root. `A.cxx` abbreviates
`lib/src/Uncertainty/Algorithm/MetaModel/Kriging/LinearModelStepwiseAlgorithm.cxx`
and `F.cxx` abbreviates `lib/src/Base/Stat/LinearModelStepwiseFactory.cxx` in
the prose below. The table gives full paths.

| member | source | states |
|---|---|---|
| Criteria.Penalized | lib/src/Uncertainty/Algorithm/MetaModel/Kriging/LinearModelStepwiseAlgorithm.cxx:439 | The criterion is `penalty·df + n·ln(rss/n)` for a finite rss. An `Inf` score (no candidate) stays `Inf`. An empty sample or a NaN score gives NaN, and only those do. |
| Criteria.PenalizedAsWritten | lib/src/Uncertainty/Algorithm/MetaModel/Kriging/LinearModelStepwiseAlgorithm.cxx:439-456 | The criterion as the code computes it. For a scan that found a candidate it is the model's. For one that found none, the code's finite `MaxNumericalScalar` gives the finite `penalty·df + n·ln(MaxNumericalScalar/n)` where the model has `Inf`. An empty sample gives NaN. |
| Criteria.UnsignedPred | lib/src/Uncertainty/Algorithm/MetaModel/Kriging/LinearModelStepwiseAlgorithm.cxx:456 | `p - 1` on an unsigned integer is the predecessor for `p > 0`. At `p = 0` it wraps around to `2⁶⁴ - 1`. |
| Criteria.Decide | lib/src/Uncertainty/Algorithm/MetaModel/Kriging/LinearModelStepwiseAlgorithm.cxx:459-474 | The iteration stops exactly when neither `LF < Lstar` nor `LB < Lstar`. It adds only when `LF` beats both `Lstar` and `LB`. An exact tie `LF == LB` below `Lstar` removes. |
| Criteria.PenalizedMonotone | lib/src/Uncertainty/Algorithm/MetaModel/Kriging/LinearModelStepwiseAlgorithm.cxx:439 | With an increasing logarithm, a larger residual sum of squares never gives a smaller criterion for the same number of columns. |
| Scan.Fold | lib/src/Uncertainty/Algorithm/MetaModel/Kriging/LinearModelStepwiseAlgorithm.cxx:244-248 | The scan ends either on its start pair or on a scored candidate whose criterion is strictly below the start. |
| Scan.Join | lib/src/Uncertainty/Algorithm/MetaModel/Kriging/LinearModelStepwiseAlgorithm.cxx:252-259 | `join` returns one of its two sides. It adopts the other side exactly when the other's criterion is strictly smaller. |
| Scan.FoldIsEarliestMinimum | lib/src/Uncertainty/Algorithm/MetaModel/Kriging/LinearModelStepwiseAlgorithm.cxx:229-249 | When no candidate beats the start, the scan keeps its start. Otherwise it ends on the earliest candidate with the smallest score. |
| Scan.JoinFold | lib/src/Uncertainty/Algorithm/MetaModel/Kriging/LinearModelStepwiseAlgorithm.cxx:353-360 | Splitting the candidates anywhere, scanning both parts from the same start and joining the right part into the left gives the same pair as one left-to-right scan. |
| Scan.JoinFoldAfterSplit | lib/src/Uncertainty/Algorithm/MetaModel/Kriging/LinearModelStepwiseAlgorithm.cxx:216-218 | A right part that starts from the state the left part had reached when it was split, as the splitting constructor copies it, joined into the finished left part, still gives the pair of one left-to-right scan. |
| Scan.SkippedNeverBest | lib/src/Uncertainty/Algorithm/MetaModel/Kriging/LinearModelStepwiseAlgorithm.cxx:239 | A candidate skipped because `x·v == 0` never becomes `bestIndex_`. |
| Bookkeeping.ForwardCandidates | lib/src/Uncertainty/Algorithm/MetaModel/Kriging/LinearModelStepwiseAlgorithm.cxx:430-435 | The forward candidates are exactly the columns `0..P-1` absent from the index set, in increasing order. |
| Bookkeeping.BackwardCandidates | lib/src/Uncertainty/Algorithm/MetaModel/Kriging/LinearModelStepwiseAlgorithm.cxx:447-452 | The backward candidates are exactly the current indices that are not minimal, as a subsequence of the current order. |
| Bookkeeping.AddColumn | lib/src/Uncertainty/Algorithm/MetaModel/Kriging/LinearModelStepwiseAlgorithm.cxx:466-472 | Adding a column appends it to the index set and keeps the index set, the reverse map and the design consistent. |
| Bookkeeping.RemoveColumn | lib/src/Uncertainty/Algorithm/MetaModel/Kriging/LinearModelStepwiseAlgorithm.cxx:478-499 | Removing a column deletes exactly its position `pos` from the index set and keeps the three views consistent. The others keep their order, the map entries above `pos` shift down and the removed column maps to the sentinel. |
| Bookkeeping.Without | lib/src/Uncertainty/Algorithm/MetaModel/Kriging/LinearModelStepwiseAlgorithm.cxx:493-499 | Filtering out `x` keeps exactly the other elements. |
| Bookkeeping.WithoutAt | lib/src/Uncertainty/Algorithm/MetaModel/Kriging/LinearModelStepwiseAlgorithm.cxx:494-499 | In a duplicate-free index set, filtering out a value deletes its one position and nothing else. |
| Bookkeeping.ConsistentIsDistinct | lib/src/Uncertainty/Algorithm/MetaModel/Kriging/LinearModelStepwiseAlgorithm.cxx:383 | While the reverse map agrees with the index set, the index set has no duplicates and at most `P` elements. |
| Bookkeeping.ConsistentUnique | lib/src/Uncertainty/Algorithm/MetaModel/Kriging/LinearModelStepwiseAlgorithm.cxx:383-412 | The index set alone determines the reverse map and the design. |
| Bookkeeping.Range | lib/src/Uncertainty/Algorithm/MetaModel/Kriging/LinearModelStepwiseAlgorithm.cxx:391-392 | `Indices(P).fill()` is `0, 1, ..., P-1`. |
| Bookkeeping.StartMap | lib/src/Uncertainty/Algorithm/MetaModel/Kriging/LinearModelStepwiseAlgorithm.cxx:399-400 | Over a map filled with the sentinel, the loop maps each start index to its position and every other column to the sentinel. |
| Bookkeeping.FullDesign | lib/src/Uncertainty/Algorithm/MetaModel/Kriging/LinearModelStepwiseAlgorithm.cxx:389-394 | The BACKWARD start is consistent, with the index set `0..P-1`. |
| Bookkeeping.StartDesign | lib/src/Uncertainty/Algorithm/MetaModel/Kriging/LinearModelStepwiseAlgorithm.cxx:573-580 | The corrected start from given indices is consistent, with exactly those indices. Design column `k` is `Xmax` column `cols[k]`. |
| Bookkeeping.ScatterAsWritten | lib/src/Uncertainty/Algorithm/MetaModel/Kriging/LinearModelStepwiseAlgorithm.cxx:573-580 | As written, the copy stays inside both matrices exactly when every index is below the number of indices. It then puts `Xmax` column `i` at design column `cols[i]`. |
| Bookkeeping.ScatterIsNotGather | lib/src/Uncertainty/Algorithm/MetaModel/Kriging/LinearModelStepwiseAlgorithm.cxx:578-579 | On `[1]` the as-written copy leaves the matrix. On `[1, 2, 0]` it places the columns in the inverse order of the gather. |
| Bookkeeping.ScatterIsGatherOnRange | lib/src/Uncertainty/Algorithm/MetaModel/Kriging/LinearModelStepwiseAlgorithm.cxx:578-579 | On the indices `0..m-1` the as-written copy is the gather. |
| Likelihood.Evaluate | lib/src/Uncertainty/Algorithm/MetaModel/Kriging/LinearModelStepwiseAlgorithm.cxx:593-606 | `B = Xᵀ y`. The residual `y - (X A) B` is `y` minus the design applied to the coefficients `A B`, for any `A`. The rss is its squared norm, which is non-negative. |
| Likelihood.ResidualOrthogonal | lib/src/Uncertainty/Algorithm/MetaModel/Kriging/LinearModelStepwiseAlgorithm.cxx:598-601 | With the exact Gram inverse, the residual is orthogonal to every design column. |
| Likelihood.FitUnique | lib/src/Uncertainty/Algorithm/MetaModel/Kriging/LinearModelStepwiseAlgorithm.cxx:598-601 | Two combinations of the design columns that both leave an orthogonal residual are equal. |
| Scorers.ForwardUpdate | lib/src/Uncertainty/Algorithm/MetaModel/Kriging/LinearModelStepwiseAlgorithm.cxx:233-241 | A candidate is skipped exactly when `x·v == 0`. Otherwise the new residual `R - alpha·v` is orthogonal to `x`. |
| Scorers.ForwardScore | lib/src/Uncertainty/Algorithm/MetaModel/Kriging/LinearModelStepwiseAlgorithm.cxx:238-242 | The score is `Inf` exactly when the candidate is skipped. Otherwise it is a non-negative squared norm. |
| Scorers.ForwardUpdateIsRefit | lib/src/Uncertainty/Algorithm/MetaModel/Kriging/LinearModelStepwiseAlgorithm.cxx:229-242 | With the exact Gram inverse, the updated residual is `y` minus a combination of the enlarged design and orthogonal to all its columns. |
| Scorers.BackwardCorrection | lib/src/Uncertainty/Algorithm/MetaModel/Kriging/LinearModelStepwiseAlgorithm.cxx:334-339 | Given `A(i,i) ≠ 0`, the correction vector `f` has `f[i] = 0`. |
| Scorers.BackwardScore | lib/src/Uncertainty/Algorithm/MetaModel/Kriging/LinearModelStepwiseAlgorithm.cxx:334-343 | The score is finite and non-negative exactly when `A(i,i) ≠ 0` or the sample is empty. The unchecked division by zero otherwise gives NaN. |
| Scorers.DroppedColumnIgnored | lib/src/Uncertainty/Algorithm/MetaModel/Kriging/LinearModelStepwiseAlgorithm.cxx:339-341 | The backward residual does not depend on what the removed column holds. |
| Scorers.BackwardResidualIsRefit | lib/src/Uncertainty/Algorithm/MetaModel/Kriging/LinearModelStepwiseAlgorithm.cxx:330-343 | With the exact Gram inverse, the backward residual is `y` minus a combination of the other columns and orthogonal to each of them. |
| Progress.AddedColumns | lib/src/Uncertainty/Algorithm/MetaModel/Kriging/LinearModelStepwiseAlgorithm.cxx:469-472 | After an add, the design is the old design followed by `Xmax` column `j`. |
| Progress.RemovedColumns | lib/src/Uncertainty/Algorithm/MetaModel/Kriging/LinearModelStepwiseAlgorithm.cxx:478-483 | After a remove, the design is the old design without position `columnMaxToCurrent[j]`. |
| Progress.RefitResidual | lib/src/Uncertainty/Algorithm/MetaModel/Kriging/LinearModelStepwiseAlgorithm.cxx:598-601 | Any residual `y - X c` orthogonal to the design is the residual the evaluation computes. |
| Progress.ForwardScoreIsRefit | lib/src/Uncertainty/Algorithm/MetaModel/Kriging/LinearModelStepwiseAlgorithm.cxx:229-242 | A finite forward score is the rss the next evaluation finds for the design with the column added. |
| Progress.BackwardScoreIsRefit | lib/src/Uncertainty/Algorithm/MetaModel/Kriging/LinearModelStepwiseAlgorithm.cxx:330-343 | A finite backward score is the rss the next evaluation finds for the design with the column removed. |
| Progress.AddedCriterion | lib/src/Uncertainty/Algorithm/MetaModel/Kriging/LinearModelStepwiseAlgorithm.cxx:420-439 | After adding `j`, the next `Lstar` is the `LF` of `j`. |
| Progress.RemovedCriterion | lib/src/Uncertainty/Algorithm/MetaModel/Kriging/LinearModelStepwiseAlgorithm.cxx:420-456 | After removing `j`, the next `Lstar` is the `LB` of `j`. |
| Progress.AcceptedMoveLowersCriterion | lib/src/Uncertainty/Algorithm/MetaModel/Kriging/LinearModelStepwiseAlgorithm.cxx:459-500 | After an accepted move, the next `Lstar` is the winning `LF` or `LB` and strictly below the current `Lstar`. |
| Progress.CriterionOfIndices | lib/src/Uncertainty/Algorithm/MetaModel/Kriging/LinearModelStepwiseAlgorithm.cxx:420 | `Lstar` depends on the index set only. |
| Progress.DecidedMoveImproves | lib/src/Uncertainty/Algorithm/MetaModel/Kriging/LinearModelStepwiseAlgorithm.cxx:459-462 | Any exact evaluation of the design a decided move leads to has a criterion strictly below the current one. |
| Progress.CriterionDecreases | lib/src/Uncertainty/Algorithm/MetaModel/Kriging/LinearModelStepwiseAlgorithm.cxx:416-502 | Along the iterations the criterion strictly decreases from any iteration to any later one. |
| Progress.NoIndexSetRevisited | lib/src/Uncertainty/Algorithm/MetaModel/Kriging/LinearModelStepwiseAlgorithm.cxx:416-502 | Two different iterations never hold the same index set, so the search cannot cycle. |
| Stepwise.SetMinimalIndices | lib/src/Base/Stat/LinearModelStepwiseFactory.cxx:222-225 | The minimal indices are stored as given and nothing else changes. |
| Stepwise.SetStartIndices | lib/src/Base/Stat/LinearModelStepwiseFactory.cxx:228-231 | The start indices are stored as given and nothing else changes. |
| Stepwise.ForwardScan | lib/src/Uncertainty/Algorithm/MetaModel/Kriging/LinearModelStepwiseAlgorithm.cxx:430-438 | If every absent column is skipped, the scan stays at `(Inf, P)`. Otherwise it names an absent column whose score none beats. |
| Stepwise.ForwardScanTie | lib/src/Uncertainty/Algorithm/MetaModel/Kriging/LinearModelStepwiseAlgorithm.cxx:244-248 | No absent column with a smaller index ties the forward winner. |
| Stepwise.BackwardScan | lib/src/Uncertainty/Algorithm/MetaModel/Kriging/LinearModelStepwiseAlgorithm.cxx:447-455 | If no removal has a finite score, the scan stays at `(Inf, p)`. Otherwise it names a current, non-minimal column whose removal score none beats. |
| Stepwise.ForwardPick | lib/src/Uncertainty/Algorithm/MetaModel/Kriging/LinearModelStepwiseAlgorithm.cxx:423-441 | A finite `LF` occurs only when the direction is not BACKWARD. It then belongs to an absent column. |
| Stepwise.BackwardPick | lib/src/Uncertainty/Algorithm/MetaModel/Kriging/LinearModelStepwiseAlgorithm.cxx:442-458 | A finite `LB` occurs only when the direction is not FORWARD. It then belongs to a current, non-minimal column and is computed with `p - 1` wrapping. |
| Stepwise.ForwardPickAsWritten | lib/src/Uncertainty/Algorithm/MetaModel/Kriging/LinearModelStepwiseAlgorithm.cxx:423-441 | The code's `LF`. Its pair is the model's, and so is its criterion whenever the model's `LF` is finite. A scan without candidates gives the finite sentinel criterion of index `P`. In BACKWARD, `LF` is the bare `MaxNumericalScalar`. |
| Stepwise.BackwardPickAsWritten | lib/src/Uncertainty/Algorithm/MetaModel/Kriging/LinearModelStepwiseAlgorithm.cxx:442-458 | The code's `LB`. Its pair is the model's, and so is its criterion whenever the model's `LB` is finite. A scan without candidates gives the finite sentinel criterion of index `p`, the design's column count (A.cxx:314). In FORWARD, `LB` is the bare `MaxNumericalScalar`. |
| Stepwise.ChooseMoveAsWritten | lib/src/Uncertainty/Algorithm/MetaModel/Kriging/LinearModelStepwiseAlgorithm.cxx:459-462 | When the model's `LF` and `LB` are both finite, the code's decision is the model's. |
| Stepwise.SentinelRemovesMinimalAsWritten | lib/src/Uncertainty/Algorithm/MetaModel/Kriging/LinearModelStepwiseAlgorithm.cxx:442-499 | On a BACKWARD run whose only design column is minimal, with penalty `2000`, the model stops, and the code removes that present minimal column. |
| Stepwise.SentinelAddsOutsideAsWritten | lib/src/Uncertainty/Algorithm/MetaModel/Kriging/LinearModelStepwiseAlgorithm.cxx:423-472 | On a FORWARD run with no column left to add and penalty `-2000`, the model stops, and the code adds index `P`, outside `Xmax`. |
| Stepwise.SentinelRemovesFromEmptyAsWritten | lib/src/Uncertainty/Algorithm/MetaModel/Kriging/LinearModelStepwiseAlgorithm.cxx:442-478 | At the empty design, BACKWARD, with penalty `-1`, the model stops, and the code's wrapped `p - 1` makes it remove index `0`, which the design does not hold. |
| Stepwise.ChooseMove | lib/src/Uncertainty/Algorithm/MetaModel/Kriging/LinearModelStepwiseAlgorithm.cxx:459-500 | A move is admissible for the direction and the minimal set, and its criterion is strictly below `Lstar`. An empty sample always stops. This is the corrected decision of the Findings section: an add names an absent column of `Xmax` and a remove a present non-minimal one, never the index a scan without candidates keeps. |
| Stepwise.ChosenIsBest | lib/src/Uncertainty/Algorithm/MetaModel/Kriging/LinearModelStepwiseAlgorithm.cxx:436-455 | The column added or removed has a residual sum of squares no other admissible candidate of its kind beats. |
| Stepwise.StopIsLocalOptimum | lib/src/Uncertainty/Algorithm/MetaModel/Kriging/LinearModelStepwiseAlgorithm.cxx:459-460 | When an iteration stops and the logarithm is increasing, no single admissible add or remove has a criterion below `Lstar`. |
| Stepwise.OneIndexPerMove | lib/src/Uncertainty/Algorithm/MetaModel/Kriging/LinearModelStepwiseAlgorithm.cxx:466-499 | An add or a remove changes a duplicate-free index set by exactly one column and keeps it duplicate-free. |
| Stepwise.ApplyKeepsMinimal | lib/src/Uncertainty/Algorithm/MetaModel/Kriging/LinearModelStepwiseAlgorithm.cxx:447-452 | Admissible moves never drop a minimal column that was present. This holds for the model's decision; the code's finite sentinel can remove a minimal column (see the Findings section). |
| Stepwise.ApplyForwardGrows | lib/src/Uncertainty/Algorithm/MetaModel/Kriging/LinearModelStepwiseAlgorithm.cxx:442-444 | A FORWARD search only adds: every start column stays, and the index set grows by one per move. |
| Stepwise.ApplyBackwardShrinks | lib/src/Uncertainty/Algorithm/MetaModel/Kriging/LinearModelStepwiseAlgorithm.cxx:423-425 | A BACKWARD search only removes: it never holds a column the start did not hold. |
| Stepwise.MoveDesign | lib/src/Uncertainty/Algorithm/MetaModel/Kriging/LinearModelStepwiseAlgorithm.cxx:462-500 | Carrying out a move keeps the design consistent and changes the index set by that move. |
| Stepwise.StartingDesign | lib/src/Uncertainty/Algorithm/MetaModel/Kriging/LinearModelStepwiseAlgorithm.cxx:385-412 | Non-empty start indices win over the direction. Otherwise BACKWARD starts from all columns and FORWARD from the minimal ones. The design is consistent. Its columns are gathered, `Xmax` column `start[i]` as design column `i`: this is the corrected `Bookkeeping.StartDesign` of the Findings section, where the code as written scatters. |
| Stepwise.Finish | lib/src/Uncertainty/Algorithm/MetaModel/Kriging/LinearModelStepwiseAlgorithm.cxx:503-527 | The result is the least-squares fit of the final indices, with an orthogonal residual and coefficients `A B`. Its criterion is the final `Lstar`, and the diagonal holds that of `A`. The terms follow the design order (`fit.terms == fit.indices`): this is the corrected `MetaModelTerms.Terms` of the Findings section, where the code as written lists them in increasing order. |
| Driver.NextMove | lib/src/Uncertainty/Algorithm/MetaModel/Kriging/LinearModelStepwiseAlgorithm.cxx:419-500 | An iteration either makes an allowed move that lowers the criterion of every exact evaluation of the next design, or stops at a local optimum. |
| Driver.Search | lib/src/Uncertainty/Algorithm/MetaModel/Kriging/LinearModelStepwiseAlgorithm.cxx:414-502 | The loop runs at most `maximumIterationNumber_` times, making only allowed moves and keeping the design consistent. It records an improving step per move. If it stops early, it stops at a local optimum. |
| Driver.RunFresh | lib/src/Uncertainty/Algorithm/MetaModel/Kriging/LinearModelStepwiseAlgorithm.cxx:414-527 | After validation, the search either reports a solver failure or returns the least-squares fit of the index set its moves reach. Along the way minimal indices are kept (by the model's decision; see the Findings section), no index set is revisited, and the final criterion is below the start criterion. Both corrections of the Findings section are applied: the start design is gathered and the terms follow the design order. |
| Driver.FinishedRun | lib/src/Uncertainty/Algorithm/MetaModel/Kriging/LinearModelStepwiseAlgorithm.cxx:503-510 | The final evaluation of a completed search yields a fit with every property the search guarantees. |
| Driver.Run | lib/src/Uncertainty/Algorithm/MetaModel/Kriging/LinearModelStepwiseAlgorithm.cxx:364-570 | A second `run()` changes nothing. It throws `InvalidArgument` exactly on the rejected arguments; any other failure is the solver's `SingularGram`; and a failure leaves the object unchanged. Otherwise only the result is set, to a fit with the properties above. It is the run with both corrections of the Findings section applied. |
| Driver.GetResult | lib/src/Uncertainty/Algorithm/MetaModel/Kriging/LinearModelStepwiseAlgorithm.cxx:584-588 | A cached result is returned without running. Otherwise `getResult` runs first: a failure is `InvalidArgument` on the rejected arguments and `SingularGram` otherwise, and leaves the object unchanged. On success only the result changes, and the fit returned is one the search reaches: it satisfies every guarantee of `Driver.Run`'s search, including local optimality when the search stopped before its budget. |
| Factory.DecodeDirection | lib/src/Base/Stat/LinearModelStepwiseFactory.cxx:115-128 | Exactly `-1`, `0` and `1` name a direction, and each decodes to the direction with that enum value. |
| Factory.DirectionRoundTrip | lib/src/Base/Stat/LinearModelStepwiseFactory.cxx:113-129 | Encoding and decoding a direction are inverse to each other. |
| Factory.SetDirection | lib/src/Base/Stat/LinearModelStepwiseFactory.cxx:113-129 | A value outside `-1`, `0`, `1` throws `InvalidArgument`. Otherwise only the direction changes, to the value given. |
| Factory.DefaultFactory | lib/src/Base/Stat/LinearModelStepwiseFactory.cxx:30-38 | BOTH, penalty `-1`, 1000 iterations, formula `"1"`, formulas `["1"]`, not run. |
| Factory.NewFactory | lib/src/Base/Stat/LinearModelStepwiseFactory.cxx:43-59 | The parameter constructor stores its arguments as given, including the direction. |
| Factory.ConstructorSkipsDirectionCheck | lib/src/Base/Stat/LinearModelStepwiseFactory.cxx:51 | The constructor stores the direction `2`, which `setDirection` rejects. |
| Factory.SetPenalty | lib/src/Base/Stat/LinearModelStepwiseFactory.cxx:133-141 | The getter returns the penalty that was set, and nothing else changes. |
| Factory.SetMaximumIterationNumber | lib/src/Base/Stat/LinearModelStepwiseFactory.cxx:144-152 | The getter returns the iteration budget that was set, and nothing else changes. |
| Factory.FactoryRun | lib/src/Base/Stat/LinearModelStepwiseFactory.cxx:235-281 | A factory that has run returns at once. Otherwise it throws `InvalidArgument` exactly on the argument errors and the missing start sets, and `NotYetImplemented` in every other case. |
| Factory.FactoryValidatesLikeAlgorithm | lib/src/Base/Stat/LinearModelStepwiseFactory.cxx:237-271 | Configured alike, the factory throws `InvalidArgument` exactly when the algorithm's `run()` does. |
| MetaModelTerms.AscendingSelection | lib/src/Uncertainty/Algorithm/MetaModel/Kriging/LinearModelStepwiseAlgorithm.cxx:556-563 | The loop over `k < P` lists exactly the chosen basis functions, in increasing order. |
| MetaModelTerms.AscendingMatchesIndicesIff | lib/src/Uncertainty/Algorithm/MetaModel/Kriging/LinearModelStepwiseAlgorithm.cxx:512-520 | The ascending list equals the index set exactly when the index set is increasing. |
| MetaModelTerms.TermsAsWritten | lib/src/Uncertainty/Algorithm/MetaModel/Kriging/LinearModelStepwiseAlgorithm.cxx:556-564 | As written, the terms are the chosen basis functions in increasing order. |
| MetaModelTerms.TermsAsWrittenMisplaceCoefficients | lib/src/Uncertainty/Algorithm/MetaModel/Kriging/LinearModelStepwiseAlgorithm.cxx:508-564 | For the index set `[0, 2, 1]`, the as-written meta-model predicts 2 where the design predicts 3. |
| MetaModelTerms.Terms | lib/src/Uncertainty/Algorithm/MetaModel/Kriging/LinearModelStepwiseAlgorithm.cxx:509-510 | The corrected terms list, for each coefficient, the basis function of its design column. |
| MetaModelTerms.TermsReproduceDesign | lib/src/Uncertainty/Algorithm/MetaModel/Kriging/LinearModelStepwiseAlgorithm.cxx:564 | With the corrected terms, the meta-model at the sample points is the design times the coefficients, for any coefficients. |

## Left out

- Parallelism: the `TBB::ParallelReduce` fan-out and the splitting constructors. The scorers are a sequential fold. Joining a right part into the left one agrees with it when the right part starts from the initial pair (`Scan.JoinFold`) or from the state the left part had reached at the split (`Scan.JoinFoldAfterSplit`). Deeper split trees are not modelled.
- Floating point: all arithmetic is on exact reals. `MaxNumericalScalar` is `Inf` and IEEE NaN is `NaN` in `Criteria.Crit`. In the source, a criterion built from `MaxNumericalScalar` is a large finite number. The model makes it `Inf`, which loses every comparison; the inputs where the source's finite value wins instead are listed under `Criteria.Penalized` and `Criteria.UnsignedPred` below. In the source `log(0)` is `-∞`: a candidate whose residual sum of squares is 0 always wins, and a current design that fits exactly always halts. In the model the decision there depends on the value `ln` gives at `0`.
- Gram inversion (`computeGram`, `solveLinearSystem`): this is the solver parameter `gram`. Its failure on a singular matrix is the `SingularGram` error, and its result is taken to be an exact inverse.
- Basis evaluation and the construction of `maxX_` from the basis and the input sample: `xmax` is given.
- The final diagnostics (leverages, standardized residuals with `sqrt`, Cook's distances) and the assembly of `LinearModelResult` and of the meta-model function (A.cxx:521-568). `Stepwise.Fit` keeps the indices, terms, design, coefficients, residual, criterion and Gram diagonal.
- The header comment on a negative penalty meaning BIC: `run()` uses the penalty as given, and so does the model.
- Persistence (`save`, `load`), `LOGDEBUG`, `__repr__` and `__str__`.
- The algorithm's constructors and getters (A.cxx:38-161): the `Stepwise.Algorithm` record holds their fields.
- The factory's `add`, `remove`, `getIndices` and the interaction and power helpers (F.cxx:161-219): each only throws `NotYetImplemented`.
- The factory's `buildCurrentMatrixFromIndices` and its scorer copies and log-likelihood below F.cxx:283. The first throws. The rest are never reached, because the factory's `run()` throws before its loop. Their `join` keeps the larger criterion.
- The iteration budget: when the loop ends because `maximumIterationNumber_` is reached, the source does not tell the caller. The model follows it. `Driver.Run` states local optimality only for a run that stopped before its budget. `Stepwise.Algorithm.maxIter` is an exact `nat`, while the source stores `maximumIterationNumber_` in a `NumericalScalar` (lib/src/Uncertainty/Algorithm/MetaModel/Kriging/openturns/LinearModelStepwiseAlgorithm.hxx:148) and compares the iteration count with it (A.cxx:416), so a budget above 2⁵³ is rounded there.
- Driver.Run: requires the indices read as the start set to be distinct columns of `Xmax` (`Stepwise.StartSetValid`): the start indices, and the minimal indices when there are no start indices and the direction is FORWARD. The source does not check this. Duplicates or out-of-range indices there would break `columnMaxToCurrent` or read outside `maxX_`. Otherwise the minimal indices are only searched with `contains`, and any values are accepted. `Driver.RunFresh`, `Driver.FinishedRun`, `Driver.GetResult` and `Stepwise.StartingDesign` carry the same requirement.
- Stepwise.StartingDesign: builds the start design with the corrected gather (A.cxx:578-579 scatters). It promises nothing about the as-written design, which `Bookkeeping.ScatterAsWritten` models separately; the two agree only when the start indices are `0, 1, …` in order.
- Stepwise.Finish: lists the terms in design order, the correction of A.cxx:556-564. The as-written ascending order is `MetaModelTerms.TermsAsWritten`, and the two agree only when the index set is increasing (`MetaModelTerms.AscendingMatchesIndicesIff`).
- Criteria.Penalized: an absent candidate scores `Inf`, so an `LF` or `LB` built from it never beats `Lstar`. In the source the scan hands on `MaxNumericalScalar`, a finite double, and the criterion is finite (`Criteria.PenalizedAsWritten`). With `n` the sample size and `rss` the current residual sum of squares: the forward one beats `Lstar` when the penalty is below `n·(ln rss − ln MaxNumericalScalar)`, and the source then adds index `P`, outside `maxX_` (`Stepwise.SentinelAddsOutsideAsWritten`); for `p > 0`, the backward one beats `Lstar` when the penalty is above `n·(ln MaxNumericalScalar − ln rss)`, and the source then removes index `p` (A.cxx:314), whatever column of `Xmax` that is. That can be a present minimal column (`Stepwise.SentinelRemovesMinimalAsWritten`) or a column the design does not hold. The model stops on these inputs, so `Stepwise.ApplyKeepsMinimal` and the minimal-keeping part of `Driver.RunFresh` hold for the model only. The Findings section records this.
- Criteria.UnsignedPred: an empty design has no backward candidate, so in the model the wrapped `p - 1` at `p = 0` only multiplies the penalty of an `Inf` score, and its effect in the source is lost. There `LB = penalty·(2⁶⁴ − 1) + n·log(MaxNumericalScalar/n)`, which a negative penalty makes hugely negative. With the default penalty `-1` (A.cxx:40), BACKWARD and an empty design, the source removes index `0`, which the design does not hold, and A.cxx:478 then sizes a matrix with `0 - 1` columns (`Stepwise.SentinelRemovesFromEmptyAsWritten`). The model stops.
- Factory.SetMaximumIterationNumber: the budget is an exact `nat`. The source stores it in a `NumericalScalar` field (lib/src/Base/Stat/openturns/LinearModelStepwiseFactory.hxx:128), so a budget above 2⁵³ reads back rounded to a double.
- Factory.NewFactory: the constructor's budget is kept exact. In the source it goes into the same `NumericalScalar` field, so a budget above 2⁵³ is rounded.
- Stepwise.BackwardScan: states only that the winner's score is not beaten. The tie order is the order of `currentIndices_`, which is not the index order (see below).
- Scorers.BackwardCorrection: requires `A(i,i) ≠ 0`. The source divides without checking. `Scorers.BackwardScore` models the zero case as a NaN criterion.
- The local-optimum and decreasing-criterion results hold when every Gram inverse is exact. The source's numerical inverses are approximations.

Tie-breaking and termination in the code, which the model follows:

- Tie between `LF` and `LB`: `if (LF < LB)` removes on a tie (A.cxx:462), and `Criteria.Decide` does the same.
- Ties inside a scan: the forward scan's candidates are ascending, so the lowest index wins (`Stepwise.ForwardScanTie`). The backward scan walks `currentIndices_` in its current order, where added columns are appended, so the earliest in that order wins, which need not be the lowest index.
- Budget exhaustion: when the loop ends because `maximumIterationNumber_` is reached, `run()` returns the result without any signal.

## Findings

| source | as written | input that shows it | evidently intended | confidence | as-written member | corrected member |
|---|---|---|---|---|---|---|
| lib/src/Uncertainty/Algorithm/MetaModel/Kriging/LinearModelStepwiseAlgorithm.cxx:578-579 | `buildCurrentMatrixFromIndices` copies `maxX_` column `i` into `currentX_` column `columns[i]` | start indices `[1]` write outside a one-column matrix; `[1, 2, 0]` yields the columns `Xmax[2], Xmax[0], Xmax[1]` | design column `i` is `Xmax` column `columns[i]`, matching `currentIndices_ = columns` and the reverse map | high (not executed) | Bookkeeping.ScatterIsNotGather | Bookkeeping.StartDesign |
| lib/src/Uncertainty/Algorithm/MetaModel/Kriging/LinearModelStepwiseAlgorithm.cxx:556-564 | the meta-model pairs the chosen basis functions, listed in increasing basis order, with `regression`, which is in `currentIndices_` order | index set `[0, 2, 1]`, one-row `Xmax = [1, 2, 3]`, coefficients `[0, 1, 0]`: the design predicts 3, the meta-model 2 | coefficient `k` multiplies basis function `currentIndices_[k]`, and the coefficient names follow the same order | high (not executed) | MetaModelTerms.TermsAsWrittenMisplaceCoefficients | MetaModelTerms.Terms |
| lib/src/Uncertainty/Algorithm/MetaModel/Kriging/LinearModelStepwiseAlgorithm.cxx:423-462 | a scan with no candidate keeps `criterion_ = MaxNumericalScalar`, a finite double, and `bestIndex_` = `P` (forward, A.cxx:214) or `p` (backward, A.cxx:314); `LF` and `LB` are then computed from it and compete with `Lstar` | BACKWARD, `Xmax` columns `(1, 0)`, `(0, 1)`, `(1, 1)`, `y = (1, 1)`, start and minimal indices `[1]`, penalty `2000`: `LB ≈ 1418.2` beats `Lstar ≈ 1998.6` and the code removes the minimal column 1. With penalty `-2000` a FORWARD run adds index `P`; with penalty `-1` a BACKWARD iteration at the empty design removes index `0` | a scan without candidates proposes no move: its `LF` or `LB` loses every comparison | high (not executed) | Stepwise.SentinelRemovesMinimalAsWritten | Stepwise.ChooseMove |

=== FILE: bookkeeping.dfy ===
/**
 The index bookkeeping of `LinearModelStepwiseAlgorithm::run()`: the current
 index set `currentIndices_`, the reverse map `columnMaxToCurrent` (with the
 sentinel `P`, the column count of `Xmax`, for absent columns) and the
 current design `currentX_`, held as a sequence of columns.
 */
module Bookkeeping {
  import opened LinAlg
  import opened Outcomes

  datatype Design = Design(indices: seq<nat>, colMap: seq<nat>, columns: seq<Vec>)

  predicate Distinct(s: seq<nat>) {
    forall a, b :: 0 <= a < b < |s| ==> s[a] != s[b]
  }

  /**
   The three views agree: position `k` of the index set holds a column of
   `Xmax` that the map sends back to `k` and that the design holds at `k`,
   and every column that is absent maps to the sentinel `|xmax|`.
   */
  ghost predicate Consistent(d: Design, xmax: seq<Vec>) {
    && |d.colMap| == |xmax|
    && |d.columns| == |d.indices|
    && (forall k :: 0 <= k < |d.indices| ==>
          && d.indices[k] < |xmax|
          && d.colMap[d.indices[k]] == k
          && d.columns[k] == xmax[d.indices[k]])
    && (forall t :: 0 <= t < |xmax| && t !in d.indices ==> d.colMap[t] == |xmax|)
  }

  /** A consistent index set has no duplicates and at most `P` elements. */
  lemma ConsistentIsDistinct(d: Design, xmax: seq<Vec>)
    requires Consistent(d, xmax)
    ensures Distinct(d.indices)
    ensures |d.indices| <= |xmax|
  {
    DistinctBelowBound(d.indices, |xmax|);
  }

  /** Pigeonhole: distinct values below `P` number at most `P`. */
  lemma {:induction false} DistinctBelowBound(s: seq<nat>, P: nat)
    requires Distinct(s) && forall k :: 0 <= k < |s| ==> s[k] < P
    ensures |s| <= P
    decreases P
  {
    if |s| == 0 {
    } else if P - 1 in s {
      var q :| 0 <= q < |s| && s[q] == P - 1;
      var s' := RemoveAt(s, q);
      forall k | 0 <= k < |s'| ensures s'[k] < P - 1 {
        if k < q { assert s'[k] == s[k] && k != q; } else { assert s'[k] == s[k + 1] && k + 1 != q; }
      }
      DistinctBelowBound(s', P - 1);
    } else {
      assert s[0] < P;
      DistinctBelowBound(s, P - 1);
    }
  }

  /**
   The index set determines the rest: two consistent designs with the same
   indices have the same map and the same columns.
   */
  lemma ConsistentUnique(d1: Design, d2: Design, xmax: seq<Vec>)
    requires Consistent(d1, xmax) && Consistent(d2, xmax) && d1.indices == d2.indices
    ensures d1 == d2
  {
    forall k | 0 <= k < |d1.columns| ensures d1.columns[k] == d2.columns[k] {
      assert d1.columns[k] == xmax[d1.indices[k]];
    }
    forall t | 0 <= t < |xmax| ensures d1.colMap[t] == d2.colMap[t] {
      if t in d1.indices {
        var k :| 0 <= k < |d1.indices| && d1.indices[k] == t;
      }
    }
  }

  // ---------------------------------------------------------------------
  // Candidate sets
  // ---------------------------------------------------------------------

  /** `Imax - I*`: the columns `0..P-1` absent from `S`, ascending. */
  function ForwardCandidates(S: seq<nat>, P: nat): (r: seq<nat>)
    ensures forall j: nat :: j in r <==> j < P && j !in S
    ensures forall k :: 0 <= k < |r| ==> r[k] < P && r[k] !in S
    ensures forall a, b :: 0 <= a < b < |r| ==> r[a] < r[b]
    decreases P
  {
    if P == 0 then []
    else
      var rest := ForwardCandidates(S, P - 1);
      assert forall k :: 0 <= k < |rest| ==> rest[k] in rest && rest[k] < P - 1;
      rest + (if P - 1 in S then [] else [P - 1])
  }

  /** `s` is obtained from `t` by deleting elements, keeping the order of the rest. */
  predicate SubsequenceOf(s: seq<nat>, t: seq<nat>)
    decreases |t|
  {
    if |s| == 0 then true
    else if |t| == 0 then false
    else if s[0] == t[0] then SubsequenceOf(s[1..], t[1..])
    else SubsequenceOf(s, t[1..])
  }

  /** `I* - Imin`: the current indices that are not minimal, in current order. */
  function BackwardCandidates(S: seq<nat>, minimal: seq<nat>): (r: seq<nat>)
    ensures forall j :: j in r <==> j in S && j !in minimal
    ensures forall k :: 0 <= k < |r| ==> r[k] in S && r[k] !in minimal
    ensures SubsequenceOf(r, S)
    decreases |S|
  {
    if |S| == 0 then []
    else
      var rest := BackwardCandidates(S[1..], minimal);
      assert forall j :: j in S <==> j == S[0] || j in S[1..];
      if S[0] in minimal then
        SubsequenceSkip(rest, S);
        rest
      else
        [S[0]] + rest
  }

  lemma SubsequenceSkip(s: seq<nat>, t: seq<nat>)
    requires |t| > 0 && SubsequenceOf(s, t[1..])
    ensures SubsequenceOf(s, t)
    decreases |t|
  {
    if |s| > 0 && s[0] == t[0] {
      if |t[1..]| > 0 && s[0] == t[1..][0] {
        SubsequenceSkip(s[1..], t[1..]);
      } else {
        assert |t[1..]| > 0;
        SubsequenceTail(s, t[1..]);
      }
    }
  }

  lemma SubsequenceTail(s: seq<nat>, t: seq<nat>)
    requires |s| > 0 && |t| > 0 && s[0] != t[0] && SubsequenceOf(s, t)
    ensures SubsequenceOf(s[1..], t[1..])
    decreases |t|
  {
    var t' := t[1..];
    assert SubsequenceOf(s, t');
    assert |t'| > 0;
    if s[0] == t'[0] {
      SubsequenceSkip(s[1..], t');
    } else {
      SubsequenceTail(s, t');
      SubsequenceSkip(s[1..], t');
    }
  }

  // ---------------------------------------------------------------------
  // Adding and removing a column
  // ---------------------------------------------------------------------

  /**
   Adding column `j` appends it to the index set, maps it to the old column
   count and appends `Xmax` column `j` to the design.
   */
  function AddColumn(d: Design, xmax: seq<Vec>, j: nat): (r: Design)
    requires Consistent(d, xmax) && j < |xmax| && j !in d.indices
    ensures Consistent(r, xmax)
    ensures r.indices == d.indices + [j]
  {
    Design(d.indices + [j], d.colMap[j := |d.columns|], d.columns + [xmax[j]])
  }

  /** The index set without `x`, other elements in their order. */
  function Without(s: seq<nat>, x: nat): (r: seq<nat>)
    ensures forall t :: t in r <==> t in s && t != x
  {
    if |s| == 0 then []
    else (if s[0] == x then [] else [s[0]]) + Without(s[1..], x)
  }

  /** In a duplicate-free sequence, dropping a value deletes its one position. */
  lemma {:induction false} WithoutAt(s: seq<nat>, pos: nat)
    requires Distinct(s) && pos < |s|
    ensures Without(s, s[pos]) == s[..pos] + s[pos + 1..]
    decreases |s|
  {
    if pos == 0 {
      WithoutAbsent(s[1..], s[0]);
    } else {
      assert Distinct(s[1..]);
      WithoutAt(s[1..], pos - 1);
      assert s[1..][pos - 1] == s[pos];
      assert s[1..][..pos - 1] + s[1..][pos..] == s[1..pos] + s[pos + 1..];
    }
  }

  lemma {:induction false} WithoutAbsent(s: seq<nat>, x: nat)
    requires x !in s
    ensures Without(s, x) == s
    decreases |s|
  {
    if |s| > 0 {
      WithoutAbsent(s[1..], x);
    }
  }

  /** Every map entry above `pos`, other than the sentinel `P`, moves down by one. */
  function ShiftDown(m: seq<nat>, pos: nat, P: nat): (r: seq<nat>)
    ensures |r| == |m|
  {
    seq(|m|, t requires 0 <= t < |m| => if m[t] > pos && m[t] != P then m[t] - 1 else m[t])
  }

  /**
   Removing column `j` deletes position `pos = colMap[j]` from the design,
   decrements every map entry above `pos` other than the sentinel, sends `j`
   to the sentinel and filters `j` out of the index set.
   */
  function RemoveColumn(d: Design, xmax: seq<Vec>, j: nat): (r: Design)
    requires Consistent(d, xmax) && j in d.indices
    ensures Consistent(r, xmax)
    ensures var pos := d.colMap[j];
            pos < |d.indices| && d.indices[pos] == j && r.indices == d.indices[..pos] + d.indices[pos + 1..]
  {
    var pos := d.colMap[j];
    ConsistentIsDistinct(d, xmax);
    var q :| 0 <= q < |d.indices| && d.indices[q] == j;
    assert pos == q;
    WithoutAt(d.indices, pos);
    var r := Design(Without(d.indices, j), ShiftDown(d.colMap, pos, |xmax|)[j := |xmax|],
                    d.columns[..pos] + d.columns[pos + 1..]);
    RemovedConsistent(d, xmax, j, pos, r);
    r
  }

  lemma RemovedConsistent(d: Design, xmax: seq<Vec>, j: nat, pos: nat, r: Design)
    requires Consistent(d, xmax) && Distinct(d.indices) && |d.indices| <= |xmax|
    requires pos < |d.indices| && d.indices[pos] == j
    requires r.indices == d.indices[..pos] + d.indices[pos + 1..]
    requires r.colMap == ShiftDown(d.colMap, pos, |xmax|)[j := |xmax|]
    requires r.columns == d.columns[..pos] + d.columns[pos + 1..]
    ensures Consistent(r, xmax)
  {
    RemovedPositions(d, xmax, j, pos, r);
    RemovedAbsent(d, xmax, j, pos, r);
  }

  lemma RemovedPositions(d: Design, xmax: seq<Vec>, j: nat, pos: nat, r: Design)
    requires Consistent(d, xmax) && Distinct(d.indices) && |d.indices| <= |xmax|
    requires pos < |d.indices| && d.indices[pos] == j
    requires r.indices == d.indices[..pos] + d.indices[pos + 1..]
    requires r.colMap == ShiftDown(d.colMap, pos, |xmax|)[j := |xmax|]
    requires r.columns == d.columns[..pos] + d.columns[pos + 1..]
    ensures forall k :: 0 <= k < |r.indices| ==>
              r.indices[k] < |xmax| && r.colMap[r.indices[k]] == k && r.columns[k] == xmax[r.indices[k]]
  {
    forall k | 0 <= k < |r.indices|
      ensures r.indices[k] < |xmax| && r.colMap[r.indices[k]] == k && r.columns[k] == xmax[r.indices[k]]
    {
      var k0 := if k < pos then k else k + 1;
      assert r.indices[k] == d.indices[k0] && r.columns[k] == d.columns[k0];
      assert k0 != pos;
      assert d.colMap[d.indices[k0]] == k0 && k0 < |d.indices| <= |xmax|;
    }
  }

  lemma RemovedAbsent(d: Design, xmax: seq<Vec>, j: nat, pos: nat, r: Design)
    requires Consistent(d, xmax)
    requires pos < |d.indices| && d.indices[pos] == j
    requires r.indices == d.indices[..pos] + d.indices[pos + 1..]
    requires r.colMap == ShiftDown(d.colMap, pos, |xmax|)[j := |xmax|]
    ensures forall t :: 0 <= t < |xmax| && t !in r.indices ==> r.colMap[t] == |xmax|
  {
    forall i | 0 <= i < |d.indices| && i != pos ensures d.indices[i] in r.indices {
      if i < pos {
        assert r.indices[i] == d.indices[i];
      } else {
        assert r.indices[i - 1] == d.indices[i];
      }
    }
    forall t | 0 <= t < |xmax| && t !in r.indices ensures r.colMap[t] == |xmax| {
      if t != j {
        assert t !in d.indices;
      }
    }
  }

  // ---------------------------------------------------------------------
  // Starting designs
  // ---------------------------------------------------------------------

  /** `0, 1, ..., P-1`, as `Indices::fill` produces. */
  function Range(P: nat): (r: seq<nat>)
    ensures |r| == P && forall k :: 0 <= k < P ==> r[k] == k
  {
    seq(P, k requires 0 <= k < P => k)
  }

  /** The map loop `columnMaxToCurrent[cols[i]] = i` run over a map filled with the sentinel `P`. */
  function StartMap(cols: seq<nat>, P: nat): (m: seq<nat>)
    requires forall k :: 0 <= k < |cols| ==> cols[k] < P
    requires Distinct(cols)
    ensures |m| == P
    ensures forall k :: 0 <= k < |cols| ==> m[cols[k]] == k
    ensures forall t :: 0 <= t < P && t !in cols ==> m[t] == P
    decreases |cols|
  {
    if |cols| == 0 then seq(P, t => P)
    else
      var last := |cols| - 1;
      var m := StartMap(cols[..last], P);
      assert forall t :: t in cols ==> t in cols[..last] || t == cols[last];
      m[cols[last] := last]
  }

  /** The design `Xmax` columns `cols` form: column `k` is `Xmax` column `cols[k]`. */
  function Gather(xmax: seq<Vec>, cols: seq<nat>): (X: seq<Vec>)
    requires forall k :: 0 <= k < |cols| ==> cols[k] < |xmax|
    ensures |X| == |cols| && forall k :: 0 <= k < |cols| ==> X[k] == xmax[cols[k]]
  {
    seq(|cols|, k requires 0 <= k < |cols| => xmax[cols[k]])
  }

  /** The BACKWARD start: every column, the identity map, `currentX_ = maxX_`. */
  function FullDesign(xmax: seq<Vec>): (d: Design)
    ensures Consistent(d, xmax) && d.indices == Range(|xmax|)
  {
    var P := |xmax|;
    var d := Design(Range(P), Range(P), xmax);
    assert forall t :: 0 <= t < P ==> t in d.indices by {
      forall t | 0 <= t < P ensures t in d.indices { assert d.indices[t] == t; }
    }
    d
  }

  /** A start from given indices: the index set, its map, and the gathered design. */
  function StartDesign(xmax: seq<Vec>, cols: seq<nat>): (d: Design)
    requires forall k :: 0 <= k < |cols| ==> cols[k] < |xmax|
    requires Distinct(cols)
    ensures Consistent(d, xmax) && d.indices == cols
  {
    Design(cols, StartMap(cols, |xmax|), Gather(xmax, cols))
  }

  // ---------------------------------------------------------------------
  // buildCurrentMatrixFromIndices as written
  // ---------------------------------------------------------------------

  /**
   `buildCurrentMatrixFromIndices` as the source writes it: start from an
   all-zero `n`-by-`|cols|` matrix and copy `Xmax` column `i` into column
   `cols[i]`. `None` stands for a copy outside either matrix, which the
   source does not check.
   */
  function ScatterAsWritten(xmax: seq<Vec>, cols: seq<nat>, n: nat): (r: Option<seq<Vec>>)
    ensures r.Some? <==> |cols| <= |xmax| && forall i :: 0 <= i < |cols| ==> cols[i] < |cols|
    ensures r.Some? ==> |r.value| == |cols|
    ensures r.Some? && Distinct(cols) ==> forall i :: 0 <= i < |cols| ==> r.value[cols[i]] == xmax[i]
  {
    if |cols| <= |xmax| && forall i :: 0 <= i < |cols| ==> cols[i] < |cols| then
      Some(Copies(seq(|cols|, c => Zeros(n)), xmax, cols, |cols|))
    else None
  }

  /** The first `count` copies of the loop in `ScatterAsWritten`. */
  function Copies(X: seq<Vec>, xmax: seq<Vec>, cols: seq<nat>, count: nat): (r: seq<Vec>)
    requires count <= |cols| && count <= |xmax|
    requires forall i :: 0 <= i < |cols| ==> cols[i] < |X|
    ensures |r| == |X|
    ensures Distinct(cols) ==> forall i :: 0 <= i < count ==> r[cols[i]] == xmax[i]
    decreases count
  {
    if count == 0 then X
    else Copies(X, xmax, cols, count - 1)[cols[count - 1] := xmax[count - 1]]
  }

  /** When the indices are `0..m-1` in order, the as-written copy is the gather. */
  lemma ScatterIsGatherOnRange(xmax: seq<Vec>, m: nat, n: nat)
    requires m <= |xmax|
    ensures ScatterAsWritten(xmax, Range(m), n) == Some(Gather(xmax, Range(m)))
  {
    var cols := Range(m);
    assert Distinct(cols);
    var r := ScatterAsWritten(xmax, cols, n);
    assert r.Some?;
    assert r.value == Gather(xmax, cols);
  }

  /**
   Two starts on which the as-written copy and the gather disagree: `[1]`
   copies outside a one-column matrix, and `[1, 2, 0]` places the columns in
   the inverse order.
   */
  lemma ScatterIsNotGather()
    ensures ScatterAsWritten([[0.0], [1.0]], [1], 1).None?
    ensures Gather([[0.0], [1.0]], [1]) == [[1.0]]
    ensures ScatterAsWritten([[0.0], [1.0], [2.0]], [1, 2, 0], 1) == Some([[2.0], [0.0], [1.0]])
    ensures Gather([[0.0], [1.0], [2.0]], [1, 2, 0]) == [[1.0], [2.0], [0.0]]
  {
    var xmax := [[0.0], [1.0], [2.0]];
    var cols: seq<nat> := [1, 2, 0];
    var r := ScatterAsWritten(xmax, cols, 1);
    assert Distinct(cols);
    assert r.Some?;
    assert r.value[1] == xmax[0] && r.value[2] == xmax[1] && r.value[0] == xmax[2];
    assert r.value == [[2.0], [0.0], [1.0]];
  }
}

=== FILE: criteria.dfy ===
/**
 Penalized criteria and the per-iteration move decision of
 `LinearModelStepwiseAlgorithm::run()`.

 Criteria are compared with the floating-point `<` of the source. Three kinds
 of value take part in those comparisons:
 - `Fin(v)`: an ordinary finite criterion;
 - `Inf`: the `SpecFunc::MaxNumericalScalar` start value of a scan and every
   criterion derived from it, made to lose every comparison against a real
   criterion (the code's finite value does not always lose; see
   `Stepwise.ChooseMoveAsWritten`);
 - `NaN`: an IEEE not-a-number (a backward candidate whose `A(i,i)` is zero,
   or any criterion of an empty sample), for which every `<` is false.
 */
module Criteria {

  datatype Crit = Fin(value: real) | Inf | NaN

  /** `SpecFunc::MaxNumericalScalar`, the largest finite double, `(2 - 2^-52) * 2^1023`. */
  const MaxNumericalScalar: real := 179769313486231570814527423731704356798070567525844996598917476803157260780028538760589558632766878171540458953514382464234321326889464182768467546703537516986049910576551282076245490090389328944075868508455133942304583236903222948165808559332123348274797826204144723168738177180919299881250404026184124858368.0

  /** The source's `a < b` on criteria. */
  predicate Below(a: Crit, b: Crit) {
    a.Fin? && (b.Inf? || (b.Fin? && a.value < b.value))
  }

  /** Two criteria neither of which is NaN are ordered one way or the other. */
  lemma Trichotomy(a: Crit, b: Crit)
    requires !a.NaN? && !b.NaN?
    ensures Below(a, b) || Below(b, a) || a == b
  {
  }

  /** `<` on criteria is a strict order: irreflexive and transitive. */
  lemma BelowStrictOrder(a: Crit, b: Crit, c: Crit)
    ensures !Below(a, a)
    ensures Below(a, b) && Below(b, c) ==> Below(a, c)
  {
  }

  /** `UnsignedInteger` subtraction `p - 1`, which wraps around at zero. */
  function UnsignedPred(p: nat): (r: nat)
    ensures p > 0 ==> r + 1 == p
    ensures p == 0 ==> r == 0xFFFF_FFFF_FFFF_FFFF
  {
    if p == 0 then 0xFFFF_FFFF_FFFF_FFFF else p - 1
  }

  /**
   `penalty * df + n * log(rss / n)`, the criterion of a model with `df`
   columns whose residual sum of squares is `rss` over `n` observations.
   `ln` stands for `std::log`. An empty sample makes `rss / n` a NaN.
   */
  function Penalized(penalty: real, df: nat, rss: Crit, n: nat, ln: real -> real): (r: Crit)
    ensures n == 0 || rss.NaN? <==> r.NaN?
    ensures rss.Fin? && n > 0 ==> r.Fin? && r.value == penalty * (df as real) + (n as real) * ln(rss.value / (n as real))
    ensures rss.Inf? && n > 0 ==> r.Inf?
  {
    if n == 0 then NaN
    else match rss
      case Fin(v) => Fin(penalty * (df as real) + (n as real) * ln(v / (n as real)))
      case Inf => Inf
      case NaN => NaN
  }

  /**
   The criterion as the code computes it from a scan's result: a scan that
   found no candidate hands on its start value `MaxNumericalScalar`, a
   finite double, so its criterion is finite where `Penalized` gives `Inf`.
   */
  function PenalizedAsWritten(penalty: real, df: nat, rss: Crit, n: nat, ln: real -> real): (r: Crit)
    ensures !rss.Inf? ==> r == Penalized(penalty, df, rss, n, ln)
    ensures rss.Inf? && n > 0 ==>
              r == Fin(penalty * (df as real) + (n as real) * ln(MaxNumericalScalar / (n as real)))
    ensures rss.Inf? && n == 0 ==> r.NaN?
  {
    Penalized(penalty, df, if rss.Inf? then Fin(MaxNumericalScalar) else rss, n, ln)
  }

  /** `std::log` is increasing on the non-negative reals (with `log 0` as its least value). */
  ghost predicate LnMonotone(ln: real -> real) {
    forall a: real, b: real :: 0.0 <= a <= b ==> ln(a) <= ln(b)
  }

  /**
   With an increasing logarithm, a larger residual sum of squares never gives
   a smaller penalized criterion for the same number of columns.
   */
  lemma PenalizedMonotone(penalty: real, df: nat, a: Crit, b: Crit, n: nat, ln: real -> real)
    requires LnMonotone(ln) && n > 0
    requires a.Fin? && a.value >= 0.0 && !b.NaN? && !Below(b, a)
    ensures !Below(Penalized(penalty, df, b, n, ln), Penalized(penalty, df, a, n, ln))
  {
    if b.Fin? {
      var nn := n as real;
      assert a.value / nn <= b.value / nn;
      assert ln(a.value / nn) <= ln(b.value / nn);
      assert nn * ln(a.value / nn) <= nn * ln(b.value / nn);
    }
  }

  datatype Choice = Halt | TakeForward | TakeBackward

  /**
   The end of an iteration: stop unless one of the two best candidates beats
   the current criterion; otherwise add when the forward candidate is
   strictly better than the backward one, and remove in every other case
   (ties included).
   */
  function Decide(lf: Crit, lb: Crit, lstar: Crit): (r: Choice)
    ensures r.Halt? <==> !Below(lf, lstar) && !Below(lb, lstar)
    ensures r.TakeForward? ==> Below(lf, lstar) && Below(lf, lb)
    ensures r.TakeBackward? ==> !Below(lf, lb) && (lb.NaN? || Below(lb, lstar))
    ensures lf == lb && Below(lb, lstar) ==> r.TakeBackward?
  {
    if !(Below(lf, lstar) || Below(lb, lstar)) then Halt
    else if Below(lf, lb) then TakeForward
    else TakeBackward
  }
}

=== FILE: driver.dfy ===
/**
 `LinearModelStepwiseAlgorithm::run()` and `getResult()`: the iteration
 loop over the decisions of `Stepwise.ChooseMove`, the final evaluation, and
 what a caller can rely on afterwards. The Gram inverse of each design comes
 from the solver `gram`; `std::log` is the parameter `ln`.
 */
module Driver {
  import opened LinAlg
  import opened Outcomes
  import opened Criteria
  import opened Likelihood
  import opened Bookkeeping
  import opened Stepwise
  import opened Progress

  /**
   One iteration's decision, seen through what it guarantees: an admissible
   move that improves the criterion, or a stop at a local optimum.
   */
  method NextMove(alg: Algorithm, d: Design, A: seq<Vec>, ln: real -> real) returns (m: Move)
    requires Evaluated(alg, d, A)
    ensures m.Add? ==> m.column < |alg.xmax| && m.column !in d.indices && Allowed(m, alg.direction, alg.minimal)
    ensures m.Remove? ==> m.column in d.indices && Allowed(m, alg.direction, alg.minimal)
    ensures !m.Stop? ==> Improves(alg, d, A, MoveDesign(d, alg.xmax, m), ln)
    ensures m.Stop? && LnMonotone(ln) ==> LocalOptimum(alg, d, A, ln)
  {
    m := ChooseMove(alg, d, A, ln);
    if m.Stop? {
      StopGivesLocalOptimum(alg, d, A, ln);
    } else {
      DecidedMoveImproves(alg, d, A, ln);
    }
  }

  lemma StopGivesLocalOptimum(alg: Algorithm, d: Design, A: seq<Vec>, ln: real -> real)
    requires Evaluated(alg, d, A) && ChooseMove(alg, d, A, ln).Stop?
    ensures LnMonotone(ln) ==> LocalOptimum(alg, d, A, ln)
  {
    if LnMonotone(ln) {
      StopIsLocalOptimum(alg, d, A, ln);
    }
  }

  /**
   The iterations of `run()` from the design `d0`: at most `maxIter` of them,
   each stopping the search or making one allowed move that improves the
   criterion, or a failure of the solver. `ds` and `As` record the designs
   visited and the Gram inverses they were evaluated with.
   */
  method Search(alg: Algorithm, d0: Design, gram: seq<Vec> -> Option<seq<Vec>>, ln: real -> real)
      returns (d: Design, failure: Option<Error>, moves: seq<Move>, ghost ds: seq<Design>, ghost As: seq<seq<Vec>>)
    requires Consistent(d0, alg.xmax) && Columns(alg.xmax, |alg.y|)
    requires GramSolver(gram, |alg.y|)
    ensures failure.Some? ==> failure == Some(SingularGram)
    ensures failure.None? ==>
              && Consistent(d, alg.xmax)
              && d.indices == Apply(d0.indices, moves)
              && |moves| <= alg.maxIter
              && AllAllowed(moves, alg.direction, alg.minimal)
    ensures failure.None? ==> Recorded(alg, d0, moves, ds, As, ln) && ds[|moves|] == d
    ensures failure.None? && |moves| < alg.maxIter ==>
              && gram(d.columns).Some?
              && Evaluated(alg, d, gram(d.columns).value)
              && (LnMonotone(ln) ==> LocalOptimum(alg, d, gram(d.columns).value, ln))
  {
    d := d0;
    moves := [];
    ds, As := [d0], [];
    var iterations := 0;
    while iterations < alg.maxIter
      invariant Consistent(d, alg.xmax)
      invariant d.indices == Apply(d0.indices, moves)
      invariant |moves| == iterations <= alg.maxIter
      invariant AllAllowed(moves, alg.direction, alg.minimal)
      invariant Recorded(alg, d0, moves, ds, As, ln) && ds[|moves|] == d
    {
      iterations := iterations + 1;
      var g := gram(d.columns);
      if g.None? {
        return d, Some(SingularGram), moves, ds, As;
      }
      var A := g.value;
      assert SolvesAt(gram, d.columns, |alg.y|);
      var m := NextMove(alg, d, A, ln);
      if m.Stop? {
        return d, None, moves, ds, As;
      }
      var d' := MoveDesign(d, alg.xmax, m);
      var moves' := moves + [m];
      assert moves'[..|moves'| - 1] == moves;
      ExtendRecord(alg, ds, As, moves, d0, A, m, d', ln);
      ds, As := ds + [d'], As + [A];
      d := d';
      moves := moves';
    }
    failure := None;
  }

  /**
   The record of a search from `d0` after the moves `moves`: `ds` holds the
   designs visited, one more than the moves, and `As` the Gram inverse each
   design but the last was evaluated with; every step improves the
   criterion, and design `t` carries the index set the first `t` moves reach.
   */
  ghost predicate Recorded(alg: Algorithm, d0: Design, moves: seq<Move>, ds: seq<Design>, As: seq<seq<Vec>>,
                           ln: real -> real) {
    && |ds| == |moves| + 1 && |As| == |moves| && ds[0] == d0
    && (forall t :: 0 <= t < |moves| ==> Improves(alg, ds[t], As[t], ds[t + 1], ln))
    && (forall t :: 0 <= t < |ds| ==> ds[t].indices == Apply(d0.indices, moves[..t]))
  }

  /** The records of `Search` after one more move. */
  lemma ExtendRecord(alg: Algorithm, ds: seq<Design>, As: seq<seq<Vec>>, moves: seq<Move>, d0: Design,
                     A: seq<Vec>, m: Move, d': Design, ln: real -> real)
    requires Recorded(alg, d0, moves, ds, As, ln)
    requires Improves(alg, ds[|moves|], A, d', ln)
    requires d'.indices == Apply(d0.indices, moves + [m])
    ensures Recorded(alg, d0, moves + [m], ds + [d'], As + [A], ln)
  {
    var ds2, As2, moves2 := ds + [d'], As + [A], moves + [m];
    forall t | 0 <= t < |moves| + 1 ensures Improves(alg, ds2[t], As2[t], ds2[t + 1], ln) {
      if t < |moves| {
        assert ds2[t] == ds[t] && As2[t] == As[t] && ds2[t + 1] == ds[t + 1];
      } else {
        assert ds2[t] == ds[|moves|] && As2[t] == A && ds2[t + 1] == d';
      }
    }
    forall t | 0 <= t < |ds| + 1 ensures ds2[t].indices == Apply(d0.indices, moves2[..t]) {
      if t < |ds| {
        assert ds2[t] == ds[t] && moves2[..t] == moves[..t];
      } else {
        assert moves2[..t] == moves2;
      }
    }
  }

  /**
   What the records of a finished search give once the design reached is
   evaluated: no index set occurs twice, and after at least one move the
   final criterion is below the starting one.
   */
  lemma SearchOutcome(alg: Algorithm, ds: seq<Design>, As: seq<seq<Vec>>, moves: seq<Move>, d0: Design, A: seq<Vec>, ln: real -> real)
    requires Recorded(alg, d0, moves, ds, As, ln)
    requires Evaluated(alg, ds[|moves|], A)
    ensures forall s, t :: 0 <= s < t <= |moves| ==> Apply(d0.indices, moves[..s]) != Apply(d0.indices, moves[..t])
    ensures |moves| > 0 ==>
              forall A0 :: Evaluated(alg, ds[0], A0) ==>
                Below(CurrentCriterion(alg, ds[|moves|], A, ln), CurrentCriterion(alg, ds[0], A0, ln))
  {
    var As' := As + [A];
    forall t | 0 <= t < |ds| - 1 ensures Improves(alg, ds[t], As'[t], ds[t + 1], ln) {
      assert As'[t] == As[t];
    }
    assert Trajectory(alg, ds, As', ln);
    forall s, t | 0 <= s < t <= |moves|
      ensures Apply(d0.indices, moves[..s]) != Apply(d0.indices, moves[..t])
    {
      NoIndexSetRevisited(alg, ds, As', ln, s, t);
    }
    if |moves| > 0 {
      forall A0 | Evaluated(alg, ds[0], A0)
        ensures Below(CurrentCriterion(alg, ds[|moves|], A, ln), CurrentCriterion(alg, ds[0], A0, ln))
      {
        CriterionDecreases(alg, ds, As', ln, 0, |moves|);
        CriterionOfIndices(alg, ds[0], As'[0], ds[0], A0, ln);
      }
    }
  }

  /**
   `run()`. An object that has run is left as it is. Invalid arguments and a
   failing solver leave the object unchanged and report the error; otherwise
   the object records the fit reached after at most `maxIter` allowed moves
   from the starting index set. The search never returns to an index set,
   each move lowers the criterion, and a search that stops before its budget
   ends on a local optimum.
   */
  method Run(alg: Algorithm, gram: seq<Vec> -> Option<seq<Vec>>, ln: real -> real)
      returns (next: Algorithm, failure: Option<Error>, moves: seq<Move>)
    requires Columns(alg.xmax, alg.inputSize)
    requires StartSetValid(alg)
    requires GramSolver(gram, alg.inputSize)
    ensures alg.result.Some? ==> next == alg && failure.None? && moves == []
    ensures failure.Some? ==> next == alg
    ensures failure == Some(InvalidArgument) <==> alg.result.None? && Rejected(alg)
    ensures failure.Some? && !Rejected(alg) ==> failure == Some(SingularGram)
    ensures failure.None? ==> next.result.Some? && next == alg.(result := next.result)
    ensures alg.result.None? && failure.None? ==> SearchedFit(alg, next.result.value, moves, ln)
    ensures alg.result.None? && failure.None? && |moves| < alg.maxIter ==> SettledFit(alg, next.result.value, gram, ln)
  {
    if alg.result.Some? {
      return alg, None, [];
    }
    if Rejected(alg) {
      return alg, Some(InvalidArgument), [];
    }
    var r;
    r, moves := RunFresh(alg, gram, ln);
    if r.Failure? {
      return alg, Some(r.error), [];
    }
    next := alg.(result := Some(r.value));
    failure := None;
  }

  /**
   What `run()` guarantees about the fit it records after the moves
   `moves`: at most `maxIter` of them, each allowed by the direction and the
   minimal indices, leading from the starting index set to the fit's; the
   fit is the least-squares fit of its indices; minimal indices present at
   the start are still there; a forward search only adds and a backward one
   only removes; no index set is visited twice; and after at least one move
   the final criterion is below the starting one.
   */
  ghost predicate SearchedFit(alg: Algorithm, fit: Fit, moves: seq<Move>, ln: real -> real)
    requires !Rejected(alg) && Columns(alg.xmax, alg.inputSize)
    requires StartSetValid(alg)
  {
    var S := StartIndices(alg);
    && |moves| <= alg.maxIter
    && AllAllowed(moves, alg.direction, alg.minimal)
    && fit.indices == Apply(S, moves)
    && FitOf(alg, fit, ln)
    && (forall x :: x in S && x in alg.minimal ==> x in fit.indices)
    && (alg.direction == Forward ==> forall x :: x in S ==> x in fit.indices)
    && (alg.direction == Backward ==> forall x :: x in fit.indices ==> x in S)
    && (forall s, t :: 0 <= s < t <= |moves| ==> Apply(S, moves[..s]) != Apply(S, moves[..t]))
    && (|moves| > 0 ==>
          forall A0 :: Evaluated(alg, StartingDesign(alg), A0) ==>
            Below(fit.criterion, CurrentCriterion(alg, StartingDesign(alg), A0, ln)))
  }

  /**
   What a run that stopped before its budget ran out adds: the solver
   inverts the Gram matrix of the final design, and for a monotone logarithm
   no single allowed move from it lowers the criterion.
   */
  ghost predicate SettledFit(alg: Algorithm, fit: Fit, gram: seq<Vec> -> Option<seq<Vec>>, ln: real -> real) {
    && ValidIndices(fit.indices, |alg.xmax|)
    && gram(fit.design).Some?
    && Evaluated(alg, StartDesign(alg.xmax, fit.indices), gram(fit.design).value)
    && (LnMonotone(ln) ==>
          LocalOptimum(alg, StartDesign(alg.xmax, fit.indices), gram(fit.design).value, ln))
  }

  /** The part of `run()` after the argument checks: the search and the final evaluation. */
  method RunFresh(alg: Algorithm, gram: seq<Vec> -> Option<seq<Vec>>, ln: real -> real)
      returns (r: Result<Fit>, moves: seq<Move>)
    requires !Rejected(alg) && Columns(alg.xmax, alg.inputSize)
    requires StartSetValid(alg)
    requires GramSolver(gram, alg.inputSize)
    ensures r.Failure? ==> r.error == SingularGram
    ensures r.Success? ==> SearchedFit(alg, r.value, moves, ln)
    ensures r.Success? && |moves| < alg.maxIter ==> SettledFit(alg, r.value, gram, ln)
  {
    var d0 := StartingDesign(alg);
    var d, searchFailure, found, ds, As := Search(alg, d0, gram, ln);
    if searchFailure.Some? {
      return Failure(SingularGram), [];
    }
    moves := found;
    var g := gram(d.columns);
    if g.None? {
      return Failure(SingularGram), [];
    }
    assert SolvesAt(gram, d.columns, |alg.y|);
    var fit := Finish(alg, d, g.value, ln);
    FinishedRun(alg, d0, d, moves, ds, As, g.value, ln);
    if |moves| < alg.maxIter {
      SettledRun(alg, d, fit, gram, ln);
    }
    r := Success(fit);
  }

  /** What the fit of a finished search states about the search. */
  lemma FinishedRun(alg: Algorithm, d0: Design, d: Design, moves: seq<Move>, ds: seq<Design>, As: seq<seq<Vec>>,
                    A: seq<Vec>, ln: real -> real)
    requires !Rejected(alg) && Columns(alg.xmax, alg.inputSize)
    requires StartSetValid(alg)
    requires d0 == StartingDesign(alg)
    requires Consistent(d, alg.xmax) && d.indices == Apply(d0.indices, moves)
    requires |moves| <= alg.maxIter && AllAllowed(moves, alg.direction, alg.minimal)
    requires Recorded(alg, d0, moves, ds, As, ln) && ds[|moves|] == d
    requires Evaluated(alg, d, A)
    ensures SearchedFit(alg, Finish(alg, d, A, ln), moves, ln)
  {
    ApplyKeepsMinimal(d0.indices, moves, alg.direction, alg.minimal);
    if alg.direction == Forward {
      ApplyForwardGrows(d0.indices, moves, alg.minimal);
    } else if alg.direction == Backward {
      ApplyBackwardShrinks(d0.indices, moves, alg.minimal);
    }
    SearchOutcome(alg, ds, As, moves, d0, A, ln);
  }

  /** A search that stopped on its own ends on a design the solver evaluates, at a local optimum. */
  lemma SettledRun(alg: Algorithm, d: Design, fit: Fit, gram: seq<Vec> -> Option<seq<Vec>>, ln: real -> real)
    requires Consistent(d, alg.xmax) && gram(d.columns).Some? && Evaluated(alg, d, gram(d.columns).value)
    requires LnMonotone(ln) ==> LocalOptimum(alg, d, gram(d.columns).value, ln)
    requires fit == Finish(alg, d, gram(d.columns).value, ln)
    ensures SettledFit(alg, fit, gram, ln)
  {
    ConsistentIsDistinct(d, alg.xmax);
    assert fit.design == d.columns;
    ConsistentUnique(StartDesign(alg.xmax, fit.indices), d, alg.xmax);
  }

  /** `getResult()`: run first if the object has not run, then hand back the result. */
  method GetResult(alg: Algorithm, gram: seq<Vec> -> Option<seq<Vec>>, ln: real -> real)
      returns (next: Algorithm, r: Result<Fit>)
    requires Columns(alg.xmax, alg.inputSize)
    requires StartSetValid(alg)
    requires GramSolver(gram, alg.inputSize)
    requires alg.result.Some? ==> FitOf(alg, alg.result.value, ln)
    ensures alg.result.Some? ==> next == alg && r == Success(alg.result.value)
    ensures r.Failure? ==> next == alg && alg.result.None?
    ensures r.Failure? && Rejected(alg) ==> r.error == InvalidArgument
    ensures r.Failure? && !Rejected(alg) ==> r.error == SingularGram
    ensures r.Success? ==> next.result == Some(r.value) && FitOf(alg, r.value, ln)
    ensures alg.result.None? && r.Success? ==>
              && !Rejected(alg)
              && next == alg.(result := Some(r.value))
              && exists moves :: SearchedFit(alg, r.value, moves, ln)
                                 && (|moves| < alg.maxIter ==> SettledFit(alg, r.value, gram, ln))
  {
    if alg.result.Some? {
      return alg, Success(alg.result.value);
    }
    var failure, moves;
    next, failure, moves := Run(alg, gram, ln);
    if failure.Some? {
      return next, Failure(failure.value);
    }
    r := Success(next.result.value);
  }
}

=== FILE: factory.dfy ===
/**
 `LinearModelStepwiseFactory`: the configuration surface of the stepwise
 factory and the part of its `run()` that exists. Its `run()` validates the
 samples and picks a start set exactly like the algorithm, and then always
 throws `NotYetImplementedException`: `buildCurrentMatrixFromIndices` and
 the iteration are unimplemented, so the factory never records a run.
 */
module Factory {
  import opened Outcomes
  import opened Stepwise

  /**
   The factory's state. `direction` is the raw integer the parameter
   constructor casts into the enum without checking it, so it may hold a
   value outside `BACKWARD = -1`, `BOTH = 0`, `FORWARD = 1`.
   */
  datatype StepwiseFactory = StepwiseFactory(
    outputDimension: nat,
    inputSize: nat,
    outputSize: nat,
    direction: int,
    penalty: real,
    maxIter: nat,
    condensedFormula: string,
    formulas: seq<string>,
    minimal: seq<nat>,
    start: seq<nat>,
    hasRun: bool)

  /** The enum value of a direction. */
  function DirectionCode(d: Direction): (code: int)
    ensures -1 <= code <= 1
  {
    match d
    case Backward => -1
    case Both => 0
    case Forward => 1
  }

  /** The direction an integer names, if any. */
  function DecodeDirection(code: int): (r: Option<Direction>)
    ensures r.Some? <==> -1 <= code <= 1
    ensures r.Some? ==> DirectionCode(r.value) == code
  {
    if code == -1 then Some(Backward)
    else if code == 0 then Some(Both)
    else if code == 1 then Some(Forward)
    else None
  }

  /** Encoding and decoding a direction are inverse to each other. */
  lemma DirectionRoundTrip(d: Direction, code: int)
    ensures DecodeDirection(DirectionCode(d)) == Some(d)
    ensures DecodeDirection(code) == Some(d) ==> DirectionCode(d) == code
  {
    match d
    case Backward =>
    case Both =>
    case Forward =>
  }

  /** The default constructor: BOTH, penalty -1, 1000 iterations, the constant formula "1". */
  function DefaultFactory(): (f: StepwiseFactory)
    ensures DecodeDirection(f.direction) == Some(Both)
    ensures f.penalty == -1.0 && f.maxIter == 1000
    ensures f.condensedFormula == "1" && f.formulas == ["1"]
    ensures !f.hasRun && f.minimal == [] && f.start == []
  {
    StepwiseFactory(0, 0, 0, DirectionCode(Both), -1.0, 1000, "1", ["1"], [], [], false)
  }

  /** The parameter constructor: it stores the direction it is given, valid or not. */
  function NewFactory(outputDimension: nat, inputSize: nat, outputSize: nat,
                      direction: int, penalty: real, maxIter: nat): (f: StepwiseFactory)
    ensures f.direction == direction && f.penalty == penalty && f.maxIter == maxIter
    ensures f.outputDimension == outputDimension && f.inputSize == inputSize && f.outputSize == outputSize
    ensures f.condensedFormula == "1" && f.formulas == ["1"] && !f.hasRun
  {
    StepwiseFactory(outputDimension, inputSize, outputSize, direction, penalty, maxIter, "1", ["1"], [], [], false)
  }

  /** `setDirection`: only `-1`, `0` and `1` are accepted; anything else throws and changes nothing. */
  function SetDirection(f: StepwiseFactory, code: int): (r: Result<StepwiseFactory>)
    ensures r.Failure? <==> DecodeDirection(code).None?
    ensures r.Failure? ==> r.error == InvalidArgument
    ensures r.Success? ==> r.value.direction == code && r.value.(direction := f.direction) == f
  {
    match DecodeDirection(code)
    case None => Failure(InvalidArgument)
    case Some(d) => Success(f.(direction := DirectionCode(d)))
  }

  /**
   The constructor and the setter disagree: the constructor accepts a
   direction that `setDirection` rejects.
   */
  lemma ConstructorSkipsDirectionCheck()
    ensures NewFactory(1, 3, 3, 2, 0.0, 10).direction == 2
    ensures DecodeDirection(NewFactory(1, 3, 3, 2, 0.0, 10).direction).None?
    ensures SetDirection(DefaultFactory(), 2).Failure?
  {
  }

  /** `setPenalty`: the getter returns what was set, and nothing else changes. */
  function SetPenalty(f: StepwiseFactory, penalty: real): (r: StepwiseFactory)
    ensures r.penalty == penalty && r.(penalty := f.penalty) == f
  {
    f.(penalty := penalty)
  }

  /** `setMaximumIterationNumber`: the getter returns what was set, and nothing else changes. */
  function SetMaximumIterationNumber(f: StepwiseFactory, maxIter: nat): (r: StepwiseFactory)
    ensures r.maxIter == maxIter && r.(maxIter := f.maxIter) == f
  {
    f.(maxIter := maxIter)
  }

  /**
   `run()`. A factory that has run returns at once. Otherwise it throws
   `InvalidArgumentException` on exactly the arguments the algorithm
   rejects, and `NotYetImplementedException` in every other case, including
   a direction outside the enum, which no case of the start-set switch
   handles. The factory itself is never changed.
   */
  function FactoryRun(f: StepwiseFactory): (r: Option<Error>)
    ensures r.None? <==> f.hasRun
    ensures r == Some(InvalidArgument) <==>
              && !f.hasRun
              && (|| f.outputDimension != 1
                  || f.inputSize != f.outputSize
                  || (|f.start| == 0 && (f.direction == 0 || (f.direction == 1 && |f.minimal| == 0))))
    ensures r.Some? ==> r.value == InvalidArgument || r.value == NotYetImplemented
  {
    if f.hasRun then None
    else if f.outputDimension != 1 || f.inputSize != f.outputSize then Some(InvalidArgument)
    else if |f.start| == 0 && DecodeDirection(f.direction) == Some(Both) then Some(InvalidArgument)
    else if |f.start| == 0 && DecodeDirection(f.direction) == Some(Forward) && |f.minimal| == 0 then Some(InvalidArgument)
    else Some(NotYetImplemented)
  }

  /**
   The factory's validation and start-set prefix agrees with the
   algorithm's: configured alike, the factory throws
   `InvalidArgumentException` exactly when the algorithm's `run()` does.
   */
  lemma FactoryValidatesLikeAlgorithm(f: StepwiseFactory, alg: Algorithm)
    requires !f.hasRun && alg.result.None?
    requires DecodeDirection(f.direction) == Some(alg.direction)
    requires f.outputDimension == alg.outputDimension && f.inputSize == alg.inputSize
    requires f.outputSize == |alg.y| && f.minimal == alg.minimal && f.start == alg.start
    ensures FactoryRun(f) == Some(InvalidArgument) <==> Rejected(alg)
    ensures !Rejected(alg) ==> FactoryRun(f) == Some(NotYetImplemented)
  {
    DirectionRoundTrip(alg.direction, f.direction);
  }
}

=== FILE: likelihood.dfy ===
/**
 `LinearModelStepwiseAlgorithm::computeLogLikelihood`: from the current
 design `X`, the response `y` and the Gram inverse `A`, the coefficients
 `A B` with `B = Xᵀ y`, the residual `y - (X A) B` and its squared norm.

 The Gram inverse itself comes from the linear-algebra library's solver and
 is an input here; `InverseOf` states what the solver promises.
 */
module Likelihood {
  import opened LinAlg

  /** `A` inverts the `p`-by-`p` matrix `G`: `G A` is the identity. */
  ghost predicate InverseOf(A: seq<Vec>, G: seq<Vec>, p: nat) {
    Square(A, p) && Square(G, p) && MatMul(G, A, p) == Identity(p)
  }

  datatype Evaluation = Evaluation(B: Vec, residual: Vec, rss: real)

  /** The least-squares coefficients `A B` (the `regression` of the final result). */
  function Coefficients(A: seq<Vec>, B: Vec): (beta: Vec)
    requires Square(A, |B|)
    ensures |beta| == |B|
  {
    MatVec(A, B, |B|)
  }

  /**
   The evaluation the source performs once per iteration: it forms
   `M = X A` and subtracts `M B` from `y`. The residual is `y` minus the
   design applied to the coefficients `A B`, whatever `A` is.
   */
  function Evaluate(X: seq<Vec>, y: Vec, A: seq<Vec>): (e: Evaluation)
    requires Columns(X, |y|) && Square(A, |X|)
    ensures |e.B| == |X| && |e.residual| == |y|
    ensures forall k :: 0 <= k < |X| ==> e.B[k] == Dot(X[k], y)
    ensures e.residual == Sub(y, MatVec(X, Coefficients(A, e.B), |y|))
    ensures e.rss == NormSq(e.residual) && e.rss >= 0.0
  {
    var n := |y|;
    var B := TMul(X, y);
    var M := MatMul(X, A, n);
    MatVecAssoc(X, A, B, n);
    var residual := Sub(y, MatVec(M, B, n));
    Evaluation(B, residual, NormSq(residual))
  }

  /**
   When `A` really is `(Xᵀ X)⁻¹`, the residual is orthogonal to every
   column of the design (the normal equations of least squares).
   */
  lemma ResidualOrthogonal(X: seq<Vec>, y: Vec, A: seq<Vec>)
    requires Columns(X, |y|) && InverseOf(A, Gram(X, |y|), |X|)
    ensures forall k :: 0 <= k < |X| ==> Dot(X[k], Evaluate(X, y, A).residual) == 0.0
  {
    var n, p := |y|, |X|;
    var e := Evaluate(X, y, A);
    var beta := Coefficients(A, e.B);
    var G := Gram(X, n);
    TMulSub(X, y, MatVec(X, beta, n));
    TMulMatVec(X, beta, n);
    MatVecAssoc(G, A, e.B, p);
    MatVecIdentity(e.B);
    assert TMul(X, e.residual) == Sub(e.B, e.B);
    forall k | 0 <= k < p ensures Dot(X[k], e.residual) == 0.0 {
      assert TMul(X, e.residual)[k] == 0.0;
    }
  }

  /** A combination of the columns that is orthogonal to every column is zero. */
  lemma OrthogonalCombinationZero(X: seq<Vec>, e: Vec, n: nat)
    requires Columns(X, n) && |e| == |X|
    requires forall k :: 0 <= k < |X| ==> Dot(X[k], MatVec(X, e, n)) == 0.0
    ensures forall i :: 0 <= i < n ==> MatVec(X, e, n)[i] == 0.0
  {
    var d := MatVec(X, e, n);
    assert TMul(X, d) == Zeros(|X|);
    DotMatVec(d, X, e);
    DotComm(Zeros(|X|), e);
    DotZeros(e);
    NormSqZero(d);
  }

  /**
   Least-squares fits are unique: two combinations `X c1` and `X c2` that
   both leave a residual orthogonal to every column of `X` are equal, and so
   are their residuals.
   */
  lemma FitUnique(X: seq<Vec>, y: Vec, c1: Vec, c2: Vec, m1: Vec, m2: Vec)
    requires Columns(X, |y|) && |c1| == |c2| == |X|
    requires m1 == MatVec(X, c1, |y|) && m2 == MatVec(X, c2, |y|)
    requires forall k :: 0 <= k < |X| ==> Dot(X[k], Sub(y, m1)) == 0.0
    requires forall k :: 0 <= k < |X| ==> Dot(X[k], Sub(y, m2)) == 0.0
    ensures m1 == m2
  {
    DifferenceIsOrthogonalCombination(X, y, c1, c2, m1, m2);
    OrthogonalCombinationZero(X, Sub(c2, c1), |y|);
    EqualWhenResidualsAgree(y, m1, m2);
  }

  lemma DifferenceIsOrthogonalCombination(X: seq<Vec>, y: Vec, c1: Vec, c2: Vec, m1: Vec, m2: Vec)
    requires Columns(X, |y|) && |c1| == |c2| == |X|
    requires m1 == MatVec(X, c1, |y|) && m2 == MatVec(X, c2, |y|)
    requires forall k :: 0 <= k < |X| ==> Dot(X[k], Sub(y, m1)) == 0.0
    requires forall k :: 0 <= k < |X| ==> Dot(X[k], Sub(y, m2)) == 0.0
    ensures Sub(Sub(y, m1), Sub(y, m2)) == MatVec(X, Sub(c2, c1), |y|)
    ensures forall k :: 0 <= k < |X| ==> Dot(X[k], MatVec(X, Sub(c2, c1), |y|)) == 0.0
  {
    var r1, r2 := Sub(y, m1), Sub(y, m2);
    MatVecSub(X, c2, c1, |y|);
    DifferenceOfResiduals(y, m1, m2);
    forall k | 0 <= k < |X| ensures Dot(X[k], Sub(r1, r2)) == 0.0 {
      DotSub(X[k], r1, r2);
    }
  }

  lemma DifferenceOfResiduals(y: Vec, m1: Vec, m2: Vec)
    requires |y| == |m1| == |m2|
    ensures Sub(Sub(y, m1), Sub(y, m2)) == Sub(m2, m1)
  {
  }

  lemma EqualWhenResidualsAgree(y: Vec, m1: Vec, m2: Vec)
    requires |m1| == |m2| == |y|
    requires forall i :: 0 <= i < |y| ==> Sub(Sub(y, m1), Sub(y, m2))[i] == 0.0
    ensures m1 == m2
  {
    forall i | 0 <= i < |y| ensures m1[i] == m2[i] {
      assert Sub(Sub(y, m1), Sub(y, m2))[i] == 0.0;
    }
  }
}

=== FILE: linalg.dfy ===
/**
 Exact-real vectors and column-major matrices, with the linearity facts the
 stepwise scorers rely on.

 A matrix is a sequence of columns: `X[k]` is column `k`, and every column of
 an `n`-row matrix has length `n`. The source stores its matrices in the same
 column-major layout, which is why its `memcpy` calls copy whole columns.
 */
module LinAlg {

  type Vec = seq<real>

  /** Every column of `X` has `n` rows. */
  predicate Columns(X: seq<Vec>, n: nat) {
    forall k :: 0 <= k < |X| ==> |X[k]| == n
  }

  /** `A` is a `p`-by-`p` matrix. */
  predicate Square(A: seq<Vec>, p: nat) {
    |A| == p && Columns(A, p)
  }

  function Zeros(n: nat): (r: Vec)
    ensures |r| == n
    ensures forall i :: 0 <= i < n ==> r[i] == 0.0
  {
    seq(n, i => 0.0)
  }

  /** The `j`-th standard basis vector of length `p`. */
  function Unit(p: nat, j: nat): (r: Vec)
    ensures |r| == p
    ensures forall i :: 0 <= i < p ==> r[i] == if i == j then 1.0 else 0.0
  {
    seq(p, i => if i == j then 1.0 else 0.0)
  }

  function Identity(p: nat): (r: seq<Vec>)
    ensures Square(r, p)
    ensures forall j :: 0 <= j < p ==> r[j] == Unit(p, j)
  {
    seq(p, j requires 0 <= j < p => Unit(p, j))
  }

  function Add(a: Vec, b: Vec): (r: Vec)
    requires |a| == |b|
    ensures |r| == |a|
    ensures forall i :: 0 <= i < |a| ==> r[i] == a[i] + b[i]
  {
    seq(|a|, i requires 0 <= i < |a| => a[i] + b[i])
  }

  function Sub(a: Vec, b: Vec): (r: Vec)
    requires |a| == |b|
    ensures |r| == |a|
    ensures forall i :: 0 <= i < |a| ==> r[i] == a[i] - b[i]
  {
    seq(|a|, i requires 0 <= i < |a| => a[i] - b[i])
  }

  function Scale(s: real, a: Vec): (r: Vec)
    ensures |r| == |a|
    ensures forall i :: 0 <= i < |a| ==> r[i] == s * a[i]
  {
    seq(|a|, i requires 0 <= i < |a| => s * a[i])
  }

  /** The dot product, summed from the first component. */
  function Dot(a: Vec, b: Vec): real
    requires |a| == |b|
  {
    if |a| == 0 then 0.0 else a[0] * b[0] + Dot(a[1..], b[1..])
  }

  /** The squared Euclidean norm (`NumericalPoint::normSquare`). */
  function NormSq(a: Vec): (r: real)
    ensures r >= 0.0
  {
    SumSquaresNonnegative(a);
    Dot(a, a)
  }

  lemma {:induction false} SumSquaresNonnegative(a: Vec)
    ensures Dot(a, a) >= 0.0
  {
    if |a| > 0 {
      SumSquaresNonnegative(a[1..]);
      assert a[0] * a[0] >= 0.0;
    }
  }

  /** Only the zero vector has a zero squared norm. */
  lemma {:induction false} NormSqZero(a: Vec)
    requires Dot(a, a) == 0.0
    ensures forall i :: 0 <= i < |a| ==> a[i] == 0.0
  {
    if |a| > 0 {
      SumSquaresNonnegative(a[1..]);
      assert Dot(a, a) == a[0] * a[0] + Dot(a[1..], a[1..]);
      assert a[0] * a[0] >= 0.0;
      assert a[0] * a[0] == 0.0;
      ProductZero(a[0], a[0]);
      assert Dot(a[1..], a[1..]) == 0.0;
      NormSqZero(a[1..]);
      forall i | 1 <= i < |a| ensures a[i] == 0.0 {
        assert a[i] == a[1..][i - 1];
      }
    }
  }

  lemma ProductZero(x: real, y: real)
    requires x * y == 0.0
    ensures x == 0.0 || y == 0.0
  {
  }

  /** Component `r` of every column, i.e. row `r` of the matrix. */
  function Row(X: seq<Vec>, r: nat): (row: Vec)
    requires forall k :: 0 <= k < |X| ==> r < |X[k]|
    ensures |row| == |X|
    ensures forall k :: 0 <= k < |X| ==> row[k] == X[k][r]
  {
    seq(|X|, k requires 0 <= k < |X| => X[k][r])
  }

  /** `X c`: the combination of the columns of `X` with weights `c`. */
  function MatVec(X: seq<Vec>, c: Vec, n: nat): (r: Vec)
    requires Columns(X, n) && |c| == |X|
    ensures |r| == n
  {
    if |X| == 0 then Zeros(n)
    else Add(Scale(c[0], X[0]), MatVec(X[1..], c[1..], n))
  }

  /** `Xᵀ y`: the dot product of every column of `X` with `y`. */
  function TMul(X: seq<Vec>, y: Vec): (r: Vec)
    requires Columns(X, |y|)
    ensures |r| == |X|
    ensures forall k :: 0 <= k < |X| ==> r[k] == Dot(X[k], y)
  {
    seq(|X|, k requires 0 <= k < |X| => Dot(X[k], y))
  }

  /** `X A`, column by column. */
  function MatMul(X: seq<Vec>, A: seq<Vec>, n: nat): (r: seq<Vec>)
    requires Columns(X, n) && Columns(A, |X|)
    ensures |r| == |A| && Columns(r, n)
    ensures forall j :: 0 <= j < |A| ==> r[j] == MatVec(X, A[j], n)
  {
    seq(|A|, j requires 0 <= j < |A| => MatVec(X, A[j], n))
  }

  /** `Xᵀ X`: column `j` holds the dot products of every column with `X[j]`. */
  function Gram(X: seq<Vec>, n: nat): (G: seq<Vec>)
    requires Columns(X, n)
    ensures Square(G, |X|)
    ensures forall j, k :: 0 <= j < |X| && 0 <= k < |X| ==> G[j][k] == Dot(X[k], X[j])
  {
    seq(|X|, j requires 0 <= j < |X| => TMul(X, X[j]))
  }

  /** The sequence without its element at position `i`. */
  function RemoveAt<T>(s: seq<T>, i: nat): (r: seq<T>)
    requires i < |s|
    ensures |r| == |s| - 1
    ensures forall k :: 0 <= k < i ==> r[k] == s[k]
    ensures forall k :: i <= k < |r| ==> r[k] == s[k + 1]
  {
    s[..i] + s[i + 1..]
  }

  // ---------------------------------------------------------------------
  // Linearity of the dot product
  // ---------------------------------------------------------------------

  lemma {:induction false} DotComm(a: Vec, b: Vec)
    requires |a| == |b|
    ensures Dot(a, b) == Dot(b, a)
  {
    if |a| > 0 {
      DotComm(a[1..], b[1..]);
    }
  }

  lemma {:induction false} DotAdd(a: Vec, b: Vec, c: Vec)
    requires |a| == |b| == |c|
    ensures Dot(a, Add(b, c)) == Dot(a, b) + Dot(a, c)
  {
    if |a| > 0 {
      assert Add(b, c)[1..] == Add(b[1..], c[1..]);
      DotAdd(a[1..], b[1..], c[1..]);
    }
  }

  lemma {:induction false} DotSub(a: Vec, b: Vec, c: Vec)
    requires |a| == |b| == |c|
    ensures Dot(a, Sub(b, c)) == Dot(a, b) - Dot(a, c)
  {
    if |a| > 0 {
      assert Sub(b, c)[1..] == Sub(b[1..], c[1..]);
      DotSub(a[1..], b[1..], c[1..]);
    }
  }

  lemma {:induction false} DotScale(a: Vec, s: real, b: Vec)
    requires |a| == |b|
    ensures Dot(a, Scale(s, b)) == s * Dot(a, b)
  {
    if |a| > 0 {
      assert Scale(s, b)[1..] == Scale(s, b[1..]) by {
        forall i | 0 <= i < |b| - 1 ensures Scale(s, b)[1..][i] == Scale(s, b[1..])[i] {
          assert Scale(s, b)[1..][i] == Scale(s, b)[i + 1];
        }
      }
      DotScale(a[1..], s, b[1..]);
    }
  }

  lemma {:induction false} DotZeros(a: Vec)
    ensures Dot(a, Zeros(|a|)) == 0.0
  {
    if |a| > 0 {
      assert Zeros(|a|)[1..] == Zeros(|a| - 1) by {
        forall i | 0 <= i < |a| - 1 ensures Zeros(|a|)[1..][i] == 0.0 {
          assert Zeros(|a|)[1..][i] == Zeros(|a|)[i + 1];
        }
      }
      DotZeros(a[1..]);
    }
  }

  /** Dotting with a standard basis vector picks out one component. */
  lemma {:induction false} DotUnit(p: nat, j: nat, c: Vec)
    requires j < p && |c| == p
    ensures Dot(Unit(p, j), c) == c[j]
  {
    var u := Unit(p, j);
    assert Dot(u, c) == u[0] * c[0] + Dot(u[1..], c[1..]);
    if j == 0 {
      assert u[1..] == Zeros(p - 1) by {
        forall i | 0 <= i < p - 1 ensures u[1..][i] == 0.0 { assert u[1..][i] == u[i + 1]; }
      }
      DotComm(Zeros(p - 1), c[1..]);
      DotZeros(c[1..]);
      assert u[0] * c[0] == c[0];
    } else {
      assert u[1..] == Unit(p - 1, j - 1) by {
        forall i | 0 <= i < p - 1 ensures u[1..][i] == Unit(p - 1, j - 1)[i] { assert u[1..][i] == u[i + 1]; }
      }
      DotUnit(p - 1, j - 1, c[1..]);
      assert u[0] * c[0] == 0.0;
      assert c[1..][j - 1] == c[j];
    }
  }

  // ---------------------------------------------------------------------
  // Matrix-vector products
  // ---------------------------------------------------------------------

  /** Row `r` of `X c` is the dot product of row `r` of `X` with `c`. */
  lemma {:induction false} MatVecRow(X: seq<Vec>, c: Vec, n: nat, r: nat)
    requires Columns(X, n) && |c| == |X| && r < n
    ensures MatVec(X, c, n)[r] == Dot(Row(X, r), c)
  {
    if |X| > 0 {
      assert Row(X, r)[1..] == Row(X[1..], r);
      MatVecRow(X[1..], c[1..], n, r);
    }
  }

  /** One entry of `X (c ± d)`: the first column's share plus the rest, regrouped. */
  lemma Regroup(u0: real, c0: real, d0: real, x: real, tu: real, tc: real, td: real, plus: bool)
    requires plus ==> u0 == c0 + d0 && tu == tc + td
    requires !plus ==> u0 == c0 - d0 && tu == tc - td
    ensures plus ==> u0 * x + tu == (c0 * x + tc) + (d0 * x + td)
    ensures !plus ==> u0 * x + tu == (c0 * x + tc) - (d0 * x + td)
  {
    if plus {
      assert u0 * x == c0 * x + d0 * x;
    } else {
      assert u0 * x == c0 * x - d0 * x;
    }
  }

  lemma AddRegroup(v: Vec, tc: Vec, td: Vec, c0: real, d0: real)
    requires |v| == |tc| == |td|
    ensures Add(Scale(c0 + d0, v), Add(tc, td)) == Add(Add(Scale(c0, v), tc), Add(Scale(d0, v), td))
  {
    forall r | 0 <= r < |v|
      ensures Add(Scale(c0 + d0, v), Add(tc, td))[r] == Add(Add(Scale(c0, v), tc), Add(Scale(d0, v), td))[r]
    {
      Regroup(c0 + d0, c0, d0, v[r], tc[r] + td[r], tc[r], td[r], true);
    }
  }

  lemma SubRegroup(v: Vec, tc: Vec, td: Vec, c0: real, d0: real)
    requires |v| == |tc| == |td|
    ensures Add(Scale(c0 - d0, v), Sub(tc, td)) == Sub(Add(Scale(c0, v), tc), Add(Scale(d0, v), td))
  {
    forall r | 0 <= r < |v|
      ensures Add(Scale(c0 - d0, v), Sub(tc, td))[r] == Sub(Add(Scale(c0, v), tc), Add(Scale(d0, v), td))[r]
    {
      Regroup(c0 - d0, c0, d0, v[r], tc[r] - td[r], tc[r], td[r], false);
    }
  }

  lemma {:induction false} MatVecAdd(X: seq<Vec>, c: Vec, d: Vec, n: nat)
    requires Columns(X, n) && |c| == |d| == |X|
    ensures MatVec(X, Add(c, d), n) == Add(MatVec(X, c, n), MatVec(X, d, n))
  {
    if |X| > 0 {
      var u := Add(c, d);
      assert u[1..] == Add(c[1..], d[1..]) by {
        forall i | 0 <= i < |u| - 1 ensures u[1..][i] == Add(c[1..], d[1..])[i] {
          assert u[1..][i] == u[i + 1];
        }
      }
      MatVecAdd(X[1..], c[1..], d[1..], n);
      var tc, td := MatVec(X[1..], c[1..], n), MatVec(X[1..], d[1..], n);
      AddRegroup(X[0], tc, td, c[0], d[0]);
      assert u[0] == c[0] + d[0];
      assert MatVec(X, u, n) == Add(Scale(u[0], X[0]), MatVec(X[1..], u[1..], n));
      assert MatVec(X, c, n) == Add(Scale(c[0], X[0]), tc);
      assert MatVec(X, d, n) == Add(Scale(d[0], X[0]), td);
    }
  }

  lemma {:induction false} MatVecSub(X: seq<Vec>, c: Vec, d: Vec, n: nat)
    requires Columns(X, n) && |c| == |d| == |X|
    ensures MatVec(X, Sub(c, d), n) == Sub(MatVec(X, c, n), MatVec(X, d, n))
  {
    if |X| > 0 {
      var u := Sub(c, d);
      assert u[1..] == Sub(c[1..], d[1..]) by {
        forall i | 0 <= i < |u| - 1 ensures u[1..][i] == Sub(c[1..], d[1..])[i] {
          assert u[1..][i] == u[i + 1];
        }
      }
      MatVecSub(X[1..], c[1..], d[1..], n);
      var tc, td := MatVec(X[1..], c[1..], n), MatVec(X[1..], d[1..], n);
      SubRegroup(X[0], tc, td, c[0], d[0]);
      assert u[0] == c[0] - d[0];
      assert MatVec(X, u, n) == Add(Scale(u[0], X[0]), MatVec(X[1..], u[1..], n));
      assert MatVec(X, c, n) == Add(Scale(c[0], X[0]), tc);
      assert MatVec(X, d, n) == Add(Scale(d[0], X[0]), td);
    }
  }

  lemma {:induction false} MatVecScale(X: seq<Vec>, s: real, c: Vec, n: nat)
    requires Columns(X, n) && |c| == |X|
    ensures MatVec(X, Scale(s, c), n) == Scale(s, MatVec(X, c, n))
  {
    if |X| > 0 {
      assert Scale(s, c)[1..] == Scale(s, c[1..]) by {
        forall i | 0 <= i < |c| - 1 ensures Scale(s, c)[1..][i] == Scale(s, c[1..])[i] {
          assert Scale(s, c)[1..][i] == Scale(s, c)[i + 1];
        }
      }
      MatVecScale(X[1..], s, c[1..], n);
      forall r | 0 <= r < n
        ensures MatVec(X, Scale(s, c), n)[r] == Scale(s, MatVec(X, c, n))[r]
      {
        assert (s * c[0]) * X[0][r] == s * (c[0] * X[0][r]);
        assert MatVec(X[1..], Scale(s, c[1..]), n)[r] == s * MatVec(X[1..], c[1..], n)[r];
      }
    }
  }

  /** `(X A) c == X (A c)`. */
  lemma {:induction false} MatVecAssoc(X: seq<Vec>, A: seq<Vec>, c: Vec, n: nat)
    requires Columns(X, n) && Columns(A, |X|) && |c| == |A|
    ensures MatVec(MatMul(X, A, n), c, n) == MatVec(X, MatVec(A, c, |X|), n)
  {
    if |A| > 0 {
      var p := |X|;
      assert MatMul(X, A, n)[1..] == MatMul(X, A[1..], n);
      MatVecAssoc(X, A[1..], c[1..], n);
      MatVecScale(X, c[0], A[0], n);
      MatVecAdd(X, Scale(c[0], A[0]), MatVec(A[1..], c[1..], p), n);
    } else {
      var p := |X|;
      MatVecZero(X, n);
    }
  }

  lemma {:induction false} MatVecZero(X: seq<Vec>, n: nat)
    requires Columns(X, n)
    ensures MatVec(X, Zeros(|X|), n) == Zeros(n)
  {
    if |X| > 0 {
      assert Zeros(|X|)[1..] == Zeros(|X| - 1);
      MatVecZero(X[1..], n);
    }
  }

  lemma MatVecIdentity(c: Vec)
    ensures MatVec(Identity(|c|), c, |c|) == c
  {
    var p := |c|;
    forall r | 0 <= r < p
      ensures MatVec(Identity(p), c, p)[r] == c[r]
    {
      MatVecRow(Identity(p), c, p, r);
      assert Row(Identity(p), r) == Unit(p, r);
      DotUnit(p, r, c);
    }
  }

  /** `y · (X c) == (Xᵀ y) · c`. */
  lemma {:induction false} DotMatVec(y: Vec, X: seq<Vec>, c: Vec)
    requires Columns(X, |y|) && |c| == |X|
    ensures Dot(y, MatVec(X, c, |y|)) == Dot(TMul(X, y), c)
  {
    if |X| == 0 {
      DotZeros(y);
    } else {
      DotMatVec(y, X[1..], c[1..]);
      DotMatVecHead(y, X, c);
      TMulDotHead(X, y, c);
      DotScale(y, c[0], X[0]);
    }
  }

  /** `y · (X c)` splits into the first column's share and the rest. */
  lemma DotMatVecHead(y: Vec, X: seq<Vec>, c: Vec)
    requires Columns(X, |y|) && |c| == |X| > 0
    ensures Dot(y, MatVec(X, c, |y|)) == Dot(y, Scale(c[0], X[0])) + Dot(y, MatVec(X[1..], c[1..], |y|))
  {
    var rest := MatVec(X[1..], c[1..], |y|);
    assert MatVec(X, c, |y|) == Add(Scale(c[0], X[0]), rest);
    DotAdd(y, Scale(c[0], X[0]), rest);
  }

  /** `(Xᵀ y) · c` splits the same way. */
  lemma TMulDotHead(X: seq<Vec>, y: Vec, c: Vec)
    requires Columns(X, |y|) && |c| == |X| > 0
    ensures Dot(TMul(X, y), c) == c[0] * Dot(y, X[0]) + Dot(TMul(X[1..], y), c[1..])
  {
    var T := TMul(X, y);
    assert T[1..] == TMul(X[1..], y);
    DotComm(y, X[0]);
    assert Dot(T, c) == T[0] * c[0] + Dot(T[1..], c[1..]);
    TimesEqual(c[0], T[0], Dot(y, X[0]));
  }

  lemma TimesEqual(s: real, a: real, b: real)
    requires a == b
    ensures a * s == s * b
  {
  }

  /** `Xᵀ (X c) == (Xᵀ X) c`. */
  lemma TMulMatVec(X: seq<Vec>, c: Vec, n: nat)
    requires Columns(X, n) && |c| == |X|
    ensures TMul(X, MatVec(X, c, n)) == MatVec(Gram(X, n), c, |X|)
  {
    var G := Gram(X, n);
    forall k | 0 <= k < |X|
      ensures TMul(X, MatVec(X, c, n))[k] == MatVec(G, c, |X|)[k]
    {
      DotMatVec(X[k], X, c);
      MatVecRow(G, c, |X|, k);
      forall j | 0 <= j < |X|
        ensures Row(G, k)[j] == TMul(X, X[k])[j]
      {
        DotComm(X[k], X[j]);
      }
      assert Row(G, k) == TMul(X, X[k]);
    }
  }

  lemma TMulSub(X: seq<Vec>, a: Vec, b: Vec)
    requires |a| == |b| && Columns(X, |a|)
    ensures TMul(X, Sub(a, b)) == Sub(TMul(X, a), TMul(X, b))
  {
    forall k | 0 <= k < |X|
      ensures TMul(X, Sub(a, b))[k] == Sub(TMul(X, a), TMul(X, b))[k]
    {
      DotSub(X[k], a, b);
    }
  }

  lemma TMulScale(X: seq<Vec>, s: real, a: Vec)
    requires Columns(X, |a|)
    ensures TMul(X, Scale(s, a)) == Scale(s, TMul(X, a))
  {
    forall k | 0 <= k < |X|
      ensures TMul(X, Scale(s, a))[k] == Scale(s, TMul(X, a))[k]
    {
      DotScale(X[k], s, a);
    }
  }

  /** A zero weight on column `i` makes `X c` independent of that column. */
  lemma {:induction false} MatVecDropZero(X: seq<Vec>, c: Vec, n: nat, i: nat)
    requires Columns(X, n) && |c| == |X| && i < |X| && c[i] == 0.0
    ensures MatVec(X, c, n) == MatVec(RemoveAt(X, i), RemoveAt(c, i), n)
  {
    if i == 0 {
      assert RemoveAt(X, 0) == X[1..];
      assert RemoveAt(c, 0) == c[1..];
      var rest := MatVec(X[1..], c[1..], n);
      assert Add(Scale(c[0], X[0]), rest) == rest;
    } else {
      assert RemoveAt(X, i)[1..] == RemoveAt(X[1..], i - 1);
      assert RemoveAt(c, i)[1..] == RemoveAt(c[1..], i - 1);
      MatVecDropZero(X[1..], c[1..], n, i - 1);
    }
  }

  /** Appending a column with weight `a` adds `a` times that column. */
  lemma {:induction false} MatVecAppend(X: seq<Vec>, x: Vec, c: Vec, a: real, n: nat)
    requires Columns(X, n) && |x| == n && |c| == |X|
    ensures Columns(X + [x], n)
    ensures MatVec(X + [x], c + [a], n) == Add(MatVec(X, c, n), Scale(a, x))
    decreases |X|
  {
    if |X| == 0 {
      assert X + [x] == [x] && c + [a] == [a];
      assert [x][1..] == [] && [a][1..] == [];
    } else {
      assert (X + [x])[1..] == X[1..] + [x];
      assert (c + [a])[1..] == c[1..] + [a];
      MatVecAppend(X[1..], x, c[1..], a, n);
    }
  }
}

=== FILE: outcomes.dfy ===
/** Optional values and the exceptions the stepwise classes throw. */
module Outcomes {

  datatype Option<+T> = None | Some(value: T)

  /** The value an operation returns, or the exception it throws. */
  datatype Result<+T> = Success(value: T) | Failure(error: Error)

  /**
   `InvalidArgumentException`, `NotYetImplementedException`, and the
   failure of the linear-algebra library's solver on a singular Gram matrix.
   */
  datatype Error = InvalidArgument | NotYetImplemented | SingularGram
}

=== FILE: progress.dfy ===
/**
 What an accepted iteration of `LinearModelStepwiseAlgorithm::run()`
 achieves. The scorers estimate the residual of the enlarged or reduced
 design without refitting it. When the Gram inverses are exact, the next
 iteration's evaluation of the new design finds exactly that residual, so
 its `Lstar` is the `LF` or `LB` that won the decision, strictly below the
 previous `Lstar`. The criterion therefore decreases along a run, and no
 index set is visited twice.
 */
module Progress {
  import opened LinAlg
  import opened Criteria
  import opened Likelihood
  import opened Scorers
  import opened Bookkeeping
  import opened Stepwise

  /** After adding column `j` the design's columns are the old ones followed by `Xmax[j]`. */
  lemma AddedColumns(d: Design, xmax: seq<Vec>, j: nat)
    requires Consistent(d, xmax) && j < |xmax| && j !in d.indices
    ensures MoveDesign(d, xmax, Add(j)).columns == d.columns + [xmax[j]]
  {
    var r := MoveDesign(d, xmax, Add(j));
    assert r.indices == d.indices + [j];
    forall k | 0 <= k < |r.columns| ensures r.columns[k] == (d.columns + [xmax[j]])[k] {
      assert r.columns[k] == xmax[r.indices[k]];
    }
  }

  /** After removing column `j` the design's columns are the old ones without the local column of `j`. */
  lemma RemovedColumns(d: Design, xmax: seq<Vec>, j: nat)
    requires Consistent(d, xmax) && j in d.indices
    ensures d.colMap[j] < |d.columns|
    ensures MoveDesign(d, xmax, Remove(j)).columns == RemoveAt(d.columns, d.colMap[j])
  {
    var r := MoveDesign(d, xmax, Remove(j));
    var pos := d.colMap[j];
    var q :| 0 <= q < |d.indices| && d.indices[q] == j;
    assert pos == q;
    ConsistentIsDistinct(d, xmax);
    WithoutAt(d.indices, pos);
    assert r.indices == d.indices[..pos] + d.indices[pos + 1..];
    forall k | 0 <= k < |r.columns| ensures r.columns[k] == RemoveAt(d.columns, pos)[k] {
      assert r.columns[k] == xmax[r.indices[k]];
    }
  }

  /**
   A residual `y - X c` orthogonal to every column of `X` is the residual the
   evaluation with the exact Gram inverse computes.
   */
  lemma RefitResidual(X: seq<Vec>, y: Vec, A: seq<Vec>, c: Vec, r: Vec)
    requires Columns(X, |y|) && InverseOf(A, Gram(X, |y|), |X|) && |c| == |X|
    requires r == Sub(y, MatVec(X, c, |y|))
    requires forall k :: 0 <= k < |X| ==> Dot(X[k], r) == 0.0
    ensures Evaluate(X, y, A).residual == r
  {
    var e := Evaluate(X, y, A);
    ResidualOrthogonal(X, y, A);
    var c1 := Coefficients(A, e.B);
    FitUnique(X, y, c1, c, MatVec(X, c1, |y|), MatVec(X, c, |y|));
  }

  /** A finite forward score is the residual sum of squares of the refitted enlarged design. */
  lemma ForwardScoreIsRefit(d: Design, xmax: seq<Vec>, y: Vec, A: seq<Vec>, A': seq<Vec>, j: nat)
    requires Ready(d, xmax, y, A) && InverseOf(A, Gram(d.columns, |y|), |d.columns|)
    requires j < |xmax| && j !in d.indices
    requires ForwardScoreOf(d, xmax, y, A, j).Fin?
    requires InverseOf(A', Gram(MoveDesign(d, xmax, Add(j)).columns, |y|), |d.columns| + 1)
    ensures Columns(MoveDesign(d, xmax, Add(j)).columns, |y|)
    ensures ForwardScoreOf(d, xmax, y, A, j) == Fin(Evaluate(MoveDesign(d, xmax, Add(j)).columns, y, A').rss)
  {
    var n, X, x := |y|, d.columns, xmax[j];
    AddedColumns(d, xmax, j);
    var u := ForwardUpdate(X, MatMul(X, A, n), Evaluate(X, y, A).residual, x);
    assert u.Some?;
    ForwardUpdateIsRefit(X, y, A, x);
    var c: Vec :| |c| == |X| + 1 && u.value == Sub(y, MatVec(X + [x], c, n));
    forall k | 0 <= k < |X + [x]| ensures Dot((X + [x])[k], u.value) == 0.0 {
      if k == |X| {
        assert (X + [x])[k] == x;
      } else {
        assert (X + [x])[k] == X[k];
      }
    }
    RefitResidual(X + [x], y, A', c, u.value);
  }

  /** A finite backward score is the residual sum of squares of the refitted reduced design. */
  lemma BackwardScoreIsRefit(d: Design, xmax: seq<Vec>, y: Vec, A: seq<Vec>, A': seq<Vec>, j: nat)
    requires Ready(d, xmax, y, A) && InverseOf(A, Gram(d.columns, |y|), |d.columns|)
    requires j in d.indices && |y| > 0
    requires BackwardScoreOf(d, xmax, y, A, j).Fin?
    requires InverseOf(A', Gram(MoveDesign(d, xmax, Remove(j)).columns, |y|), |d.columns| - 1)
    ensures Columns(MoveDesign(d, xmax, Remove(j)).columns, |y|)
    ensures BackwardScoreOf(d, xmax, y, A, j) == Fin(Evaluate(MoveDesign(d, xmax, Remove(j)).columns, y, A').rss)
  {
    var n, X := |y|, d.columns;
    RemovedColumns(d, xmax, j);
    var i := d.colMap[j];
    var B := TMul(X, y);
    assert Evaluate(X, y, A).B == B;
    assert A[i][i] != 0.0;
    BackwardResidualIsRefit(X, y, A, i);
    var r := BackwardResidual(X, y, A, B, i);
    var X' := RemoveAt(X, i);
    forall k | 0 <= k < |X'| ensures Dot(X'[k], r) == 0.0 {
      if k < i {
        assert X'[k] == X[k];
      } else {
        assert X'[k] == X[k + 1];
      }
    }
    RefitResidual(X', y, A', RemoveAt(BackwardCorrection(A, B, i), i), r);
  }

  /** Design `d` was evaluated with its exact Gram inverse `A`. */
  ghost predicate Evaluated(alg: Algorithm, d: Design, A: seq<Vec>) {
    Ready(d, alg.xmax, alg.y, A) && InverseOf(A, Gram(d.columns, |alg.y|), |d.columns|)
  }

  /** Adding column `j` leads to a design whose criterion is the `LF` of `j`. */
  lemma AddedCriterion(alg: Algorithm, d: Design, A: seq<Vec>, A': seq<Vec>, ln: real -> real, j: nat)
    requires Evaluated(alg, d, A) && j < |alg.xmax| && j !in d.indices
    requires ForwardCriterion(alg, d, A, ln, j).Fin?
    requires Evaluated(alg, MoveDesign(d, alg.xmax, Add(j)), A')
    ensures CurrentCriterion(alg, MoveDesign(d, alg.xmax, Add(j)), A', ln) == ForwardCriterion(alg, d, A, ln, j)
  {
    AddedColumns(d, alg.xmax, j);
    ForwardScoreIsRefit(d, alg.xmax, alg.y, A, A', j);
  }

  /** Removing column `j` leads to a design whose criterion is the `LB` of `j`. */
  lemma RemovedCriterion(alg: Algorithm, d: Design, A: seq<Vec>, A': seq<Vec>, ln: real -> real, j: nat)
    requires Evaluated(alg, d, A) && j in d.indices && |alg.y| > 0
    requires BackwardCriterion(alg, d, A, ln, j).Fin?
    requires Evaluated(alg, MoveDesign(d, alg.xmax, Remove(j)), A')
    ensures CurrentCriterion(alg, MoveDesign(d, alg.xmax, Remove(j)), A', ln) == BackwardCriterion(alg, d, A, ln, j)
  {
    var p := |d.columns|;
    RemovedColumns(d, alg.xmax, j);
    assert UnsignedPred(p) == p - 1;
    BackwardScoreIsRefit(d, alg.xmax, alg.y, A, A', j);
  }

  /**
   An iteration that moves ends on a design whose criterion, once the next
   iteration evaluates it with its exact Gram inverse `A'`, is the winning
   `LF` or `LB` of the decision and strictly below the current `Lstar`.
   */
  lemma AcceptedMoveLowersCriterion(alg: Algorithm, d: Design, A: seq<Vec>, A': seq<Vec>, ln: real -> real)
    requires Evaluated(alg, d, A)
    requires !ChooseMove(alg, d, A, ln).Stop?
    requires Evaluated(alg, MoveDesign(d, alg.xmax, ChooseMove(alg, d, A, ln)), A')
    ensures var m := ChooseMove(alg, d, A, ln);
            var d' := MoveDesign(d, alg.xmax, m);
            && (m.Add? ==> CurrentCriterion(alg, d', A', ln) == ForwardCriterion(alg, d, A, ln, m.column))
            && (m.Remove? ==> CurrentCriterion(alg, d', A', ln) == BackwardCriterion(alg, d, A, ln, m.column))
            && Below(CurrentCriterion(alg, d', A', ln), CurrentCriterion(alg, d, A, ln))
  {
    var m := ChooseMove(alg, d, A, ln);
    if m.Add? {
      AddedCriterion(alg, d, A, A', ln, m.column);
    } else {
      RemovedCriterion(alg, d, A, A', ln, m.column);
    }
  }

  /**
   The criterion of a design depends on its index set only: two consistent
   designs with the same indices, each evaluated with its exact Gram
   inverse, have the same `Lstar`.
   */
  lemma CriterionOfIndices(alg: Algorithm, d1: Design, A1: seq<Vec>, d2: Design, A2: seq<Vec>, ln: real -> real)
    requires Ready(d1, alg.xmax, alg.y, A1) && InverseOf(A1, Gram(d1.columns, |alg.y|), |d1.columns|)
    requires Ready(d2, alg.xmax, alg.y, A2) && InverseOf(A2, Gram(d2.columns, |alg.y|), |d2.columns|)
    requires d1.indices == d2.indices
    ensures CurrentCriterion(alg, d1, A1, ln) == CurrentCriterion(alg, d2, A2, ln)
  {
    var n := |alg.y|;
    assert d1.columns == d2.columns by {
      forall k | 0 <= k < |d1.columns| ensures d1.columns[k] == d2.columns[k] {
        assert d1.columns[k] == alg.xmax[d1.indices[k]];
      }
    }
    var X := d1.columns;
    var e := Evaluate(X, alg.y, A1);
    ResidualOrthogonal(X, alg.y, A1);
    RefitResidual(X, alg.y, A2, Coefficients(A1, e.B), e.residual);
  }

  /**
   Moving from `d`, evaluated with `A`, to `d'` improves the criterion: any
   exact evaluation of `d'` has a criterion strictly below that of `d`.
   */
  ghost predicate Improves(alg: Algorithm, d: Design, A: seq<Vec>, d': Design, ln: real -> real) {
    && Evaluated(alg, d, A)
    && forall A' :: Evaluated(alg, d', A') ==>
         Ready(d', alg.xmax, alg.y, A') && Below(CurrentCriterion(alg, d', A', ln), CurrentCriterion(alg, d, A, ln))
  }

  /** Every move an iteration decides improves the criterion. */
  lemma DecidedMoveImproves(alg: Algorithm, d: Design, A: seq<Vec>, ln: real -> real)
    requires Evaluated(alg, d, A) && !ChooseMove(alg, d, A, ln).Stop?
    ensures Improves(alg, d, A, MoveDesign(d, alg.xmax, ChooseMove(alg, d, A, ln)), ln)
  {
    var d' := MoveDesign(d, alg.xmax, ChooseMove(alg, d, A, ln));
    forall A' | Evaluated(alg, d', A')
      ensures Ready(d', alg.xmax, alg.y, A') && Below(CurrentCriterion(alg, d', A', ln), CurrentCriterion(alg, d, A, ln))
    {
      AcceptedMoveLowersCriterion(alg, d, A, A', ln);
    }
  }

  /**
   The designs of successive iterations of a run and the Gram inverses they
   were evaluated with: each iteration but the last moved and improved the
   criterion, and the last design was evaluated too.
   */
  ghost predicate Trajectory(alg: Algorithm, ds: seq<Design>, As: seq<seq<Vec>>, ln: real -> real) {
    && |ds| == |As| > 0
    && (forall t :: 0 <= t < |ds| - 1 ==> Improves(alg, ds[t], As[t], ds[t + 1], ln))
    && Evaluated(alg, ds[|ds| - 1], As[|ds| - 1])
  }

  /** Every design of a trajectory was evaluated with its exact Gram inverse. */
  lemma TrajectoryEvaluated(alg: Algorithm, ds: seq<Design>, As: seq<seq<Vec>>, ln: real -> real, t: nat)
    requires Trajectory(alg, ds, As, ln) && t < |ds|
    ensures Evaluated(alg, ds[t], As[t])
  {
    if t < |ds| - 1 {
      assert Improves(alg, ds[t], As[t], ds[t + 1], ln);
    }
  }

  /** Along a run the criterion strictly decreases from one iteration to any later one. */
  lemma {:induction false} CriterionDecreases(alg: Algorithm, ds: seq<Design>, As: seq<seq<Vec>>, ln: real -> real, s: nat, t: nat)
    requires Trajectory(alg, ds, As, ln) && s < t < |ds|
    ensures Evaluated(alg, ds[s], As[s]) && Evaluated(alg, ds[t], As[t])
    ensures Below(CurrentCriterion(alg, ds[t], As[t], ln), CurrentCriterion(alg, ds[s], As[s], ln))
    decreases t - s
  {
    TrajectoryEvaluated(alg, ds, As, ln, s);
    TrajectoryEvaluated(alg, ds, As, ln, s + 1);
    TrajectoryEvaluated(alg, ds, As, ln, t);
    ImprovesAt(alg, ds[s], As[s], ds[s + 1], As[s + 1], ln);
    if s + 1 < t {
      CriterionDecreases(alg, ds, As, ln, s + 1, t);
      BelowStrictOrder(CurrentCriterion(alg, ds[t], As[t], ln),
                       CurrentCriterion(alg, ds[s + 1], As[s + 1], ln),
                       CurrentCriterion(alg, ds[s], As[s], ln));
    }
  }

  lemma ImprovesAt(alg: Algorithm, d: Design, A: seq<Vec>, d': Design, A': seq<Vec>, ln: real -> real)
    requires Improves(alg, d, A, d', ln) && Evaluated(alg, d', A')
    ensures Evaluated(alg, d, A)
    ensures Below(CurrentCriterion(alg, d', A', ln), CurrentCriterion(alg, d, A, ln))
  {
  }

  /** A run never returns to an index set it has already left, so it cannot cycle. */
  lemma NoIndexSetRevisited(alg: Algorithm, ds: seq<Design>, As: seq<seq<Vec>>, ln: real -> real, s: nat, t: nat)
    requires Trajectory(alg, ds, As, ln) && s < t < |ds|
    ensures ds[s].indices != ds[t].indices
  {
    CriterionDecreases(alg, ds, As, ln, s, t);
    if ds[s].indices == ds[t].indices {
      CriterionOfIndices(alg, ds[s], As[s], ds[t], As[t], ln);
    }
  }
}

=== FILE: scan.dfy ===
/**
 The argmin scan of the two scorer functors and their `join`.

 A scorer keeps a `(criterion_, bestIndex_)` pair, replaces it only on a
 strictly smaller criterion while it walks its candidates, and a `join`
 adopts the other half's pair only when it is strictly smaller. The source
 runs the scan under a parallel reduction; here it is a left-to-right fold,
 and `JoinFold` shows that splitting the candidates, scanning both halves
 from the same state and joining them gives the fold of the whole.
 `JoinFoldAfterSplit` shows the same when the right half starts from the
 state the left half had reached, which the splitting constructors copy.
 */
module Scan {
  import opened Criteria

  /** A candidate column and the criterion it scored (`Inf` or `NaN` when it was skipped). */
  datatype Scored = Scored(index: nat, score: Crit)

  /** The `(criterion_, bestIndex_)` state of a scorer. */
  datatype Best = Best(criterion: Crit, index: nat)

  /** One candidate of the loop body: `if (newCriterion < criterion_)`. */
  function Step(b: Best, c: Scored): Best {
    if Below(c.score, b.criterion) then Best(c.score, c.index) else b
  }

  /** The scorer's loop over its candidates, in order. */
  function Fold(b: Best, cs: seq<Scored>): (r: Best)
    ensures r == b || (Below(r.criterion, b.criterion) && Scored(r.index, r.criterion) in cs)
    decreases |cs|
  {
    if |cs| == 0 then b
    else
      var r := Fold(Step(b, cs[0]), cs[1..]);
      assert Scored(r.index, r.criterion) in cs[1..] ==> Scored(r.index, r.criterion) in cs;
      r
  }

  /** `join`: take the other side only when it is strictly better. */
  function Join(mine: Best, other: Best): (r: Best)
    ensures r == mine || r == other
    ensures Below(other.criterion, mine.criterion) <==> r == other && r != mine
  {
    if Below(other.criterion, mine.criterion) then other else mine
  }

  /**
   Candidate `k` carries the smallest score, and every earlier candidate
   scored something different: the earliest of the minimal candidates.
   */
  ghost predicate EarliestMinimum(cs: seq<Scored>, k: int) {
    && 0 <= k < |cs|
    && (forall j :: 0 <= j < |cs| ==> !Below(cs[j].score, cs[k].score))
    && (forall j :: 0 <= j < k ==> cs[j].score != cs[k].score)
  }

  /**
   The scan keeps its start state when no candidate beats it, and otherwise
   ends on the earliest candidate with the smallest score.
   */
  lemma {:induction false} FoldIsEarliestMinimum(b: Best, cs: seq<Scored>)
    ensures (forall j :: 0 <= j < |cs| ==> !Below(cs[j].score, b.criterion)) ==> Fold(b, cs) == b
    ensures (exists j :: 0 <= j < |cs| && Below(cs[j].score, b.criterion)) ==>
              exists k :: EarliestMinimum(cs, k) && Below(cs[k].score, b.criterion)
                        && Fold(b, cs) == Best(cs[k].score, cs[k].index)
    decreases |cs|
  {
    if |cs| > 0 {
      var c := cs[0];
      var b' := Step(b, c);
      FoldIsEarliestMinimum(b', cs[1..]);
      var r := Fold(b', cs[1..]);
      if Below(c.score, b.criterion) {
        if forall j :: 0 <= j < |cs[1..]| ==> !Below(cs[1..][j].score, c.score) {
          assert EarliestMinimum(cs, 0) by {
            forall j | 0 <= j < |cs| ensures !Below(cs[j].score, cs[0].score) {
              if j > 0 { assert cs[j] == cs[1..][j - 1]; }
            }
          }
        } else {
          var k' :| EarliestMinimum(cs[1..], k') && Below(cs[1..][k'].score, b'.criterion)
                    && r == Best(cs[1..][k'].score, cs[1..][k'].index);
          assert EarliestMinimum(cs, k' + 1) by {
            forall j | 0 <= j < |cs| ensures !Below(cs[j].score, cs[k' + 1].score) {
              if j > 0 { assert cs[j] == cs[1..][j - 1]; }
            }
            forall j | 0 <= j < k' + 1 ensures cs[j].score != cs[k' + 1].score {
              if j > 0 { assert cs[j] == cs[1..][j - 1]; }
            }
          }
        }
      } else {
        assert b' == b;
        if exists j :: 0 <= j < |cs| && Below(cs[j].score, b.criterion) {
          var j0 :| 0 <= j0 < |cs| && Below(cs[j0].score, b.criterion);
          assert j0 > 0 && cs[1..][j0 - 1] == cs[j0];
          var k' :| EarliestMinimum(cs[1..], k') && Below(cs[1..][k'].score, b'.criterion)
                    && r == Best(cs[1..][k'].score, cs[1..][k'].index);
          assert EarliestMinimum(cs, k' + 1) by {
            forall j | 0 <= j < |cs| ensures !Below(cs[j].score, cs[k' + 1].score) {
              if j > 0 { assert cs[j] == cs[1..][j - 1]; }
            }
            forall j | 0 <= j < k' + 1 ensures cs[j].score != cs[k' + 1].score {
              if j > 0 { assert cs[j] == cs[1..][j - 1]; }
            }
          }
        } else {
          forall j | 0 <= j < |cs[1..]| ensures !Below(cs[1..][j].score, b'.criterion) {
            assert cs[1..][j] == cs[j + 1];
          }
        }
      }
    }
  }

  /** `cs` lists each candidate of `cands`, in order, with its score. */
  ghost predicate ScoredAs(cs: seq<Scored>, cands: seq<nat>, score: nat -> Crit) {
    |cs| == |cands| && forall i :: 0 <= i < |cs| ==> cs[i] == Scored(cands[i], score(cands[i]))
  }

  /** When the scan ends on candidate `k`, that candidate scores no worse than any other. */
  lemma ScanFound(cands: seq<nat>, score: nat -> Crit, cs: seq<Scored>, b: Best)
    requires ScoredAs(cs, cands, score)
    requires exists k :: EarliestMinimum(cs, k) && b == Best(cs[k].score, cs[k].index)
    ensures b.index in cands && b.criterion == score(b.index)
    ensures forall j :: j in cands ==> !Below(score(j), b.criterion)
  {
    var k :| EarliestMinimum(cs, k) && b == Best(cs[k].score, cs[k].index);
    forall j | j in cands
      ensures !Below(score(j), b.criterion)
    {
      var i :| 0 <= i < |cands| && cands[i] == j;
      assert cs[i].score == score(j);
    }
  }

  /** When the candidates are increasing, every candidate smaller than the one the scan ends on scores differently. */
  lemma ScanFoundEarliest(cands: seq<nat>, score: nat -> Crit, cs: seq<Scored>, b: Best)
    requires ScoredAs(cs, cands, score)
    requires exists k :: EarliestMinimum(cs, k) && b == Best(cs[k].score, cs[k].index)
    requires forall a, c :: 0 <= a < c < |cands| ==> cands[a] < cands[c]
    ensures forall j :: j in cands && j < b.index ==> score(j) != b.criterion
  {
    var k :| EarliestMinimum(cs, k) && b == Best(cs[k].score, cs[k].index);
    forall j | j in cands && j < b.index ensures score(j) != b.criterion {
      var i :| 0 <= i < |cands| && cands[i] == j;
      assert cs[i].score == score(j);
    }
  }

  /** When no candidate beats the start criterion `s`, no candidate's score does. */
  lemma ScanEmpty(cands: seq<nat>, score: nat -> Crit, cs: seq<Scored>, s: Crit)
    requires ScoredAs(cs, cands, score)
    requires forall i :: 0 <= i < |cs| ==> !Below(cs[i].score, s)
    ensures forall j :: j in cands ==> !Below(score(j), s)
  {
    forall j | j in cands ensures !Below(score(j), s) {
      var i :| 0 <= i < |cands| && cands[i] == j;
      assert cs[i].score == score(j);
    }
  }

  /**
   A candidate that was skipped (its score is not a finite criterion) never
   becomes the best index, provided candidate indices are distinct and differ
   from the start state's sentinel index.
   */
  lemma SkippedNeverBest(b: Best, cs: seq<Scored>, k: nat)
    requires k < |cs| && !cs[k].score.Fin?
    requires forall i, j :: 0 <= i < j < |cs| ==> cs[i].index != cs[j].index
    requires forall j :: 0 <= j < |cs| ==> cs[j].index != b.index
    ensures Fold(b, cs).index != cs[k].index
  {
    var r := Fold(b, cs);
    if r != b {
      var j :| 0 <= j < |cs| && cs[j] == Scored(r.index, r.criterion);
      assert r.criterion.Fin?;
    }
  }

  /** Scanning a concatenation scans the second part from where the first stopped. */
  lemma {:induction false} FoldAppend(b: Best, xs: seq<Scored>, ys: seq<Scored>)
    ensures Fold(b, xs + ys) == Fold(Fold(b, xs), ys)
    decreases |xs|
  {
    if |xs| > 0 {
      assert (xs + ys)[1..] == xs[1..] + ys;
      FoldAppend(Step(b, xs[0]), xs[1..], ys);
    } else {
      assert xs + ys == ys;
    }
  }

  /**
   Scanning from a state `t` at least as good as `s` is the same as scanning
   from `s` and joining the outcome into `t`.
   */
  lemma {:induction false} FoldFrom(s: Best, t: Best, cs: seq<Scored>)
    requires !s.criterion.NaN? && !t.criterion.NaN?
    requires !Below(s.criterion, t.criterion)
    ensures Fold(t, cs) == Join(t, Fold(s, cs))
    decreases |cs|
  {
    if |cs| == 0 {
    } else {
      var c := cs[0];
      Trichotomy(s.criterion, t.criterion);
      if Below(c.score, t.criterion) {
        var u := Best(c.score, c.index);
        assert Step(t, c) == u && Step(s, c) == u;
      } else if Below(c.score, s.criterion) {
        var u := Best(c.score, c.index);
        Trichotomy(c.score, t.criterion);
        FoldFrom(u, t, cs[1..]);
      } else {
        FoldFrom(s, t, cs[1..]);
      }
    }
  }

  /**
   Splitting the candidates anywhere, scanning both parts from the same state
   and joining the right part into the left gives the scan of the whole.
   */
  lemma JoinFold(s: Best, xs: seq<Scored>, ys: seq<Scored>)
    requires !s.criterion.NaN?
    ensures Join(Fold(s, xs), Fold(s, ys)) == Fold(s, xs + ys)
  {
    FoldAppend(s, xs, ys);
    var t := Fold(s, xs);
    FoldFrom(s, t, ys);
  }

  /**
   The splitting constructor copies the state the other body has reached, so
   a right part may start from the scan of any prefix `xs0` of the left
   part. Joining it into the finished left part still gives the scan of the
   whole.
   */
  lemma JoinFoldAfterSplit(s: Best, xs0: seq<Scored>, xs1: seq<Scored>, ys: seq<Scored>)
    requires !s.criterion.NaN?
    ensures Join(Fold(s, xs0 + xs1), Fold(Fold(s, xs0), ys)) == Fold(s, xs0 + xs1 + ys)
  {
    var t := Fold(s, xs0);
    assert !t.criterion.NaN?;
    assert Fold(s, xs0 + xs1) == Fold(t, xs1) by {
      FoldAppend(s, xs0, xs1);
    }
    assert Fold(s, xs0 + xs1 + ys) == Fold(t, xs1 + ys) by {
      assert xs0 + xs1 + ys == xs0 + (xs1 + ys);
      FoldAppend(s, xs0, xs1 + ys);
    }
    JoinFold(t, xs1, ys);
  }
}

=== FILE: scorers.dfy ===
/**
 The two candidate scorers of `LinearModelStepwiseAlgorithm`, one candidate
 at a time: `UpdateForwardFunctor` scores adding a column of `Xmax`,
 `UpdateBackwardFunctor` scores removing a column of the current design.
 Both avoid a refit; the `...IsRefit` lemmas show that, when `A` is the true
 Gram inverse, the residual each one computes is the least-squares residual
 of the enlarged or reduced design: `y` minus a combination of that design's
 columns, orthogonal to every one of them.
 */
module Scorers {
  import opened LinAlg
  import opened Criteria
  import opened Likelihood
  import opened Outcomes

  // ---------------------------------------------------------------------
  // Forward: v = x - M (Xᵀ x), alpha = x·R / x·v, R' = R - alpha v
  // ---------------------------------------------------------------------

  /** `v`: the candidate column minus its projection `M (Xᵀ x)` on the current design. */
  function ForwardDirection(X: seq<Vec>, M: seq<Vec>, x: Vec): (v: Vec)
    requires Columns(X, |x|) && Columns(M, |x|) && |M| == |X|
    ensures |v| == |x|
  {
    Sub(x, MatVec(M, TMul(X, x), |x|))
  }

  /**
   The new residual after adding column `x`, or `None` when `x·v` is zero and
   the candidate is skipped. The new residual is orthogonal to `x`.
   */
  function ForwardUpdate(X: seq<Vec>, M: seq<Vec>, R: Vec, x: Vec): (r: Option<Vec>)
    requires Columns(X, |x|) && Columns(M, |x|) && |M| == |X| && |R| == |x|
    ensures r.None? <==> Dot(x, ForwardDirection(X, M, x)) == 0.0
    ensures r.Some? ==> |r.value| == |x| && Dot(x, r.value) == 0.0
  {
    var v := ForwardDirection(X, M, x);
    var denominator := Dot(x, v);
    if denominator == 0.0 then None
    else
      var alpha := Dot(x, R) / denominator;
      var newResidual := Sub(R, Scale(alpha, v));
      DotSub(x, R, Scale(alpha, v));
      DotScale(x, alpha, v);
      Some(newResidual)
  }

  /** The criterion of one forward candidate: `Inf` when skipped, else the squared norm. */
  function ForwardScore(X: seq<Vec>, M: seq<Vec>, R: Vec, x: Vec): (s: Crit)
    requires Columns(X, |x|) && Columns(M, |x|) && |M| == |X| && |R| == |x|
    ensures s.Inf? <==> Dot(x, ForwardDirection(X, M, x)) == 0.0
    ensures s.Fin? ==> s.value >= 0.0
    ensures !s.NaN?
  {
    match ForwardUpdate(X, M, R, x)
    case None => Inf
    case Some(newResidual) => Fin(NormSq(newResidual))
  }

  /**
   Rewriting `(y - X beta) - alpha (x - X g)` as `y` minus a combination of
   the columns of `X + [x]`.
   */
  lemma UpdateAsCombination(X: seq<Vec>, y: Vec, x: Vec, beta: Vec, g: Vec, alpha: real)
    requires Columns(X, |y|) && |x| == |y| && |beta| == |g| == |X|
    ensures Columns(X + [x], |y|)
    ensures Sub(Sub(y, MatVec(X, beta, |y|)), Scale(alpha, Sub(x, MatVec(X, g, |y|))))
         == Sub(y, MatVec(X + [x], Sub(beta, Scale(alpha, g)) + [alpha], |y|))
  {
    var n := |y|;
    var c0 := Sub(beta, Scale(alpha, g));
    var xb, xg := MatVec(X, beta, n), MatVec(X, g, n);
    MatVecSub(X, beta, Scale(alpha, g), n);
    MatVecScale(X, alpha, g, n);
    MatVecAppend(X, x, c0, alpha, n);
    RegroupUpdate(y, xb, xg, x, alpha);
  }

  lemma RegroupUpdate(y: Vec, xb: Vec, xg: Vec, x: Vec, alpha: real)
    requires |y| == |xb| == |xg| == |x|
    ensures Sub(Sub(y, xb), Scale(alpha, Sub(x, xg)))
         == Sub(y, Add(Sub(xb, Scale(alpha, xg)), Scale(alpha, x)))
  {
    var lhs := Sub(Sub(y, xb), Scale(alpha, Sub(x, xg)));
    var rhs := Sub(y, Add(Sub(xb, Scale(alpha, xg)), Scale(alpha, x)));
    forall r | 0 <= r < |y| ensures lhs[r] == rhs[r] {
      var a, b, c, d := y[r], xb[r], xg[r], x[r];
      assert (a - b) - alpha * (d - c) == a - ((b - alpha * c) + alpha * d);
    }
  }

  /**
   With `A = (Xᵀ X)⁻¹`, `M = X A` and `R` the current residual, the forward
   update is the refit of the design with `x` appended: `y` minus a
   combination of the columns of `X + [x]`, orthogonal to all of them.
   */
  lemma ForwardUpdateIsRefit(X: seq<Vec>, y: Vec, A: seq<Vec>, x: Vec)
    requires Columns(X, |y|) && |x| == |y| && InverseOf(A, Gram(X, |y|), |X|)
    ensures var u := ForwardUpdate(X, MatMul(X, A, |y|), Evaluate(X, y, A).residual, x);
            u.Some? ==>
              && Dot(x, u.value) == 0.0
              && (forall k :: 0 <= k < |X| ==> Dot(X[k], u.value) == 0.0)
              && Columns(X + [x], |y|)
              && exists c: Vec :: |c| == |X| + 1 && u.value == Sub(y, MatVec(X + [x], c, |y|))
  {
    var n, p := |y|, |X|;
    var M := MatMul(X, A, n);
    var e := Evaluate(X, y, A);
    var R := e.residual;
    var u := ForwardUpdate(X, M, R, x);
    if u.Some? {
      var v := ForwardDirection(X, M, x);
      var alpha := Dot(x, R) / Dot(x, v);
      assert u.value == Sub(R, Scale(alpha, v));
      ForwardOrthogonal(X, y, A, x, alpha);
      var g := MatVec(A, TMul(X, x), p);
      MatVecAssoc(X, A, TMul(X, x), n);
      assert v == Sub(x, MatVec(X, g, n));
      UpdateAsCombination(X, y, x, Coefficients(A, e.B), g, alpha);
      var c := Sub(Coefficients(A, e.B), Scale(alpha, g)) + [alpha];
      assert u.value == Sub(y, MatVec(X + [x], c, n));
    }
  }

  /** Both the current residual and `v` are orthogonal to the design, so any `R - alpha v` is. */
  lemma ForwardOrthogonal(X: seq<Vec>, y: Vec, A: seq<Vec>, x: Vec, alpha: real)
    requires Columns(X, |y|) && |x| == |y| && InverseOf(A, Gram(X, |y|), |X|)
    ensures var R := Evaluate(X, y, A).residual;
            var v := ForwardDirection(X, MatMul(X, A, |y|), x);
            forall k :: 0 <= k < |X| ==> Dot(X[k], Sub(R, Scale(alpha, v))) == 0.0
  {
    var R := Evaluate(X, y, A).residual;
    var v := ForwardDirection(X, MatMul(X, A, |y|), x);
    // v is the residual of regressing x on the current design
    assert v == Evaluate(X, x, A).residual;
    ResidualOrthogonal(X, y, A);
    ResidualOrthogonal(X, x, A);
    forall k | 0 <= k < |X| ensures Dot(X[k], Sub(R, Scale(alpha, v))) == 0.0 {
      DotSub(X[k], R, Scale(alpha, v));
      DotScale(X[k], alpha, v);
    }
  }

  // ---------------------------------------------------------------------
  // Backward: e = A [B]_{i=0}, f = e - (e_i / a_ii) A[:,i], R' = y - X f
  // ---------------------------------------------------------------------

  /**
   The coefficient vector `f` that emulates the refit without local column
   `i`. Its `i`-th entry is zero, so column `i` takes no part in `X f`.
   */
  function BackwardCorrection(A: seq<Vec>, B: Vec, i: nat): (f: Vec)
    requires Square(A, |B|) && i < |B| && A[i][i] != 0.0
    ensures |f| == |B| && f[i] == 0.0
  {
    var e := MatVec(A, B[i := 0.0], |B|);
    Sub(e, Scale(e[i] / A[i][i], A[i]))
  }

  /** `y - X f`, the residual after removing local column `i`. */
  function BackwardResidual(X: seq<Vec>, y: Vec, A: seq<Vec>, B: Vec, i: nat): (r: Vec)
    requires Columns(X, |y|) && |B| == |X| && Square(A, |X|) && i < |X| && A[i][i] != 0.0
    ensures |r| == |y|
  {
    Sub(y, MatVec(X, BackwardCorrection(A, B, i), |y|))
  }

  /**
   The criterion of removing local column `i`. The source divides by `A(i,i)`
   without checking it: a zero there makes every component of the new
   residual a NaN, so the criterion is NaN unless the sample is empty.
   */
  function BackwardScore(X: seq<Vec>, y: Vec, A: seq<Vec>, B: Vec, i: nat): (s: Crit)
    requires Columns(X, |y|) && |B| == |X| && Square(A, |X|) && i < |X|
    ensures A[i][i] != 0.0 || |y| == 0 <==> s.Fin?
    ensures s.Fin? ==> s.value >= 0.0
    ensures !s.Inf?
  {
    if A[i][i] == 0.0 then (if |y| == 0 then Fin(0.0) else NaN)
    else Fin(NormSq(BackwardResidual(X, y, A, B, i)))
  }

  /** The backward residual is the same whatever column `i` of `X` holds. */
  lemma DroppedColumnIgnored(X: seq<Vec>, y: Vec, A: seq<Vec>, B: Vec, i: nat, z: Vec)
    requires Columns(X, |y|) && |B| == |X| && Square(A, |X|) && i < |X| && A[i][i] != 0.0
    requires |z| == |y|
    ensures BackwardResidual(X[i := z], y, A, B, i) == BackwardResidual(X, y, A, B, i)
  {
    var f := BackwardCorrection(A, B, i);
    MatVecDropZero(X, f, |y|, i);
    MatVecDropZero(X[i := z], f, |y|, i);
    assert RemoveAt(X[i := z], i) == RemoveAt(X, i);
  }

  /**
   With `A = (Xᵀ X)⁻¹` and `B = Xᵀ y`, the backward residual is the refit of
   the design without column `i`: `y` minus a combination of the other
   columns, orthogonal to each of them.
   */
  lemma BackwardResidualIsRefit(X: seq<Vec>, y: Vec, A: seq<Vec>, i: nat)
    requires Columns(X, |y|) && i < |X| && InverseOf(A, Gram(X, |y|), |X|) && A[i][i] != 0.0
    ensures var B := TMul(X, y);
            var r := BackwardResidual(X, y, A, B, i);
            && r == Sub(y, MatVec(RemoveAt(X, i), RemoveAt(BackwardCorrection(A, B, i), i), |y|))
            && forall k :: 0 <= k < |X| && k != i ==> Dot(X[k], r) == 0.0
  {
    MatVecDropZero(X, BackwardCorrection(A, TMul(X, y), i), |y|, i);
    BackwardResidualOrthogonal(X, y, A, i);
  }

  lemma BackwardResidualOrthogonal(X: seq<Vec>, y: Vec, A: seq<Vec>, i: nat)
    requires Columns(X, |y|) && i < |X| && InverseOf(A, Gram(X, |y|), |X|) && A[i][i] != 0.0
    ensures forall k :: 0 <= k < |X| && k != i ==> Dot(X[k], BackwardResidual(X, y, A, TMul(X, y), i)) == 0.0
  {
    var B := TMul(X, y);
    var r := BackwardResidual(X, y, A, B, i);
    var B0 := B[i := 0.0];
    var t := MatVec(A, B0, |X|)[i] / A[i][i];
    BackwardNormalEquations(X, y, A, i, B0, t);
    var T := TMul(X, r);
    forall k | 0 <= k < |X| && k != i ensures Dot(X[k], r) == 0.0 {
      assert T[k] == B[k] - (B0[k] - t * 0.0);
    }
  }

  /** `Xᵀ` applied to the backward residual: `B` minus `B` with entry `i` replaced by `t`. */
  lemma BackwardNormalEquations(X: seq<Vec>, y: Vec, A: seq<Vec>, i: nat, B0: Vec, t: real)
    requires Columns(X, |y|) && i < |X| && InverseOf(A, Gram(X, |y|), |X|) && A[i][i] != 0.0
    requires B0 == TMul(X, y)[i := 0.0] && t == MatVec(A, B0, |X|)[i] / A[i][i]
    ensures TMul(X, BackwardResidual(X, y, A, TMul(X, y), i)) == Sub(TMul(X, y), Sub(B0, Scale(t, Unit(|X|, i))))
  {
    var n, p := |y|, |X|;
    var B := TMul(X, y);
    var f := BackwardCorrection(A, B, i);
    var G := Gram(X, n);
    var e := MatVec(A, B0, p);
    assert f == Sub(e, Scale(t, A[i]));
    TMulSub(X, y, MatVec(X, f, n));
    TMulMatVec(X, f, n);
    MatVecSub(G, e, Scale(t, A[i]), p);
    MatVecScale(G, t, A[i], p);
    MatVecAssoc(G, A, B0, p);
    MatVecIdentity(B0);
    assert MatVec(G, A[i], p) == MatMul(G, A, p)[i] == Unit(p, i);
  }
}

=== FILE: stepwise.dfy ===
/**
 `LinearModelStepwiseAlgorithm`: the greedy search over subsets of the
 columns of `Xmax` (the basis functions evaluated on the input sample).

 Each iteration evaluates the current design, scores every admissible
 forward candidate (a column not in the design) and every admissible
 backward candidate (a design column not in the minimal set), and then
 stops, adds the best forward candidate or removes the best backward one.
 The Gram inverse of each design comes from a solver passed in as `gram`,
 and `std::log` is the parameter `ln`.
 */
module Stepwise {
  import opened LinAlg
  import opened Criteria
  import opened Scan
  import opened Likelihood
  import opened Scorers
  import opened Bookkeeping
  import opened MetaModelTerms
  import opened Outcomes

  /** The search direction: `BACKWARD = -1`, `BOTH = 0`, `FORWARD = 1`. */
  datatype Direction = Backward | Both | Forward

  /** What the result of a run holds (its diagnostics are not modelled). */
  datatype Fit = Fit(
    indices: seq<nat>,      // the chosen columns of Xmax, in design order
    terms: seq<nat>,        // the basis function each coefficient multiplies
    design: seq<Vec>,       // the final design
    coefficients: Vec,      // `regression`
    residual: Vec,
    criterion: Crit,        // penalty * p + n log(rss / n)
    gramDiagonal: Vec)      // the diagonal of the final Gram inverse

  /**
   The algorithm object. `xmax` is the basis evaluated on the input sample
   (one column per basis function, `inputSize` rows) and `y` the output
   sample's single column; `result` is `Some` once the object has run.
   */
  datatype Algorithm = Algorithm(
    outputDimension: nat,
    inputSize: nat,
    xmax: seq<Vec>,
    y: Vec,
    direction: Direction,
    penalty: real,
    maxIter: nat,
    minimal: seq<nat>,
    start: seq<nat>,
    result: Option<Fit>)

  /** `setMinimalIndices`: the indices are stored as given, and nothing else changes. */
  function SetMinimalIndices(alg: Algorithm, minimal: seq<nat>): (r: Algorithm)
    ensures r.minimal == minimal && r.(minimal := alg.minimal) == alg
  {
    alg.(minimal := minimal)
  }

  /** `setStartIndices`: the indices are stored as given, and nothing else changes. */
  function SetStartIndices(alg: Algorithm, start: seq<nat>): (r: Algorithm)
    ensures r.start == start && r.(start := alg.start) == alg
  {
    alg.(start := start)
  }

  /** One change of the index set made by an iteration. */
  datatype Move = Stop | Add(column: nat) | Remove(column: nat)

  /** Indices that name distinct columns of `Xmax`. */
  predicate ValidIndices(s: seq<nat>, P: nat) {
    Distinct(s) && forall k :: 0 <= k < |s| ==> s[k] < P
  }

  /** The solver returns the inverse of the Gram matrix of any `n`-row design, or fails. */
  ghost predicate GramSolver(gram: seq<Vec> -> Option<seq<Vec>>, n: nat) {
    forall X: seq<Vec> {:trigger SolvesAt(gram, X, n)} :: SolvesAt(gram, X, n)
  }

  /** The solver's promise for the one design `X`. */
  ghost predicate SolvesAt(gram: seq<Vec> -> Option<seq<Vec>>, X: seq<Vec>, n: nat) {
    Columns(X, n) && gram(X).Some? ==> InverseOf(gram(X).value, Gram(X, n), |X|)
  }

  /** The evaluated design, its column data and the matching Gram inverse. */
  ghost predicate Ready(d: Design, xmax: seq<Vec>, y: Vec, A: seq<Vec>) {
    Consistent(d, xmax) && Columns(xmax, |y|) && Square(A, |d.columns|)
  }

  // ---------------------------------------------------------------------
  // Scoring the candidates of one iteration
  // ---------------------------------------------------------------------

  /** The residual sum of squares after adding column `j` (`Inf` when it is skipped). */
  function ForwardScoreOf(d: Design, xmax: seq<Vec>, y: Vec, A: seq<Vec>, j: nat): Crit
    requires Ready(d, xmax, y, A) && j < |xmax|
  {
    var n := |y|;
    ForwardScore(d.columns, MatMul(d.columns, A, n), Evaluate(d.columns, y, A).residual, xmax[j])
  }

  /** The residual sum of squares after removing the design's column `j` of `Xmax`. */
  function BackwardScoreOf(d: Design, xmax: seq<Vec>, y: Vec, A: seq<Vec>, j: nat): Crit
    requires Ready(d, xmax, y, A) && j in d.indices
  {
    BackwardScore(d.columns, y, A, Evaluate(d.columns, y, A).B, d.colMap[j])
  }

  function ForwardScored(d: Design, xmax: seq<Vec>, y: Vec, A: seq<Vec>): (cs: seq<Scored>)
    requires Ready(d, xmax, y, A)
    ensures var cands := ForwardCandidates(d.indices, |xmax|);
            |cs| == |cands| &&
            forall k :: 0 <= k < |cs| ==> cs[k] == Scored(cands[k], ForwardScoreOf(d, xmax, y, A, cands[k]))
  {
    var cands := ForwardCandidates(d.indices, |xmax|);
    seq(|cands|, k requires 0 <= k < |cands| => Scored(cands[k], ForwardScoreOf(d, xmax, y, A, cands[k])))
  }

  function BackwardScored(d: Design, xmax: seq<Vec>, y: Vec, A: seq<Vec>, minimal: seq<nat>): (cs: seq<Scored>)
    requires Ready(d, xmax, y, A)
    ensures var cands := BackwardCandidates(d.indices, minimal);
            |cs| == |cands| &&
            forall k :: 0 <= k < |cs| ==> cs[k] == Scored(cands[k], BackwardScoreOf(d, xmax, y, A, cands[k]))
  {
    var cands := BackwardCandidates(d.indices, minimal);
    seq(|cands|, k requires 0 <= k < |cands| => Scored(cands[k], BackwardScoreOf(d, xmax, y, A, cands[k])))
  }

  /**
   The forward scan: either every candidate was skipped and the scan keeps
   its start `(Inf, P)`, or it ends on a candidate with the smallest
   residual sum of squares, the smallest such column index on a tie.
   */
  function ForwardScan(d: Design, xmax: seq<Vec>, y: Vec, A: seq<Vec>): (b: Best)
    requires Ready(d, xmax, y, A)
    ensures b.criterion.Inf? || b.criterion.Fin?
    ensures b.criterion.Inf? ==> b.index == |xmax|
    ensures b.criterion.Inf? ==> forall j: nat :: j < |xmax| && j !in d.indices ==> ForwardScoreOf(d, xmax, y, A, j).Inf?
    ensures b.criterion.Fin? ==>
              && b.index < |xmax| && b.index !in d.indices
              && b.criterion == ForwardScoreOf(d, xmax, y, A, b.index)
              && (forall j: nat :: j < |xmax| && j !in d.indices ==> !Below(ForwardScoreOf(d, xmax, y, A, j), b.criterion))
  {
    var cs := ForwardScored(d, xmax, y, A);
    var b := Fold(Best(Inf, |xmax|), cs);
    ForwardScanOutcome(d, xmax, y, A, cs, b);
    b
  }

  lemma ForwardScanOutcome(d: Design, xmax: seq<Vec>, y: Vec, A: seq<Vec>, cs: seq<Scored>, b: Best)
    requires Ready(d, xmax, y, A) && cs == ForwardScored(d, xmax, y, A) && b == Fold(Best(Inf, |xmax|), cs)
    ensures b.criterion.Inf? || b.criterion.Fin?
    ensures b.criterion.Inf? ==> b.index == |xmax|
    ensures b.criterion.Inf? ==> forall j: nat :: j < |xmax| && j !in d.indices ==> ForwardScoreOf(d, xmax, y, A, j).Inf?
    ensures b.criterion.Fin? ==>
              && b.index < |xmax| && b.index !in d.indices
              && b.criterion == ForwardScoreOf(d, xmax, y, A, b.index)
              && (forall j: nat :: j < |xmax| && j !in d.indices ==> !Below(ForwardScoreOf(d, xmax, y, A, j), b.criterion))
  {
    var cands := ForwardCandidates(d.indices, |xmax|);
    var score := (j: nat) => if j < |xmax| then ForwardScoreOf(d, xmax, y, A, j) else Inf;
    assert ScoredAs(cs, cands, score);
    FoldIsEarliestMinimum(Best(Inf, |xmax|), cs);
    if b.criterion.Fin? {
      ScanFound(cands, score, cs, b);
      ForwardScoresCovered(d, xmax, y, A, cands, score, b.criterion);
    } else {
      ScanEmpty(cands, score, cs, Inf);
      ForwardScoresCovered(d, xmax, y, A, cands, score, Inf);
    }
  }

  /** What holds of `score` on the forward candidates holds of every absent column's score. */
  lemma ForwardScoresCovered(d: Design, xmax: seq<Vec>, y: Vec, A: seq<Vec>, cands: seq<nat>,
                             score: nat -> Crit, c: Crit)
    requires Ready(d, xmax, y, A) && cands == ForwardCandidates(d.indices, |xmax|)
    requires forall j: nat :: j < |xmax| ==> score(j) == ForwardScoreOf(d, xmax, y, A, j)
    requires forall j :: j in cands ==> !Below(score(j), c)
    ensures forall j: nat :: j < |xmax| && j !in d.indices ==> !Below(ForwardScoreOf(d, xmax, y, A, j), c)
  {
    forall j: nat | j < |xmax| && j !in d.indices ensures !Below(ForwardScoreOf(d, xmax, y, A, j), c) {
      assert j in cands && score(j) == ForwardScoreOf(d, xmax, y, A, j);
    }
  }

  /** On a tie the forward scan keeps the smallest column index: no smaller candidate scores the same. */
  lemma ForwardScanTie(d: Design, xmax: seq<Vec>, y: Vec, A: seq<Vec>)
    requires Ready(d, xmax, y, A)
    ensures var b := ForwardScan(d, xmax, y, A);
            b.criterion.Fin? ==> forall j: nat :: j < b.index && j !in d.indices ==> ForwardScoreOf(d, xmax, y, A, j) != b.criterion
  {
    var cands := ForwardCandidates(d.indices, |xmax|);
    var cs := ForwardScored(d, xmax, y, A);
    var score := (j: nat) => if j < |xmax| then ForwardScoreOf(d, xmax, y, A, j) else Inf;
    assert ScoredAs(cs, cands, score);
    var b := Fold(Best(Inf, |xmax|), cs);
    FoldIsEarliestMinimum(Best(Inf, |xmax|), cs);
    if b.criterion.Fin? {
      ScanFoundEarliest(cands, score, cs, b);
      ForwardTiesCovered(d, xmax, y, A, cands, score, b);
    }
  }

  lemma ForwardTiesCovered(d: Design, xmax: seq<Vec>, y: Vec, A: seq<Vec>, cands: seq<nat>,
                           score: nat -> Crit, b: Best)
    requires Ready(d, xmax, y, A) && cands == ForwardCandidates(d.indices, |xmax|) && b.index < |xmax|
    requires forall j: nat :: j < |xmax| ==> score(j) == ForwardScoreOf(d, xmax, y, A, j)
    requires forall j :: j in cands && j < b.index ==> score(j) != b.criterion
    ensures forall j: nat :: j < b.index && j !in d.indices ==> ForwardScoreOf(d, xmax, y, A, j) != b.criterion
  {
    forall j: nat | j < b.index && j !in d.indices ensures ForwardScoreOf(d, xmax, y, A, j) != b.criterion {
      assert j in cands && score(j) == ForwardScoreOf(d, xmax, y, A, j);
    }
  }

  /**
   The backward scan: either no candidate has a finite criterion and the
   scan keeps its start `(Inf, p)`, or it ends on a non-minimal design column
   whose removal leaves the smallest residual sum of squares.
   */
  function BackwardScan(d: Design, xmax: seq<Vec>, y: Vec, A: seq<Vec>, minimal: seq<nat>): (b: Best)
    requires Ready(d, xmax, y, A)
    ensures b.criterion.Inf? || b.criterion.Fin?
    ensures b.criterion.Inf? ==> b.index == |d.columns|
    ensures b.criterion.Inf? ==>
              forall j :: j in d.indices && j !in minimal ==> !BackwardScoreOf(d, xmax, y, A, j).Fin?
    ensures b.criterion.Fin? ==>
              && b.index in d.indices && b.index !in minimal
              && b.criterion == BackwardScoreOf(d, xmax, y, A, b.index)
              && forall j :: j in d.indices && j !in minimal ==> !Below(BackwardScoreOf(d, xmax, y, A, j), b.criterion)
  {
    var cands := BackwardCandidates(d.indices, minimal);
    var cs := BackwardScored(d, xmax, y, A, minimal);
    var score := (j: nat) => if j in d.indices then BackwardScoreOf(d, xmax, y, A, j) else Inf;
    assert ScoredAs(cs, cands, score);
    var b := Fold(Best(Inf, |d.columns|), cs);
    FoldIsEarliestMinimum(Best(Inf, |d.columns|), cs);
    if b.criterion.Fin? then
      ScanFound(cands, score, cs, b);
      b
    else
      ScanEmpty(cands, score, cs, Inf);
      b
  }

  /** `Lstar`: the penalized criterion of the current design. */
  function CurrentCriterion(alg: Algorithm, d: Design, A: seq<Vec>, ln: real -> real): (c: Crit)
    requires Ready(d, alg.xmax, alg.y, A)
    ensures |alg.y| > 0 <==> c.Fin?
  {
    Penalized(alg.penalty, |d.columns|, Fin(Evaluate(d.columns, alg.y, A).rss), |alg.y|, ln)
  }

  /** `LF`: the penalized criterion of adding column `j`. */
  function ForwardCriterion(alg: Algorithm, d: Design, A: seq<Vec>, ln: real -> real, j: nat): Crit
    requires Ready(d, alg.xmax, alg.y, A) && j < |alg.xmax|
  {
    Penalized(alg.penalty, |d.columns| + 1, ForwardScoreOf(d, alg.xmax, alg.y, A, j), |alg.y|, ln)
  }

  /** `LB`: the penalized criterion of removing column `j`; `p - 1` wraps around at `p = 0`. */
  function BackwardCriterion(alg: Algorithm, d: Design, A: seq<Vec>, ln: real -> real, j: nat): Crit
    requires Ready(d, alg.xmax, alg.y, A) && j in d.indices
  {
    Penalized(alg.penalty, UnsignedPred(|d.columns|), BackwardScoreOf(d, alg.xmax, alg.y, A, j), |alg.y|, ln)
  }

  /**
   One iteration's decision. A move is only ever an admissible one for the
   direction, it names a best-scoring candidate, and its criterion is
   strictly below the current one. An empty sample always stops.
   */
  function ChooseMove(alg: Algorithm, d: Design, A: seq<Vec>, ln: real -> real): (m: Move)
    requires Ready(d, alg.xmax, alg.y, A)
    ensures |alg.y| == 0 ==> m.Stop?
    ensures m.Add? ==>
              && alg.direction != Backward
              && m.column < |alg.xmax| && m.column !in d.indices
              && Below(ForwardCriterion(alg, d, A, ln, m.column), CurrentCriterion(alg, d, A, ln))
    ensures m.Remove? ==>
              && alg.direction != Forward
              && m.column in d.indices && m.column !in alg.minimal
              && Below(BackwardCriterion(alg, d, A, ln, m.column), CurrentCriterion(alg, d, A, ln))
  {
    var f := ForwardPick(alg, d, A, ln);
    var b := BackwardPick(alg, d, A, ln);
    match Decide(f.criterion, b.criterion, CurrentCriterion(alg, d, A, ln))
    case Halt => Stop
    case TakeForward => Add(f.best.index)
    case TakeBackward => Remove(b.best.index)
  }

  /** The outcome of one scan and its penalized criterion (`LF` or `LB`). */
  datatype Pick = Pick(best: Best, criterion: Crit)

  /** The forward functor's pair and `LF`, or `(Inf, P)` and `Inf` when the direction is BACKWARD. */
  function ForwardPick(alg: Algorithm, d: Design, A: seq<Vec>, ln: real -> real): (f: Pick)
    requires Ready(d, alg.xmax, alg.y, A)
    ensures |alg.y| > 0 ==> !f.criterion.NaN?
    ensures f.criterion.Fin? ==>
              && alg.direction != Backward
              && f.best.index < |alg.xmax| && f.best.index !in d.indices
              && f.criterion == ForwardCriterion(alg, d, A, ln, f.best.index)
  {
    if alg.direction != Backward then
      var best := ForwardScan(d, alg.xmax, alg.y, A);
      Pick(best, Penalized(alg.penalty, |d.columns| + 1, best.criterion, |alg.y|, ln))
    else Pick(Best(Inf, |alg.xmax|), Inf)
  }

  /** The backward functor's pair and `LB`, or `(Inf, P)` and `Inf` when the direction is FORWARD. */
  function BackwardPick(alg: Algorithm, d: Design, A: seq<Vec>, ln: real -> real): (b: Pick)
    requires Ready(d, alg.xmax, alg.y, A)
    ensures |alg.y| > 0 ==> !b.criterion.NaN?
    ensures b.criterion.Fin? ==>
              && alg.direction != Forward
              && b.best.index in d.indices && b.best.index !in alg.minimal
              && b.criterion == BackwardCriterion(alg, d, A, ln, b.best.index)
  {
    if alg.direction != Forward then
      var best := BackwardScan(d, alg.xmax, alg.y, A, alg.minimal);
      Pick(best, Penalized(alg.penalty, UnsignedPred(|d.columns|), best.criterion, |alg.y|, ln))
    else Pick(Best(Inf, |alg.xmax|), Inf)
  }

  // ---------------------------------------------------------------------
  // The scan sentinel as the code writes it
  // ---------------------------------------------------------------------

  /**
   `LF` as written: the forward functor's pair with a finite sentinel, so a
   scan without candidates still gives the finite `LF` of index `P`; in the
   BACKWARD direction `LF` keeps its initial `MaxNumericalScalar`.
   */
  function ForwardPickAsWritten(alg: Algorithm, d: Design, A: seq<Vec>, ln: real -> real): (f: Pick)
    requires Ready(d, alg.xmax, alg.y, A)
    ensures f.best == ForwardPick(alg, d, A, ln).best
    ensures ForwardPick(alg, d, A, ln).criterion.Fin? ==> f == ForwardPick(alg, d, A, ln)
    ensures alg.direction != Backward ==>
              f.criterion == PenalizedAsWritten(alg.penalty, |d.columns| + 1, f.best.criterion, |alg.y|, ln)
    ensures alg.direction == Backward ==> f.criterion == Fin(MaxNumericalScalar)
  {
    if alg.direction != Backward then
      var best := ForwardScan(d, alg.xmax, alg.y, A);
      Pick(best, PenalizedAsWritten(alg.penalty, |d.columns| + 1, best.criterion, |alg.y|, ln))
    else Pick(Best(Inf, |alg.xmax|), Fin(MaxNumericalScalar))
  }

  /**
   `LB` as written: the backward functor starts from `(MaxNumericalScalar, p)`,
   so a scan without candidates gives the finite `LB` of index `p`, the
   design's column count, whatever column of `Xmax` that is; in the FORWARD
   direction `LB` keeps its initial `MaxNumericalScalar`.
   */
  function BackwardPickAsWritten(alg: Algorithm, d: Design, A: seq<Vec>, ln: real -> real): (b: Pick)
    requires Ready(d, alg.xmax, alg.y, A)
    ensures b.best == BackwardPick(alg, d, A, ln).best
    ensures BackwardPick(alg, d, A, ln).criterion.Fin? ==> b == BackwardPick(alg, d, A, ln)
    ensures alg.direction != Forward ==>
              b.criterion == PenalizedAsWritten(alg.penalty, UnsignedPred(|d.columns|), b.best.criterion, |alg.y|, ln)
    ensures alg.direction == Forward ==> b.criterion == Fin(MaxNumericalScalar)
  {
    if alg.direction != Forward then
      var best := BackwardScan(d, alg.xmax, alg.y, A, alg.minimal);
      Pick(best, PenalizedAsWritten(alg.penalty, UnsignedPred(|d.columns|), best.criterion, |alg.y|, ln))
    else Pick(Best(Inf, |alg.xmax|), Fin(MaxNumericalScalar))
  }

  /**
   One iteration's decision as the code makes it, with the finite sentinels.
   It is the model's decision whenever neither sentinel takes part.
   */
  function ChooseMoveAsWritten(alg: Algorithm, d: Design, A: seq<Vec>, ln: real -> real): (m: Move)
    requires Ready(d, alg.xmax, alg.y, A)
    ensures ForwardPick(alg, d, A, ln).criterion.Fin? && BackwardPick(alg, d, A, ln).criterion.Fin? ==>
              m == ChooseMove(alg, d, A, ln)
  {
    var f := ForwardPickAsWritten(alg, d, A, ln);
    var b := BackwardPickAsWritten(alg, d, A, ln);
    match Decide(f.criterion, b.criterion, CurrentCriterion(alg, d, A, ln))
    case Halt => Stop
    case TakeForward => Add(f.best.index)
    case TakeBackward => Remove(b.best.index)
  }

  /**
   A BACKWARD run with start and minimal indices `[1]`, `Xmax` columns
   `(1, 0)`, `(0, 1)`, `(1, 1)`, `y = (1, 1)` and penalty `2000`. The only
   design column is minimal, so there is no backward candidate. The code's
   `LB = 2 log(MaxNumericalScalar / 2)`, about 1418, beats
   `Lstar = 2000 + 2 log(1/2)`, about 1998.6, and the code removes index
   `p = 1`, the minimal column. The model stops. The hypotheses on `ln` hold
   for `std::log`.
   */
  lemma SentinelRemovesMinimalAsWritten(ln: real -> real)
    requires ln(MaxNumericalScalar / 2.0) < 710.0 && ln(0.5) > -1.0
    ensures var alg := Algorithm(1, 2, [[1.0, 0.0], [0.0, 1.0], [1.0, 1.0]], [1.0, 1.0], Backward, 2000.0, 1000, [1], [1], None);
            var d := StartingDesign(alg);
            && Ready(d, alg.xmax, alg.y, [[1.0]])
            && ChooseMove(alg, d, [[1.0]], ln) == Stop
            && ChooseMoveAsWritten(alg, d, [[1.0]], ln) == Remove(1)
            && 1 in alg.minimal && 1 in d.indices
  {
    var alg := Algorithm(1, 2, [[1.0, 0.0], [0.0, 1.0], [1.0, 1.0]], [1.0, 1.0], Backward, 2000.0, 1000, [1], [1], None);
    var d := StartingDesign(alg);
    var A: seq<Vec> := [[1.0]];
    assert d.indices == [1];
    assert d.columns == [[0.0, 1.0]];
    assert Ready(d, alg.xmax, alg.y, A);
    assert CurrentCriterion(alg, d, A, ln) == Fin(2000.0 + 2.0 * ln(0.5)) by {
      OneColumnFit();
    }
    var b := BackwardScan(d, alg.xmax, alg.y, A, alg.minimal);
    assert b == Best(Inf, 1);
    assert BackwardPick(alg, d, A, ln).criterion == Inf;
    assert BackwardPickAsWritten(alg, d, A, ln) == Pick(b, Fin(2.0 * ln(MaxNumericalScalar / 2.0)));
    assert ForwardPickAsWritten(alg, d, A, ln).criterion == Fin(MaxNumericalScalar);
  }

  /**
   A FORWARD run with minimal indices `[0]`, `Xmax` the single column
   `(1, 1)`, `y = (0, 2)` and penalty `-2000`. No column is left to add, yet
   the code's `LF = -4000 + 2 log(MaxNumericalScalar / 2)`, about -2582,
   beats `Lstar = -2000`, and the code adds index `P = 1`, outside `Xmax`.
   The model stops. The hypotheses on `ln` hold for `std::log`.
   */
  lemma SentinelAddsOutsideAsWritten(ln: real -> real)
    requires ln(MaxNumericalScalar / 2.0) < 710.0 && ln(1.0) == 0.0
    ensures var alg := Algorithm(1, 2, [[1.0, 1.0]], [0.0, 2.0], Forward, -2000.0, 1000, [0], [], None);
            var d := StartingDesign(alg);
            && Ready(d, alg.xmax, alg.y, [[0.5]])
            && ChooseMove(alg, d, [[0.5]], ln) == Stop
            && ChooseMoveAsWritten(alg, d, [[0.5]], ln) == Add(|alg.xmax|)
  {
    var alg := Algorithm(1, 2, [[1.0, 1.0]], [0.0, 2.0], Forward, -2000.0, 1000, [0], [], None);
    var A: seq<Vec> := [[0.5]];
    ConstantColumnStart();
    var d := Design([0], [0], [[1.0, 1.0]]);
    assert CurrentCriterion(alg, d, A, ln) == Fin(-2000.0 + 2.0 * ln(1.0));
    var f := ForwardScan(d, alg.xmax, alg.y, A);
    assert f == Best(Inf, 1);
    assert ChooseMove(alg, d, A, ln) == Stop by {
      assert ForwardPick(alg, d, A, ln).criterion == Inf;
    }
    assert ChooseMoveAsWritten(alg, d, A, ln) == Add(1) by {
      assert ForwardPickAsWritten(alg, d, A, ln) == Pick(f, Fin(-4000.0 + 2.0 * ln(MaxNumericalScalar / 2.0)));
      assert BackwardPickAsWritten(alg, d, A, ln).criterion == Fin(MaxNumericalScalar);
    }
  }

  /** The FORWARD run above starts from its minimal column `(1, 1)`, whose fit of `y = (0, 2)` leaves the residual `(-1, 1)`. */
  lemma ConstantColumnStart()
    ensures var alg := Algorithm(1, 2, [[1.0, 1.0]], [0.0, 2.0], Forward, -2000.0, 1000, [0], [], None);
            var d := Design([0], [0], [[1.0, 1.0]]);
            && StartingDesign(alg) == d
            && Ready(d, alg.xmax, alg.y, [[0.5]])
            && Evaluate(d.columns, alg.y, [[0.5]]).rss == 2.0
  {
    var alg := Algorithm(1, 2, [[1.0, 1.0]], [0.0, 2.0], Forward, -2000.0, 1000, [0], [], None);
    var d := StartingDesign(alg);
    assert d.indices == [0];
    assert d.columns == [[1.0, 1.0]];
    assert d.colMap == [0];
    ConstantColumnFit();
  }

  /**
   A BACKWARD iteration at the empty design, with one sample point `y = 1`
   and the default penalty `-1`. With `p = 0` the code's `p - 1` wraps, so
   `LB = -(2^64 - 1) + log(MaxNumericalScalar)` beats `Lstar = log 1 = 0`,
   and the code removes index `p = 0` from a design that does not hold it.
   The model stops. The hypotheses on `ln` hold for `std::log`.
   */
  lemma SentinelRemovesFromEmptyAsWritten(ln: real -> real)
    requires ln(MaxNumericalScalar / 1.0) < 710.0 && ln(1.0) == 0.0
    ensures var alg := Algorithm(1, 1, [[1.0]], [1.0], Backward, -1.0, 1000, [], [], None);
            var d := Design([], [1], []);
            && Ready(d, alg.xmax, alg.y, [])
            && ChooseMove(alg, d, [], ln) == Stop
            && ChooseMoveAsWritten(alg, d, [], ln) == Remove(0)
            && 0 !in d.indices
  {
    var alg := Algorithm(1, 1, [[1.0]], [1.0], Backward, -1.0, 1000, [], [], None);
    var d := Design([], [1], []);
    var A: seq<Vec> := [];
    assert Ready(d, alg.xmax, alg.y, A);
    assert CurrentCriterion(alg, d, A, ln) == Fin(0.0) by {
      var e := Evaluate(d.columns, alg.y, A);
      assert MatVec(d.columns, Coefficients(A, e.B), 1) == [0.0];
      assert e.residual == [1.0];
      assert Dot([1.0][1..], [1.0][1..]) == 0.0;
    }
    var b := BackwardScan(d, alg.xmax, alg.y, A, alg.minimal);
    assert b == Best(Inf, 0);
    assert BackwardPick(alg, d, A, ln).criterion == Inf;
    assert BackwardPickAsWritten(alg, d, A, ln) == Pick(b, Fin(-1.0 * (0xFFFF_FFFF_FFFF_FFFF as real) + ln(MaxNumericalScalar / 1.0)));
    assert ForwardPickAsWritten(alg, d, A, ln).criterion == Fin(MaxNumericalScalar);
  }

  /** The least-squares fit of `y = (0, 2)` on the single column `(1, 1)` leaves the residual `(-1, 1)`. */
  lemma ConstantColumnFit()
    ensures Evaluate([[1.0, 1.0]], [0.0, 2.0], [[0.5]]).rss == 2.0
  {
    var X: seq<Vec> := [[1.0, 1.0]];
    var A: seq<Vec> := [[0.5]];
    var e := Evaluate(X, [0.0, 2.0], A);
    assert e.B == [2.0];
    assert Coefficients(A, e.B) == [1.0] by {
      assert MatVec(A[1..], e.B[1..], 1) == Zeros(1);
    }
    assert MatVec(X, [1.0], 2) == [1.0, 1.0] by {
      assert MatVec(X[1..], [1.0][1..], 2) == Zeros(2);
    }
    assert e.residual == [-1.0, 1.0];
    assert Dot([1.0], [1.0]) == 1.0 by {
      assert Dot([1.0][1..], [1.0][1..]) == 0.0;
    }
  }

  /** The least-squares fit of `y = (1, 1)` on the single column `(0, 1)` leaves the residual `(1, 0)`. */
  lemma OneColumnFit()
    ensures Evaluate([[0.0, 1.0]], [1.0, 1.0], [[1.0]]).rss == 1.0
  {
    var X: seq<Vec> := [[0.0, 1.0]];
    var A: seq<Vec> := [[1.0]];
    var e := Evaluate(X, [1.0, 1.0], A);
    assert Dot(X[0], [1.0, 1.0]) == 1.0 by {
      assert Dot(X[0][1..], [1.0, 1.0][1..]) == 1.0 by {
        assert Dot(X[0][1..][1..], [1.0, 1.0][1..][1..]) == 0.0;
      }
    }
    assert e.B == [1.0];
    assert Coefficients(A, e.B) == [1.0] by {
      assert MatVec(A[1..], e.B[1..], 1) == Zeros(1);
    }
    assert MatVec(X, [1.0], 2) == [0.0, 1.0] by {
      assert MatVec(X[1..], [1.0][1..], 2) == Zeros(2);
    }
    assert e.residual == [1.0, 0.0];
    assert Dot([0.0], [0.0]) == 0.0 by {
      assert Dot([0.0][1..], [0.0][1..]) == 0.0;
    }
  }

  /**
   A move names a best-scoring candidate: no admissible candidate of the
   same kind leaves a smaller residual sum of squares.
   */
  lemma ChosenIsBest(alg: Algorithm, d: Design, A: seq<Vec>, ln: real -> real)
    requires Ready(d, alg.xmax, alg.y, A)
    ensures var m := ChooseMove(alg, d, A, ln);
            m.Add? ==> forall j: nat :: j < |alg.xmax| && j !in d.indices ==>
              !Below(ForwardScoreOf(d, alg.xmax, alg.y, A, j), ForwardScoreOf(d, alg.xmax, alg.y, A, m.column))
    ensures var m := ChooseMove(alg, d, A, ln);
            m.Remove? ==> forall j :: j in d.indices && j !in alg.minimal ==>
              !Below(BackwardScoreOf(d, alg.xmax, alg.y, A, j), BackwardScoreOf(d, alg.xmax, alg.y, A, m.column))
  {
    var m := ChooseMove(alg, d, A, ln);
    if m.Add? {
      assert m.column == ForwardScan(d, alg.xmax, alg.y, A).index;
    } else if m.Remove? {
      assert m.column == BackwardScan(d, alg.xmax, alg.y, A, alg.minimal).index;
    }
  }

  /**
   No single admissible move improves the current criterion: every forward
   and every backward candidate's penalized criterion is at least the
   current one (or not comparable with it).
   */
  ghost predicate LocalOptimum(alg: Algorithm, d: Design, A: seq<Vec>, ln: real -> real)
    requires Ready(d, alg.xmax, alg.y, A)
  {
    && (alg.direction != Backward ==>
          forall j: nat :: j < |alg.xmax| && j !in d.indices ==>
            !Below(ForwardCriterion(alg, d, A, ln, j), CurrentCriterion(alg, d, A, ln)))
    && (alg.direction != Forward ==>
          forall j :: j in d.indices && j !in alg.minimal ==>
            !Below(BackwardCriterion(alg, d, A, ln, j), CurrentCriterion(alg, d, A, ln)))
  }

  /** When an iteration stops, the current design is a local optimum. */
  lemma StopIsLocalOptimum(alg: Algorithm, d: Design, A: seq<Vec>, ln: real -> real)
    requires Ready(d, alg.xmax, alg.y, A) && LnMonotone(ln)
    requires ChooseMove(alg, d, A, ln).Stop?
    ensures LocalOptimum(alg, d, A, ln)
  {
    var lstar := CurrentCriterion(alg, d, A, ln);
    assert Decide(ForwardPick(alg, d, A, ln).criterion, BackwardPick(alg, d, A, ln).criterion, lstar).Halt?;
    if |alg.y| > 0 {
      if alg.direction != Backward {
        ForwardPickOptimal(alg, d, A, ln);
      }
      if alg.direction != Forward {
        BackwardPickOptimal(alg, d, A, ln);
      }
    }
  }

  /** No forward candidate's `LF` is below `Lstar` when the best one's is not. */
  lemma ForwardPickOptimal(alg: Algorithm, d: Design, A: seq<Vec>, ln: real -> real)
    requires Ready(d, alg.xmax, alg.y, A) && LnMonotone(ln) && |alg.y| > 0
    requires alg.direction != Backward
    requires !Below(ForwardPick(alg, d, A, ln).criterion, CurrentCriterion(alg, d, A, ln))
    ensures forall j: nat :: j < |alg.xmax| && j !in d.indices ==>
              !Below(ForwardCriterion(alg, d, A, ln, j), CurrentCriterion(alg, d, A, ln))
  {
    var n, p := |alg.y|, |d.columns|;
    var f := ForwardScan(d, alg.xmax, alg.y, A);
    forall j: nat | j < |alg.xmax| && j !in d.indices
      ensures !Below(ForwardCriterion(alg, d, A, ln, j), CurrentCriterion(alg, d, A, ln))
    {
      if f.criterion.Fin? {
        PenalizedMonotone(alg.penalty, p + 1, f.criterion, ForwardScoreOf(d, alg.xmax, alg.y, A, j), n, ln);
      }
    }
  }

  /** No backward candidate's `LB` is below `Lstar` when the best one's is not. */
  lemma BackwardPickOptimal(alg: Algorithm, d: Design, A: seq<Vec>, ln: real -> real)
    requires Ready(d, alg.xmax, alg.y, A) && LnMonotone(ln) && |alg.y| > 0
    requires alg.direction != Forward
    requires !Below(BackwardPick(alg, d, A, ln).criterion, CurrentCriterion(alg, d, A, ln))
    ensures forall j :: j in d.indices && j !in alg.minimal ==>
              !Below(BackwardCriterion(alg, d, A, ln, j), CurrentCriterion(alg, d, A, ln))
  {
    var n, p := |alg.y|, |d.columns|;
    var b := BackwardScan(d, alg.xmax, alg.y, A, alg.minimal);
    forall j | j in d.indices && j !in alg.minimal
      ensures !Below(BackwardCriterion(alg, d, A, ln, j), CurrentCriterion(alg, d, A, ln))
    {
      var sj := BackwardScoreOf(d, alg.xmax, alg.y, A, j);
      if b.criterion.Fin? && !sj.NaN? {
        PenalizedMonotone(alg.penalty, UnsignedPred(p), b.criterion, sj, n, ln);
      }
    }
  }

  // ---------------------------------------------------------------------
  // The index set a sequence of moves produces
  // ---------------------------------------------------------------------

  function ApplyMove(S: seq<nat>, m: Move): seq<nat> {
    match m
    case Stop => S
    case Add(j) => S + [j]
    case Remove(j) => Without(S, j)
  }

  /** The index set after the moves, in order. */
  function Apply(S: seq<nat>, moves: seq<Move>): seq<nat>
    decreases |moves|
  {
    if |moves| == 0 then S else ApplyMove(Apply(S, moves[..|moves| - 1]), moves[|moves| - 1])
  }

  /** A move the direction and the minimal set allow. */
  predicate Allowed(m: Move, direction: Direction, minimal: seq<nat>) {
    match m
    case Stop => false
    case Add(_) => direction != Backward
    case Remove(j) => direction != Forward && j !in minimal
  }

  predicate AllAllowed(moves: seq<Move>, direction: Direction, minimal: seq<nat>) {
    forall k :: 0 <= k < |moves| ==> Allowed(moves[k], direction, minimal)
  }

  /**
   An add or a remove changes a duplicate-free index set by exactly one
   column and keeps it duplicate-free.
   */
  lemma OneIndexPerMove(S: seq<nat>, m: Move)
    requires Distinct(S) && !m.Stop?
    requires m.Add? ==> m.column !in S
    requires m.Remove? ==> m.column in S
    ensures Distinct(ApplyMove(S, m))
    ensures m.Add? ==> |ApplyMove(S, m)| == |S| + 1 && forall x :: x in ApplyMove(S, m) <==> x in S || x == m.column
    ensures m.Remove? ==> |ApplyMove(S, m)| + 1 == |S| && forall x :: x in ApplyMove(S, m) <==> x in S && x != m.column
  {
    if m.Remove? {
      var pos :| 0 <= pos < |S| && S[pos] == m.column;
      WithoutAt(S, pos);
      var r := S[..pos] + S[pos + 1..];
      forall a, b | 0 <= a < b < |r| ensures r[a] != r[b] {
        var a0 := if a < pos then a else a + 1;
        var b0 := if b < pos then b else b + 1;
        assert r[a] == S[a0] && r[b] == S[b0] && a0 < b0;
      }
    }
  }

  /** Allowed moves never drop a minimal column that was present. */
  lemma {:induction false} ApplyKeepsMinimal(S: seq<nat>, moves: seq<Move>, direction: Direction, minimal: seq<nat>)
    requires AllAllowed(moves, direction, minimal)
    ensures forall x :: x in S && x in minimal ==> x in Apply(S, moves)
    decreases |moves|
  {
    if |moves| > 0 {
      ApplyKeepsMinimal(S, moves[..|moves| - 1], direction, minimal);
      assert Allowed(moves[|moves| - 1], direction, minimal);
    }
  }

  /** A forward search only ever grows the index set. */
  lemma {:induction false} ApplyForwardGrows(S: seq<nat>, moves: seq<Move>, minimal: seq<nat>)
    requires AllAllowed(moves, Forward, minimal)
    ensures forall x :: x in S ==> x in Apply(S, moves)
    ensures |Apply(S, moves)| == |S| + |moves|
    decreases |moves|
  {
    if |moves| > 0 {
      ApplyForwardGrows(S, moves[..|moves| - 1], minimal);
      assert Allowed(moves[|moves| - 1], Forward, minimal);
    }
  }

  /** A backward search only ever shrinks the index set. */
  lemma {:induction false} ApplyBackwardShrinks(S: seq<nat>, moves: seq<Move>, minimal: seq<nat>)
    requires AllAllowed(moves, Backward, minimal)
    ensures forall x :: x in Apply(S, moves) ==> x in S
    decreases |moves|
  {
    if |moves| > 0 {
      ApplyBackwardShrinks(S, moves[..|moves| - 1], minimal);
      assert Allowed(moves[|moves| - 1], Backward, minimal);
    }
  }

  // ---------------------------------------------------------------------
  // run() and getResult()
  // ---------------------------------------------------------------------

  /** Carrying out an add or a remove on the design keeps it consistent and moves its index set accordingly. */
  function MoveDesign(d: Design, xmax: seq<Vec>, m: Move): (r: Design)
    requires Consistent(d, xmax) && !m.Stop?
    requires m.Add? ==> m.column < |xmax| && m.column !in d.indices
    requires m.Remove? ==> m.column in d.indices
    ensures Consistent(r, xmax) && r.indices == ApplyMove(d.indices, m)
  {
    if m.Add? then AddColumn(d, xmax, m.column)
    else
      ConsistentIsDistinct(d, xmax);
      WithoutAt(d.indices, d.colMap[m.column]);
      RemoveColumn(d, xmax, m.column)
  }

  /** The arguments `run()` rejects with `InvalidArgumentException`. */
  predicate Rejected(alg: Algorithm) {
    || alg.outputDimension != 1
    || alg.inputSize != |alg.y|
    || (|alg.start| == 0 && (alg.direction == Both || (alg.direction == Forward && |alg.minimal| == 0)))
  }

  /**
   The indices `run()` reads as a start set name distinct columns of `Xmax`:
   the start indices, and the minimal indices when they serve as the start
   set (no start indices, FORWARD). Everywhere else the minimal indices are
   only searched with `contains`, so any values are accepted.
   */
  predicate StartSetValid(alg: Algorithm) {
    && ValidIndices(alg.start, |alg.xmax|)
    && (|alg.start| == 0 && alg.direction == Forward ==> ValidIndices(alg.minimal, |alg.xmax|))
  }

  /** The first index set: the start indices, or all columns (BACKWARD), or the minimal ones (FORWARD). */
  function StartIndices(alg: Algorithm): seq<nat> {
    if |alg.start| > 0 then alg.start
    else if alg.direction == Backward then Range(|alg.xmax|)
    else alg.minimal
  }

  /** The starting design of an accepted run. */
  function StartingDesign(alg: Algorithm): (d: Design)
    requires !Rejected(alg)
    requires StartSetValid(alg)
    ensures Consistent(d, alg.xmax) && d.indices == StartIndices(alg)
  {
    if |alg.start| > 0 then StartDesign(alg.xmax, alg.start)
    else if alg.direction == Backward then FullDesign(alg.xmax)
    else StartDesign(alg.xmax, alg.minimal)
  }

  /** What the final fit of a run promises about the design it ends on. */
  ghost predicate FitOf(alg: Algorithm, fit: Fit, ln: real -> real) {
    var n := |alg.y|;
    && ValidIndices(fit.indices, |alg.xmax|)
    && Columns(alg.xmax, n)
    && fit.design == Gather(alg.xmax, fit.indices)
    && fit.terms == fit.indices
    && |fit.coefficients| == |fit.design|
    && fit.residual == Sub(alg.y, MatVec(fit.design, fit.coefficients, n))
    && (forall k :: 0 <= k < |fit.design| ==> Dot(fit.design[k], fit.residual) == 0.0)
    && fit.criterion == Penalized(alg.penalty, |fit.indices|, Fin(NormSq(fit.residual)), n, ln)
    && exists A: seq<Vec> ::
         && InverseOf(A, Gram(fit.design, n), |fit.design|)
         && fit.coefficients == Coefficients(A, TMul(fit.design, alg.y))
         && |fit.gramDiagonal| == |fit.design|
         && forall k :: 0 <= k < |fit.design| ==> fit.gramDiagonal[k] == A[k][k]
  }

  /** The final evaluation of `run()` on a design whose Gram inverse is `A`. */
  function Finish(alg: Algorithm, d: Design, A: seq<Vec>, ln: real -> real): (fit: Fit)
    requires Ready(d, alg.xmax, alg.y, A)
    requires InverseOf(A, Gram(d.columns, |alg.y|), |d.columns|)
    ensures fit.indices == d.indices && FitOf(alg, fit, ln)
    ensures fit.criterion == CurrentCriterion(alg, d, A, ln)
  {
    var n, p := |alg.y|, |d.columns|;
    var e := Evaluate(d.columns, alg.y, A);
    ConsistentIsDistinct(d, alg.xmax);
    assert d.columns == Gather(alg.xmax, d.indices);
    ResidualOrthogonal(d.columns, alg.y, A);
    var diagonal := seq(p, k requires 0 <= k < p => A[k][k]);
    Fit(d.indices, Terms(d, alg.xmax), d.columns, Coefficients(A, e.B), e.residual,
        Penalized(alg.penalty, p, Fin(e.rss), n, ln), diagonal)
  }
}

=== FILE: terms.dfy ===
/**
 The terms of the final meta-model: which basis function each coefficient of
 `regression` multiplies.

 `regression` is `A B` for the final design, so coefficient `k` belongs to
 the design's column `k`, which is basis function `currentIndices_[k]`. The
 source instead lists the chosen basis functions (and their names) by
 increasing basis index. The two orders agree exactly when the index set is
 increasing, which a forward step that adds a smaller index than the last
 one breaks.
 */
module MetaModelTerms {
  import opened LinAlg
  import opened Bookkeeping

  predicate Increasing(s: seq<nat>) {
    forall a, b :: 0 <= a < b < |s| ==> s[a] < s[b]
  }

  /**
   The loop over `k = 0 .. P-1` that keeps the `k` contained in the index
   set: the chosen basis functions by increasing index.
   */
  function AscendingSelection(S: seq<nat>, P: nat): (r: seq<nat>)
    ensures forall j: nat :: j in r <==> j < P && j in S
    ensures Increasing(r)
    decreases P
  {
    if P == 0 then []
    else
      var rest := AscendingSelection(S, P - 1);
      forall k | 0 <= k < |rest| ensures rest[k] < P - 1 {
        assert rest[k] in rest;
      }
      rest + (if P - 1 in S then [P - 1] else [])
  }

  /** Two increasing sequences with the same elements are equal. */
  lemma {:induction false} IncreasingUnique(a: seq<nat>, b: seq<nat>)
    requires Increasing(a) && Increasing(b)
    requires forall j :: j in a <==> j in b
    ensures a == b
    decreases |a|
  {
    assert |b| > 0 ==> b[0] in b && b[0] in a;
    if |a| > 0 {
      assert a[0] in a && a[0] in b;
      var ib :| 0 <= ib < |b| && b[ib] == a[0];
      assert b[0] in b && b[0] in a;
      var ia :| 0 <= ia < |a| && a[ia] == b[0];
      assert a[0] == b[0];
      forall j ensures j in a[1..] <==> j in b[1..] {
        if j in a[1..] {
          var k :| 0 <= k < |a[1..]| && a[1..][k] == j;
          assert a[k + 1] == j && a[0] < j;
          assert j in a && j in b;
          var m :| 0 <= m < |b| && b[m] == j;
          assert m > 0 && b[1..][m - 1] == j;
        }
        if j in b[1..] {
          var k :| 0 <= k < |b[1..]| && b[1..][k] == j;
          assert b[k + 1] == j && b[0] < j;
          assert j in b && j in a;
          var m :| 0 <= m < |a| && a[m] == j;
          assert m > 0 && a[1..][m - 1] == j;
        }
      }
      IncreasingUnique(a[1..], b[1..]);
    }
  }

  /**
   For a duplicate-free index set below `P`, the source's ascending list is
   the index set itself exactly when the index set is increasing.
   */
  lemma AscendingMatchesIndicesIff(S: seq<nat>, P: nat)
    requires forall k :: 0 <= k < |S| ==> S[k] < P
    ensures AscendingSelection(S, P) == S <==> Increasing(S)
  {
    if Increasing(S) {
      var r := AscendingSelection(S, P);
      forall j ensures j in r <==> j in S {
        if j in S {
          var k :| 0 <= k < |S| && S[k] == j;
        }
      }
      IncreasingUnique(r, S);
    }
  }

  /**
   The meta-model terms as the source lists them: basis function `k` of the
   list is paired with coefficient `k` of `regression`.
   */
  function TermsAsWritten(indices: seq<nat>, P: nat): (r: seq<nat>)
    ensures Increasing(r)
    ensures forall j: nat :: j in r <==> j < P && j in indices
  {
    AscendingSelection(indices, P)
  }

  /**
   The terms in the order of the design's columns, so that term `k` is the
   column coefficient `k` multiplies.
   */
  function Terms(d: Design, xmax: seq<Vec>): (r: seq<nat>)
    requires Consistent(d, xmax)
    ensures |r| == |d.columns|
    ensures forall k :: 0 <= k < |r| ==> r[k] < |xmax| && xmax[r[k]] == d.columns[k]
    ensures forall j: nat :: j in r <==> j < |xmax| && j in d.indices
  {
    d.indices
  }

  /**
   With the corrected terms, the meta-model evaluated at the sample points is
   the design times the coefficients, whatever the coefficients are.
   */
  lemma TermsReproduceDesign(d: Design, xmax: seq<Vec>, n: nat, c: Vec)
    requires Consistent(d, xmax) && Columns(xmax, n) && |c| == |d.columns|
    ensures Columns(Gather(xmax, Terms(d, xmax)), n)
    ensures MatVec(Gather(xmax, Terms(d, xmax)), c, n) == MatVec(d.columns, c, n)
  {
    assert Gather(xmax, Terms(d, xmax)) == d.columns;
  }

  /**
   The index set `[0, 2, 1]`, reached by starting from column 0 and adding
   columns 2 and 1, with the coefficients `[0, 1, 0]` on the one-row `Xmax`
   `[1, 2, 3]`: the design predicts 3, the as-written meta-model 2.
   */
  lemma TermsAsWrittenMisplaceCoefficients()
    ensures TermsAsWritten([0, 2, 1], 3) == [0, 1, 2]
    ensures MatVec(Gather([[1.0], [2.0], [3.0]], [0, 2, 1]), [0.0, 1.0, 0.0], 1) == [3.0]
    ensures MatVec(Gather([[1.0], [2.0], [3.0]], TermsAsWritten([0, 2, 1], 3)), [0.0, 1.0, 0.0], 1) == [2.0]
  {
    AscendingOfExample();
    OneRowProduct([1.0], [3.0], [2.0]);
    OneRowProduct([1.0], [2.0], [3.0]);
    assert Gather([[1.0], [2.0], [3.0]], [0, 2, 1]) == [[1.0], [3.0], [2.0]];
    assert Gather([[1.0], [2.0], [3.0]], [0, 1, 2]) == [[1.0], [2.0], [3.0]];
  }

  lemma AscendingOfExample()
    ensures TermsAsWritten([0, 2, 1], 3) == [0, 1, 2]
  {
    var asc := TermsAsWritten([0, 2, 1], 3);
    var r: seq<nat> := [0, 1, 2];
    forall j ensures j in asc <==> j in r {
      assert j in [0, 2, 1] <==> j in r;
    }
    IncreasingUnique(asc, r);
  }

  /** A three-column one-row design times `[0, 1, 0]` picks the middle column. */
  lemma OneRowProduct(a: Vec, b: Vec, c: Vec)
    requires |a| == |b| == |c| == 1
    ensures MatVec([a, b, c], [0.0, 1.0, 0.0], 1) == b
  {
    var X := [a, b, c];
    var w: Vec := [0.0, 1.0, 0.0];
    assert MatVec(X[2..], w[2..], 1) == Scale(0.0, c) by {
      assert X[2..][1..] == [] && w[2..][1..] == [];
      assert MatVec([], [], 1) == Zeros(1);
    }
    assert MatVec(X[1..], w[1..], 1) == b by {
      assert X[1..][1..] == X[2..] && w[1..][1..] == w[2..];
    }
    assert MatVec(X, w, 1) == Add(Scale(0.0, a), b);
  }
}
